=== FILE: README.md ===
# luna-audio core in Dafny

This project models the audio tools of luna-audio for the OMRON LUNA workstation:

- `lunaplay` converts between unsigned 8-bit PCM and the PSG encodings that the LUNA's sound processor plays. The PSG encodings are PCM1/PCM2/PCM3 and PAM2/PAM3, which are one, two or three 4-bit channel levels per sample. `lunaplay` reads WAV and PSGPCM files and writes to a file or to the XP sound processor's shared memory.
- `gentbl` generates the conversion tables.
- `cdump` dumps a file as a C array initializer.
- `naplay` plays AU and WAV files on a NetBSD `/dev/audio`.

Everything is a pure function over immutable data:

- A file descriptor is a `Source` or a `Sink`: the bytes of the file plus a finite list of replies. Each reply is a partial transfer, `EAGAIN` or an error. After the list runs out, the descriptor behaves like a regular file. Every error path of the C code is therefore a reachable branch of the model.
- A buffer (`BUFFER`) is a `Block`: its storage plus its valid length.
- The XP shared memory is a `map<int, byte>`. The values the processor writes while the host busy-waits come in as a parameter.
- The generated tables and the decoder's floating-point tail are parameters. The conversion code uses them only by lookup.

Modules follow the source files:

| module | file it models |
|---|---|
| `Bytes` | byte codecs |
| `Text` | `tolower` and `strcasecmp` |
| `Consts` | the ENC_/FMT_/STR_ constants and XP_BUFSIZE, whose definitions are not part of this model |
| `FileHelper` | `filehelper.c` |
| `Buffers` | the reader and writer bodies shared by `psgpcm.c` and `wav.c` |
| `PsgConv` | `psgconv.c` |
| `GenTbl` | `gentbl.c` |
| `Lunaplay` | `lunaplay.c` helpers and buffer set-up |
| `Transfer` | `lunaplay.c` transfer loop and shutdown |
| `DevXp` | `devxp.c` |
| `Wav` | `wav.c` |
| `Psgpcm` | `psgpcm.c` |
| `Format` | `format.c` |
| `MainFormat` | `main.c` |
| `CDump` | `cdump.c` |
| `Naplay` | `naplay/naplay.c` |

## Model

| member | source | states |
|---|---|---|
| Bytes.ToInt32 | lunaplay/filehelper.c:50-57 | the `int32_t` a 32-bit pattern stands for: within the signed range and congruent to the pattern modulo 2^32 |
| Bytes.Int32RoundTrip | lunaplay/filehelper.c:89-96 | storing an `int32_t` as 32 bits and reading it back as signed gives the same value |
| Bytes.Le16 | lunaplay/filehelper.c:98-105 | the two bytes `write16le` emits decode little-endian to the value |
| Bytes.Le32 | lunaplay/filehelper.c:89-96 | the four bytes `write32le` emits decode little-endian to the value |
| Bytes.Be16 | lunaplay/psgconv.c:78-89 | a 16-bit word as the m68k stores it: high byte first, and the two bytes give back the word |
| Bytes.Be32 | lunaplay/psgconv.c:114-125 | a 32-bit word as the m68k stores it, which decodes back to the word |
| Bytes.Le32Bijective | lunaplay/filehelper.c:50-57 | encoding the decoded value of four bytes gives the same bytes, so the codec is a bijection |
| Bytes.Le16Bijective | lunaplay/filehelper.c:59-66 | the same for two bytes |
| Bytes.Be32Bijective | lunaplay/filehelper.c:118-125 | the same for big-endian tags |
| Bytes.FlipSign | lunaplay/psgconv.c:183-196 | `^ 0x80` swaps the signed and unsigned halves of the byte range and keeps the low 7 bits |
| Bytes.FlipSignInvolutive | lunaplay/wav.c:230-252 | flipping the sign bit twice restores the byte |
| Bytes.LowNibble | lunaplay/psgconv.c:68 | `& 15` is a level below 16 that differs from the byte by a multiple of 16 |
| Text.Lower | lunaplay/format.c:44-55 | `tolower` changes exactly 'A'..'Z', each to its lower-case letter, and maps NUL only to NUL |
| Text.SameIgnoringCaseIsEquivalence | lunaplay/format.c:44-55 | `strcasecmp(a, b) == 0` is reflexive, symmetric and transitive |
| Text.FirstSame | lunaplay/format.c:46-53 | the table loop returns the first index whose name equals the argument ignoring case, and -1 exactly when no name does |
| Text.FirstSameOfName | lunaplay/main.c:63-74 | with names distinct up to case, any spelling of the name at `i` is found at `i` |
| Text.FirstSameIgnoresCase | lunaplay/format.c:46-53 | two spellings that differ only in case give the same lookup result |
| Buffers.ReadAppend | lunaplay/psgpcm.c:92-105 | the reader appends exactly the next bytes of the file after the valid ones, stops short only at end of file, returns the new length, and returns -1 with the length unchanged only after an error reply |
| Buffers.WriteFlush | lunaplay/psgpcm.c:109-116 | the writer sends exactly the valid bytes, empties the buffer, and returns their count, or -1 only after an error reply |
| FileHelper.SysRead | lunaplay/filehelper.c:16 | one `read` hands out a prefix of the remaining bytes, at most the request; on a regular file exactly min(request, remaining); EAGAIN and errors deliver nothing |
| FileHelper.ReadyRead | lunaplay/filehelper.c:16-26 | on a descriptor whose replies all transfer data, a read succeeds and returns nothing only at end of file |
| FileHelper.ReadEmptyAtEof | lunaplay/filehelper.c:24-26 | a successful read of no bytes means end of file |
| FileHelper.SysWrite | lunaplay/filehelper.c:37 | one `write` appends a prefix of the data; on a regular file all of it |
| FileHelper.ReadBuf | lunaplay/filehelper.c:11-29 | `readbuf` returns min(length, remaining) bytes from the front of the file whatever EAGAINs and partial reads occur, stops early only at end of file, and returns -1 only after an error reply |
| FileHelper.ReadBufFrom | lunaplay/filehelper.c:15-28 | the same for the loop with some bytes already delivered |
| FileHelper.WriteBuf | lunaplay/filehelper.c:32-47 | `writebuf` appends a prefix of the data, the whole of it when it returns `length`, and returns -1 only after an error reply |
| FileHelper.WriteAll | lunaplay/filehelper.c:36-45 | the same for the loop on the bytes still pending |
| FileHelper.ReadExact | lunaplay/filehelper.c:50-57 | a one-call fixed-size read succeeds only with all `k` bytes, and on a regular file exactly when `k` bytes remain |
| FileHelper.Read32Le | lunaplay/filehelper.c:50-57 | `read32le` succeeds exactly when 4 bytes remain, and its value's little-endian bytes are those 4 bytes |
| FileHelper.Read16Le | lunaplay/filehelper.c:59-66 | likewise for 2 bytes |
| FileHelper.ReadTag | lunaplay/filehelper.c:118-125 | `readtag` succeeds exactly when 4 bytes remain, and its value's big-endian bytes are those 4 bytes |
| FileHelper.CmpTagIff | lunaplay/filehelper.c:135-145 | `cmptag` holds exactly when the tag's big-endian bytes are the four characters |
| FileHelper.ReadTagMatches | lunaplay/filehelper.c:135-145 | reading a tag and comparing it succeeds exactly when the next four bytes are the literal |
| FileHelper.ReadTagOn | lunaplay/filehelper.c:118-125 | on a regular file the tag is the next four bytes and the rest is left |
| FileHelper.Read32LeOn | lunaplay/filehelper.c:50-57 | on a regular file the field is the next four bytes and the rest is left |
| FileHelper.Read16LeOn | lunaplay/filehelper.c:59-66 | on a regular file the field is the next two bytes and the rest is left |
| FileHelper.ReadSkip | lunaplay/filehelper.c:76-86 | `readskip` returns the count after dropping exactly that many bytes, or 0 once a byte is missing; a count of 0 or less reads nothing and is returned as is |
| FileHelper.ReadSkipOn | lunaplay/filehelper.c:76-86 | on a regular file, skipping `n > 0` bytes drops exactly those bytes |
| FileHelper.ReadSkipFrom | lunaplay/filehelper.c:80-85 | the same for the loop part-way through |
| FileHelper.WriteExact | lunaplay/filehelper.c:89-96 | a fixed-size write counts only when all bytes went out, and always on a regular file |
| FileHelper.Le32FieldRoundTrip | lunaplay/filehelper.c:89-96 | what `write32le` writes, `read32le` reads back as the same `int32_t`, leaving what follows |
| FileHelper.Le16FieldRoundTrip | lunaplay/filehelper.c:98-105 | what `write16le` writes, `read16le` reads back as the same 16-bit pattern |
| PsgConv.Put | lunaplay/psgconv.c:78-89 | storing a unit changes exactly its bytes |
| PsgConv.U8ToPcm1 | lunaplay/psgconv.c:44-55 | output byte `i` is the PCM1 table entry of sample `i`, for every sample, and bytes past the samples are untouched |
| PsgConv.U8ToPcm2 | lunaplay/psgconv.c:78-89 | output word `i` is the big-endian PCM2 table entry of sample `i`, and the rest of `dst` is untouched |
| PsgConv.U8ToPcm3 | lunaplay/psgconv.c:114-125 | output 32-bit word `i` is the big-endian PCM3 table entry of sample `i`, and the rest is untouched |
| PsgConv.Pcm1ToU8 | lunaplay/psgconv.c:57-75 | output byte `i` is the decoder tail applied to the voltage of the low nibble of input byte `i` |
| PsgConv.Pcm2ToU8 | lunaplay/psgconv.c:91-111 | output byte `i` is the tail applied to the summed voltage of the two channel nibbles of input unit `i` |
| PsgConv.Pcm3ToU8 | lunaplay/psgconv.c:127-150 | output byte `i` is the tail applied to the summed voltage of the three channel nibbles after the skipped top byte of unit `i` |
| PsgConv.U8ToPcm1From | lunaplay/psgconv.c:52-54 | the loop from `i` on: earlier outputs kept, later ones table entries |
| PsgConv.U8ToPcm2From | lunaplay/psgconv.c:86-88 | the same for PCM2 words |
| PsgConv.U8ToPcm3From | lunaplay/psgconv.c:122-124 | the same for PCM3 words |
| PsgConv.Pcm1ToU8From | lunaplay/psgconv.c:65-74 | the same for the PCM1 decoder |
| PsgConv.Pcm2ToU8From | lunaplay/psgconv.c:99-110 | the same for the PCM2 decoder |
| PsgConv.Pcm3ToU8From | lunaplay/psgconv.c:135-149 | the same for the PCM3 decoder |
| PsgConv.S16ToPcm1From | lunaplay/psgconv.c:191-194 | the signed 16-bit loop: output `j` is the PCM1 entry of the sign-flipped high byte of sample `j` |
| PsgConv.S16ToPcm2From | lunaplay/psgconv.c:218-225 | the same for PCM2 words |
| PsgConv.S16ToPcm3From | lunaplay/psgconv.c:248-255 | the same for PCM3 words |
| PsgConv.S16BeToPcm1 | lunaplay/psgconv.c:183-196 | output byte `i` is the PCM1 entry of the first byte of big-endian sample `i` with its sign bit flipped |
| PsgConv.S16LeToPcm1 | lunaplay/psgconv.c:197-210 | likewise with the second byte of a little-endian sample |
| PsgConv.S16BeToPcm2 | lunaplay/psgconv.c:213-226 | output word `i` is the PCM2 entry of big-endian sample `i`'s sign-flipped high byte |
| PsgConv.S16LeToPcm2 | lunaplay/psgconv.c:227-240 | likewise for little-endian samples |
| PsgConv.S16BeToPcm3 | lunaplay/psgconv.c:243-256 | output word `i` is the PCM3 entry of big-endian sample `i`'s sign-flipped high byte |
| PsgConv.S16LeToPcm3 | lunaplay/psgconv.c:257-271 | likewise for little-endian samples |
| PsgConv.U8ToPam2 | lunaplay/psgconv.c:15-19 | PAM2 encoding stores the PCM2 table entry per sample |
| PsgConv.Pam2ToU8 | lunaplay/psgconv.c:21-25 | PAM2 decoding is the PCM2 decoder |
| PsgConv.U8ToPam3 | lunaplay/psgconv.c:31-35 | PAM3 encoding stores the PCM3 table entry per sample |
| PsgConv.Pam3ToU8 | lunaplay/psgconv.c:37-41 | PAM3 decoding is the PCM3 decoder |
| PsgConv.S16BeToPam2 | lunaplay/psgconv.c:157-161 | big-endian 16-bit to PAM2 stores the PCM2 entries of the sign-flipped high bytes |
| PsgConv.S16LeToPam2 | lunaplay/psgconv.c:163-167 | the same for little-endian input |
| PsgConv.S16BeToPam3 | lunaplay/psgconv.c:170-174 | big-endian 16-bit to PAM3 stores the PCM3 entries |
| PsgConv.S16LeToPam3 | lunaplay/psgconv.c:176-180 | the same for little-endian input |
| PsgConv.Pcm1ReadsOnlyLowNibbles | lunaplay/psgconv.c:68 | inputs that agree on their low nibbles decode alike: the upper four bits are ignored |
| PsgConv.Pcm2ReadsOnlyLowNibbles | lunaplay/psgconv.c:102-105 | the same for both channel bytes of PCM2 |
| PsgConv.Pcm3ReadsOnlyChannelNibbles | lunaplay/psgconv.c:138-144 | PCM3 decoding ignores each unit's top byte and the upper nibbles of its three channel bytes |
| PsgConv.Pcm2ChannelSwap | lunaplay/psgconv.c:102-105 | swapping the two channel bytes of every PCM2 unit does not change the decoded samples |
| PsgConv.S16LeOfSwappedIsBe1 | lunaplay/psgconv.c:183-210 | byte-swapping every sample turns the little-endian PCM1 converter's result into the big-endian one's |
| PsgConv.S16LeOfSwappedIsBe2 | lunaplay/psgconv.c:213-240 | the same for PCM2 |
| PsgConv.S16LeOfSwappedIsBe3 | lunaplay/psgconv.c:243-271 | the same for PCM3 |
| GenTbl.VtIncreasing | lunaplay/gentbl.c:12-29 | the 16 PSG output levels rise strictly from 0.0 to 1.0 |
| GenTbl.Pcm1Entries | lunaplay/gentbl.c:239-249 | the unsorted PCM1 candidates are the 16 levels of one channel |
| GenTbl.Pcm2Entries | lunaplay/gentbl.c:251-265 | the unsorted PCM2 candidates are all 256 level pairs with their summed voltage |
| GenTbl.Pcm3Entries | lunaplay/gentbl.c:267-283 | the unsorted PCM3 candidates are all 4096 level triples with their summed voltage |
| GenTbl.Pcm2EntryShape | lunaplay/gentbl.c:251-265 | every PCM2 candidate has levels below 16 whose voltages sum to its value |
| GenTbl.Pcm3EntryShape | lunaplay/gentbl.c:267-283 | every PCM3 candidate has levels below 16 whose voltages sum to its value |
| GenTbl.Pcm1EntryShape | lunaplay/gentbl.c:239-249 | every PCM1 candidate's value is its level's voltage |
| GenTbl.Insert | lunaplay/gentbl.c:65-69 | inserting into a sorted table keeps it sorted and adds exactly the new entry |
| GenTbl.PteSort | lunaplay/gentbl.c:54-69 | `pte_sort` yields a permutation of the table ordered by value |
| GenTbl.Pcm1Table | lunaplay/gentbl.c:239-249 | the PCM1 table is the 16 candidates sorted by voltage |
| GenTbl.Pcm2Table | lunaplay/gentbl.c:251-265 | the PCM2 table is the 256 candidates sorted by voltage |
| GenTbl.Pcm3Table | lunaplay/gentbl.c:267-283 | the PCM3 table is the 4096 candidates sorted by voltage |
| GenTbl.Pcm2TableShape | lunaplay/gentbl.c:251-265 | after sorting, every entry still sums its two levels' voltages |
| GenTbl.Pcm3TableShape | lunaplay/gentbl.c:267-283 | after sorting, every entry still sums its three levels' voltages |
| GenTbl.Bisect | lunaplay/gentbl.c:74-88 | the bisection ends at an index of the table inside the bracket it started with |
| GenTbl.Scan | lunaplay/gentbl.c:90-104 | the window loop picks the entry nearest the target, the first one among equally near entries |
| GenTbl.PteSearch | lunaplay/gentbl.c:71-105 | `pte_search` returns an entry within one place of the bisection's midpoint that is nearest the target in that window |
| GenTbl.BisectNearTarget | lunaplay/gentbl.c:74-88 | in a sorted table that holds the target, the bisection stops within one place of an entry holding it |
| GenTbl.SearchFindsPresentValue | lunaplay/gentbl.c:71-105 | a target value present in the sorted table is found exactly |
| GenTbl.U8V | lunaplay/gentbl.c:48-52 | a sample maps into [0, 1], with 0 and 255 at the ends |
| GenTbl.PtoRow | lunaplay/gentbl.c:124-138 | a row holds its sample's value, the gained value, and an entry of the table |
| GenTbl.Pick | lunaplay/gentbl.c:132 | the searched entry is an entry of the table |
| GenTbl.PtoMake | lunaplay/gentbl.c:124-138 | `pto_make` builds one row per sample, row `i` for sample `i` |
| GenTbl.PtoMakeExactWhenPresent | lunaplay/gentbl.c:124-138 | a gained value the table holds is reproduced exactly |
| GenTbl.CountDown | lunaplay/gentbl.c:145-151 | the backward count covers exactly the rows with the same value up to the first differing one |
| GenTbl.CountUp | lunaplay/gentbl.c:152-158 | the forward count likewise |
| GenTbl.PtoRegion | lunaplay/gentbl.c:140-160 | `pto_region` is the length of the one maximal run of equal chosen values containing the row |
| GenTbl.MaximalRunUnique | lunaplay/gentbl.c:140-160 | a row lies in exactly one maximal run |
| GenTbl.RunLengthDetermined | lunaplay/gentbl.c:140-160 | the run length around a row does not depend on how the run is found |
| GenTbl.Changes | lunaplay/gentbl.c:175-188 | the reference count of value changes between neighbouring rows is at most n - 1 |
| GenTbl.LevelFrom | lunaplay/gentbl.c:181-186 | the loop adds the changes from its position on to what it has counted |
| GenTbl.PtoLevel | lunaplay/gentbl.c:175-188 | `pto_level` counts the distinct runs: one more than the number of changes, between 1 and n |
| GenTbl.Code | lunaplay/gentbl.c:198-220 | the printed code is the level for one channel, the two levels as the high and low byte for two, and a zero byte then the three levels for three; other channel counts are an error |
| GenTbl.Code2Bytes | lunaplay/gentbl.c:216 | a two-channel code stored big-endian is the two level bytes |
| GenTbl.Code3Bytes | lunaplay/gentbl.c:218-219 | a three-channel code stored big-endian is a zero byte and the three level bytes |
| GenTbl.Pcm1WordDecodesToEntry | lunaplay/psgconv.c:57-75 | a PCM1 code decodes to its table entry's voltage |
| GenTbl.Pcm2Word | lunaplay/psgconv.c:91-111 | a two-channel code decodes to the sum of its levels' voltages |
| GenTbl.Pcm2WordDecodesToEntry | lunaplay/psgconv.c:91-111 | a PCM2 table code decodes to its entry's voltage, so table and decoder agree |
| GenTbl.Volt2OfLevels | lunaplay/psgconv.c:102-105 | the decoder's sum over two level bytes |
| GenTbl.Pcm3Word | lunaplay/psgconv.c:127-150 | a three-channel code decodes to the sum of its levels' voltages |
| GenTbl.Pcm3WordDecodesToEntry | lunaplay/psgconv.c:127-150 | a PCM3 table code decodes to its entry's voltage |
| GenTbl.Volt3OfLevels | lunaplay/psgconv.c:138-144 | the decoder skips the zero byte and sums three levels |
| DevXp.LoadFirmware | lunaplay/devxp.c:61-88 | the firmware is accepted exactly when its size is in [0x200, 0xfe00], one read delivers all of it, and the magic sits at 0x100 |
| DevXp.FirmwareAcceptedIff | lunaplay/devxp.c:61-88 | on an error-free file, accepted exactly for sizes in range with the magic in place; the minimum size keeps the magic inside the file |
| DevXp.WriteInit | lunaplay/devxp.c:121-143 | a rate of 0 divides by zero; otherwise set-up fails exactly when the divisor is below 6, and on success only the timer and encoding bytes change and the pages start at 0, not started |
| DevXp.ZeroRateFileTraps | lunaplay/lunaplay.c:327-329 | a WAV file recording rate 0, played without `-f`, reaches the division by zero |
| DevXp.InitFailsIff | lunaplay/devxp.c:128-132 | in rates: set-up fails exactly above 51200 Hz or for a negative rate |
| DevXp.TooLowIff | lunaplay/devxp.c:133-136 | the "too low" warning is printed exactly for rates 1 to 3938 Hz |
| DevXp.StoreFacts | lunaplay/devxp.c:178 | copying into shared memory changes exactly the copied window |
| DevXp.XpWrite | lunaplay/devxp.c:165-186 | a write copies the valid bytes into the current page, starts playback on the first write, flips the page, empties the buffer and returns the byte count |
| DevXp.WriteSeq | lunaplay/devxp.c:165-186 | after `n` writes from set-up the page is `n mod 2` |
| DevXp.PagesAlternate | lunaplay/devxp.c:168 | the `k`-th write from set-up goes to page `k mod 2`, alternating 0x4000 and 0x8000 |
| Lunaplay.EncStride | lunaplay/lunaplay.c:34-52 | bytes per unit: 1 for U8 and PCM1, 2 for PCM2/PAM2, 4 for PCM3/PAM3; any other encoding is fatal |
| Lunaplay.GetConvU8To | lunaplay/lunaplay.c:54-74 | the converter from U8 exists exactly for the known encodings and reads one byte to write one unit of the target's stride |
| Lunaplay.GetConvFromU8 | lunaplay/lunaplay.c:76-96 | the converter to U8 exists exactly for the known encodings and reads one unit of the source's stride to write one byte |
| Lunaplay.Apply | lunaplay/lunaplay.c:418 | running a converter over `count` units leaves `dst` past the written units untouched |
| Lunaplay.Setup | lunaplay/lunaplay.c:341-358 | buffer set-up succeeds exactly for equal encodings, U8 to a known encoding, or a known encoding to U8; shares `dst` when the encodings are equal, and otherwise sizes `src` to hold as many units as `dst` |
| Lunaplay.DivExact | lunaplay/lunaplay.c:356 | with a block divisible by 4, the stride scaling is exact |
| Lunaplay.FullBlockConverts | lunaplay/lunaplay.c:349-358 | a full `src` block is a whole number of input units whose output fills `dst` exactly |
| Lunaplay.Released | lunaplay/lunaplay.c:98-105 | `buffer_free` releases the region exactly when the buffer owns it |
| Lunaplay.FreesEachRegionOnce | lunaplay/lunaplay.c:429-430 | the two frees release every set-up region once, whether or not the buffers share storage |
| Lunaplay.Memset8 | lunaplay/lunaplay.c:107-112 | `memset8` sets exactly the `len` bytes from `off` to the value |
| Lunaplay.Memset16 | lunaplay/lunaplay.c:114-122 | `memset16` fills exactly the range with the big-endian copies of the 16-bit value |
| Lunaplay.Memset32 | lunaplay/lunaplay.c:124-132 | `memset32` fills exactly the range with the big-endian copies of the 32-bit value |
| Lunaplay.Be16OfByte | lunaplay/lunaplay.c:143 | a byte widened to 16 bits is stored as a zero byte then the byte |
| Lunaplay.Be32OfByte | lunaplay/lunaplay.c:145 | a byte widened to 32 bits is stored as three zero bytes then the byte |
| Lunaplay.FillTail | lunaplay/lunaplay.c:134-149 | `filltail` keeps the valid bytes and pads the rest of the block with the byte `stride` places before the end of the valid data, zero-extended to the stride and stored big-endian; other strides are fatal; fewer valid bytes than a unit (a read before the buffer) and a tail that is not whole units (a store past the buffer) are told apart as errors |
| Lunaplay.PartialUnitReachesStore | lunaplay/lunaplay.c:413-417 | a PSGPCM file whose PCM2 or PCM3 data is not whole units and is shorter than a block comes back from `psgpcm_read` short, and `filltail` on it stores past the buffer |
| Lunaplay.LastDot | lunaplay/lunaplay.c:27 | `strrchr` finds a '.' exactly when the name has one |
| Lunaplay.IsExtension | lunaplay/lunaplay.c:23-32 | a name without '.' has no extension, and one with '.' has one exactly when the part from its last '.' begins with the extension, ignoring case |
| Transfer.BodyIsLoopTrace | lunaplay/lunaplay.c:402-424 | one pass resets the lengths, reads, and then stops, crashes on an absent converter, or converts and writes |
| Transfer.RunLoop | lunaplay/lunaplay.c:402-424 | the loop stops exactly at a read that returns 0 or less or a write that fails; without a converter it crashes exactly on the first read that returns data; the writer always sees the reset length |
| Transfer.ReleaseEvents | lunaplay/lunaplay.c:429-430 | the frees come in region order |
| Transfer.ClosersRunOnce | lunaplay/lunaplay.c:426-427 | after a normal exit the input closer, then the output closer, runs once; after a crash neither runs |
| Transfer.EqualEncodingsCrash | lunaplay/lunaplay.c:344-348 | as written: equal encodings set up no converter, and the first read that returns data calls through NULL before any closer |
| Transfer.SetupFixed | lunaplay/lunaplay.c:341-358 | corrected: the same buffers, with the pass-through converter for equal encodings |
| Transfer.FixedSetupNeverCrashes | lunaplay/lunaplay.c:402-430 | with the corrected set-up the loop never calls NULL and, once it stops, both closers run once |
| Wav.ReadFields | lunaplay/wav.c:63-72 | a run of fixed-size reads yields fields of the requested widths that are the front of the file |
| Wav.ReadFieldsOnFile | lunaplay/wav.c:63-72 | on a regular file the run succeeds exactly when the file holds the summed widths |
| Wav.FmtSlices | lunaplay/wav.c:63-72 | the "fmt " fields are the slices at their fixed offsets |
| Wav.ReadFmt | lunaplay/wav.c:63-72 | the "fmt " fields are the next 20 bytes, read exactly when 20 bytes remain |
| Wav.ReadFmtOn | lunaplay/wav.c:63-72 | on a regular file the fields decode from the next 20 bytes |
| Wav.Chunks | lunaplay/wav.c:57-113 | a successful chunk scan consumes at least a chunk header |
| Wav.ChunksStopAtData | lunaplay/wav.c:96-101 | a "data" chunk header ends the scan with the descriptor at the first sample |
| Wav.ChunksTakeFmt | lunaplay/wav.c:63-95 | a "fmt " chunk declaring 16 plus `x` bytes becomes the format and its `x` extra bytes are skipped |
| Wav.ChunksRejectShortFmt | lunaplay/wav.c:85-88 | a "fmt " chunk declaring fewer than 16 bytes is rejected |
| Wav.ChunksSkipOther | lunaplay/wav.c:102-112 | a chunk of another kind with positive length is skipped whole |
| Wav.ChunksRejectEmptyOther | lunaplay/wav.c:102-112 | an unknown chunk declared empty is rejected, because skipping 0 bytes reports 0 |
| Wav.SelectReader | lunaplay/wav.c:126-148 | a reader exists exactly for 1 or 2 channels of 8 or 16 bits, and it is the one for that pair |
| Wav.ReadInit | lunaplay/wav.c:29-161 | accepted exactly when the file starts with "RIFF", a length and "WAVE", the chunk scan succeeds with a format, and the format is PCM with a channel count and width a reader handles |
| Wav.Accept | lunaplay/wav.c:121-160 | after the scan: accepted exactly for format id 1 with a supported reader, returning the rate, that reader and U8 samples |
| Wav.ReadInitOn | lunaplay/wav.c:46-55 | the RIFF length is not looked at: the verdict is the chunk scan's |
| Wav.Avg | lunaplay/wav.c:224 | `(a + b) >> 1` is the average rounded down |
| Wav.Place | lunaplay/wav.c:219-226 | storing after the valid bytes keeps them and sets the new length |
| Wav.MixU8 | lunaplay/wav.c:217-225 | the stereo 8-bit mono bytes are the averages of each pair |
| Wav.HighLe | lunaplay/wav.c:243-249 | the mono 16-bit bytes are the sign-flipped high bytes |
| Wav.MixLe | lunaplay/wav.c:267-277 | the stereo 16-bit bytes average the two sign-flipped high bytes |
| Wav.Fetch | lunaplay/wav.c:209-215 | one `readbuf` into the stack buffer gets the front of the file |
| Wav.Deliver | lunaplay/wav.c:243-251 | the converted units follow the valid bytes and the length grows by their number |
| Wav.Read2u8Step | lunaplay/wav.c:203-228 | as written: averaged pairs are stored, but the length grows by the bytes READ, so it can exceed the block |
| Wav.Read1s16leStep | lunaplay/wav.c:230-252 | the high bytes of whole samples are appended, the length grows by the samples read, and an odd trailing byte is consumed |
| Wav.Read2s16leStep | lunaplay/wav.c:254-280 | the averaged high bytes of whole stereo frames are appended and the length grows by the frames read |
| Wav.ReadWith | lunaplay/wav.c:126-148 | the installed reader appends after the valid bytes and returns the length; every reader but the stereo 8-bit one stays within the block |
| Wav.ReadWithFixed | lunaplay/wav.c:126-148 | corrected dispatch: every reader keeps the valid length within the block |
| Wav.Read2u8Overruns | lunaplay/wav.c:217-226 | as written, 4 bytes into an empty 2-byte block report length 4 |
| Wav.Read2u8Fixed | lunaplay/wav.c:203-228 | corrected: the length grows by the averaged bytes stored, and stays within the block |
| Wav.Read2u8FixedFills | lunaplay/wav.c:203-228 | corrected, with enough input the block fills exactly |
| Wav.FmtFieldsDecode | lunaplay/wav.c:330-337 | the written format chunk reads back as PCM, mono, the rate, 8 bits, length 16 |
| Wav.HeaderLayout | lunaplay/wav.c:317-340 | the header is 44 bytes: RIFF and length, WAVE, the format chunk, then the data tag and length |
| Wav.WriteFields | lunaplay/wav.c:317-340 | the chain of writes succeeds only having written all fields in order, and always on a regular file |
| Wav.CopyOut | lunaplay/wav.c:346-359 | the copy loop appends the whole temporary file, and always succeeds on regular files |
| Wav.WriteClose | lunaplay/wav.c:304-366 | `wav_write_close` returns 0 or -1; on 0 the output is the header then the samples, and it returns 0 on regular files |
| Wav.WriteCloseOn | lunaplay/wav.c:304-366 | on regular files the output is the header followed by the samples |
| Wav.WrittenChunks | lunaplay/wav.c:57-113 | the chunk scan over a written file takes the format chunk and stops at the samples |
| Wav.ReadBackHeader | lunaplay/wav.c:29-161 | a written header reads back as U8 mono at the same rate, with the samples right after it |
| Wav.WavRoundTrip | lunaplay/wav.c:304-366 | what `wav_write_close` writes, `wav_read_init` accepts at the same rate with the mono 8-bit reader at the first sample |
| Psgpcm.ReadInit | lunaplay/psgpcm.c:26-75 | accepted exactly when the file starts with "PSGP", a 16-bit encoding that is a PSG one, and a 32-bit rate; the fields are the little-endian decodings |
| Psgpcm.ReadInitOn | lunaplay/psgpcm.c:26-75 | on a regular file the verdict depends only on the encoding field |
| Psgpcm.WriteInit | lunaplay/psgpcm.c:77-88 | the header is the tag and the two little-endian fields, appended to what was written |
| Psgpcm.WriteInitOn | lunaplay/psgpcm.c:77-88 | on a regular file the header is exactly those 10 bytes |
| Psgpcm.HeaderRoundTrip | lunaplay/psgpcm.c:26-88 | a header written for a PSG encoding and a rate that fit their fields reads back as the same values, with the descriptor at the first sample |
| Format.ParseArgFormatEnc | lunaplay/format.c:44-55 | fails exactly when no name matches ignoring case, leaving the outputs unchanged; otherwise it sets them from a matching row |
| Format.FirstCode | lunaplay/format.c:57-66 | the first row with the code, or -1 exactly when there is none |
| Format.NameOf | lunaplay/format.c:57-66 | a code's name is that of its first row, or the unknown name |
| Format.NameAt | lunaplay/format.c:57-66 | the first row found gives the name |
| Format.FormatNames | lunaplay/format.c:57-66 | with distinct codes each format is named by its row and other codes are unknown |
| Format.EncNames | lunaplay/format.c:68-77 | with distinct codes each encoding is named by its row and exactly the other codes are unknown |
| Format.ArgNamesParse | lunaplay/format.c:13-21 | each command-line name parses to its own row: WAV and AU with U8, the PSG names with PSGPCM |
| Format.EncNameRoundTrip | lunaplay/format.c:44-77 | the name of a PSG encoding parses back to that encoding in PSGPCM |
| Format.ParseIgnoresCase | lunaplay/format.c:44-55 | names that differ only in case parse alike |
| MainFormat.ParseFormat | lunaplay/main.c:63-74 | the first list position equal ignoring case, or -1 exactly when none is |
| MainFormat.FormatToStr | lunaplay/main.c:76-85 | a code in range names its list entry, any other gives "?" |
| MainFormat.NamesDistinct | lunaplay/main.c:53-61 | no two names are equal ignoring case |
| MainFormat.FormatRoundTrip | lunaplay/main.c:63-85 | naming a code and parsing the name gives the code back |
| MainFormat.ParseIgnoresCase | lunaplay/main.c:63-74 | any change of case parses to the same code |
| MainFormat.ParseRejectsOtherLengths | lunaplay/main.c:63-74 | a string of a length no name has, such as "?", does not parse |
| CDump.HexDigit | lunaplay/cdump.c:30 | a `%02x` digit is 0-9 or a-f |
| CDump.HexDigitValue | lunaplay/cdump.c:30 | the digit reads back as its value |
| CDump.Entry | lunaplay/cdump.c:30-31 | one entry is six characters |
| CDump.EntryDecodes | lunaplay/cdump.c:30-31 | an entry reads back as its byte and ends in a newline exactly at positions 7 mod 8 |
| CDump.Entries | lunaplay/cdump.c:29-33 | six characters per byte |
| CDump.EntriesAppend | lunaplay/cdump.c:22-34 | the output of two pieces is the two outputs with positions carried on |
| CDump.EntriesLayout | lunaplay/cdump.c:29-33 | the `i`-th entry is byte `i`'s own entry at its position |
| CDump.EntriesNewlines | lunaplay/cdump.c:31 | one newline per 8 positions |
| CDump.ReadsWholeFile | lunaplay/cdump.c:22-34 | with every read succeeding, the reads deliver the whole file |
| CDump.PrintIgnoresChunks | lunaplay/cdump.c:22-34 | the counter is never reset, so the output depends only on the bytes |
| CDump.DumpIgnoresChunks | lunaplay/cdump.c:8-37 | however the reads split the file, the output is the whole file's entries |
| Naplay.Start | naplay/naplay.c:32-37 | at start the reader's stream is the whole file |
| Naplay.FdRead | naplay/naplay.c:41 | a read keeps the file and succeeds on data-transferring replies |
| Naplay.Take | naplay/naplay.c:54-60 | the copy hands out min(buflen, buffered) bytes from the front of the stream |
| Naplay.ReadBuf | naplay/naplay.c:32-63 | `read_buf` serves buffered bytes without reading, and never fails on data-transferring replies |
| Naplay.Fill | naplay/naplay.c:40-52 | the same for the body |
| Naplay.ReadExact | naplay/naplay.c:65-79 | `read_exact` succeeds exactly when the stream holds `len` bytes |
| Naplay.Gather | naplay/naplay.c:70-78 | the same for the loop |
| Naplay.Decodes | naplay/naplay.c:81-106 | one value per field kind |
| Naplay.ReadFields | naplay/naplay.c:167-171 | consecutive field reads keep the file |
| Naplay.ReadFieldsReady | naplay/naplay.c:199-205 | the fields are read exactly when the stream holds them, with the decoded values |
| Naplay.Skip | naplay/naplay.c:173-178 | the skip succeeds exactly when the stream holds the bytes, none for a count of 0 or less |
| Naplay.FindWord | naplay/naplay.c:193-198 | the word scan stops just after an aligned occurrence of the tag |
| Naplay.FindWordFirst | naplay/naplay.c:193-198 | the scan finds the first aligned occurrence whenever there is one |
| Naplay.FindWordStep | naplay/naplay.c:193-198 | one word of the scan |
| Naplay.ScanFor | naplay/naplay.c:207-212 | the header scan succeeds exactly when an aligned word equals the tag |
| Naplay.AuSkip | naplay/naplay.c:173-188 | after the AU words, the skip and encoding check succeed exactly when the layout allows |
| Naplay.ParseAu | naplay/naplay.c:165-190 | the AU header is accepted exactly when the stream has the AU layout |
| Naplay.RiffScan | naplay/naplay.c:207-212 | the "data" scan succeeds exactly when the layout allows |
| Naplay.RiffFields | naplay/naplay.c:199-212 | the fields and scan succeed exactly when the layout allows |
| Naplay.ParseRiff | naplay/naplay.c:192-223 | the RIFF header is accepted exactly when the stream has the RIFF layout |
| Naplay.Header | naplay/naplay.c:164-227 | ".snd" is AU, "RIFF" is WAV, anything else is unsupported; accepted exactly when the stream has the layout |
| Naplay.Emit | naplay/naplay.c:259-265 | a write appends the bytes, or is fatal |
| Naplay.Step | naplay/naplay.c:252-266 | one turn copies the next stream bytes to the device |
| Naplay.Pass | naplay/naplay.c:252-266 | one pass copies the rest of the stream to the device |
| Naplay.Turn | naplay/naplay.c:252-266 | the same for the loop |
| Naplay.Seek | naplay/naplay.c:243-246 | `lseek` moves the kernel offset but leaves `read_buf`'s buffer |
| Naplay.Play | naplay/naplay.c:242-267 | the outer loop never fails on error-free descriptors |
| Naplay.PlayDrained | naplay/naplay.c:242-267 | with the buffer empty at the seek target, a positive count plays the bytes after the seek target one time fewer than asked, and a negative count plays them on every pass |
| Naplay.PlayAsWritten | naplay/naplay.c:235-251 | as written, the bytes buffered before the seek are lost and the last pass plays nothing |
| Naplay.LoopTwicePlaysOnce | naplay/naplay.c:235-251 | as written, asked to play twice, the data is played once |
| Naplay.LoopThriceLosesBuffered | naplay/naplay.c:235-251 | as written, asked to play three times with audio still buffered after the header, the second pass lacks the buffered bytes and the third plays nothing |
| Naplay.PlayFixed | naplay/naplay.c:242-267 | corrected: the loop never fails on error-free descriptors |
| Naplay.Rewind | naplay/naplay.c:243-246 | corrected seek: the offset moves and the buffer is emptied |
| Naplay.FixedRepeats | naplay/naplay.c:242-267 | corrected, the data is played as many times as the count asks |
| Naplay.FixedPlaysData | naplay/naplay.c:235-267 | corrected, started at the first byte not yet handed out, the data is played as many times as asked |
| Naplay.Encode | naplay/naplay.c:81-106 | a field occupies its width |
| Naplay.Encodes | naplay/naplay.c:81-106 | fields occupy their summed widths |
| Naplay.DecodeEncode | naplay/naplay.c:81-106 | the readers invert the encodings, sign included |
| Naplay.DecodesEncodes | naplay/naplay.c:81-106 | consecutive readers give back consecutively encoded fields |
| Naplay.AuRoundTrip | naplay/naplay.c:165-190 | an AU file with u-law, its padding and data is accepted with its rate and channels, and the audio is the data |
| Naplay.AuWords | naplay/naplay.c:167-171 | the AU layout reads the five words |
| Naplay.RiffRoundTrip | naplay/naplay.c:192-223 | a WAV file is accepted with its fields, and the audio is the data chunk's 4-byte length followed by the samples, since the scan stops right after the "data" word |
| Naplay.DataFirst | naplay/naplay.c:207-212 | a "data" word right after the fields ends the scan at once |
| Naplay.FmtThird | naplay/naplay.c:193-198 | the "fmt " scan passes the RIFF length and "WAVE" |
| Naplay.RiffFmtWords | naplay/naplay.c:199-205 | the RIFF layout reads the seven fields |
| Naplay.PlayFile | naplay/naplay.c:113-272 | accepted exactly when the header has the layout and, for a count that loops, the descriptor can seek (the `lseek` exits at 236-238), with its device settings |
| Naplay.PlayFileOnce | naplay/naplay.c:113-272 | played once, a well-formed file reaches the device as exactly its audio data |
| Naplay.PlayFileFixed | naplay/naplay.c:113-272 | corrected `main`: accepted exactly when the header has the layout and a looping count has a seekable descriptor |
| Naplay.FixedFileRepeats | naplay/naplay.c:235-267 | corrected `main` fails exactly when a looping count meets a descriptor that cannot seek, and otherwise plays the audio data as many times as the count asks |
| Naplay.FixedFilePlays | naplay/naplay.c:235-267 | with a seekable descriptor or a count of 0 or 1, corrected `main` plays the audio data as many times as the count asks |

## Left out

- Opening files, `mmap`/`munmap` of the XP device, `ioctl`, `getopt`, usage and verbose printing, and `mkstemp` are left out. They are I/O outside the byte streams: the descriptors the code gets from them are parameters.
- DevXp.LoadFirmware: `open`, `fstat`, `malloc` and `close` are not modelled. The file content is the parameter, and the size check uses its length.
- DevXp.Divisor: has `freq != 0` as a precondition. It is only a helper: `DevXp.WriteInit` models the zero rate as `Err(DivideByZero)` before calling it.
- `xp_close`: the `munmap` and `close` it does are I/O and are not modelled.
- The builtin firmware bytes (`firmware.inc`) and the contents of the `.tbl` table files are not part of this model. The tables are a parameter.
- PsgConv.Levels: the floating-point tail after the voltage lookup is an abstract parameter function, one per channel count. That tail is the offset, gain, scaling by 255 and `(uint8_t)` cast. The decoders PsgConv.Pcm1ToU8, PsgConv.Pcm2ToU8 and PsgConv.Pcm3ToU8 therefore state the voltage sum exactly and the byte only up to that function.
- GenTbl.Scan: the `DBL_MAX` starting distance is modelled as "no candidate yet". Real numbers stand in for `double`, without rounding.
- `gentbl` `main`: the filtering, standard deviation and centre factor statistics and the text it prints are left out. The table values and the packing of each entry are modelled.
- Lunaplay.Memset16: requires an even length. An odd length stores the last unit's second byte past the range, which is undefined behaviour. `filltail` does pass one when a PSGPCM input's PCM2 data has an odd byte count (lunaplay.c:137-149 via 413-417). Lunaplay.FillTail reports that case as an error instead of calling Memset16.
- Lunaplay.Memset32: requires a length that is a multiple of 4, for the same reason; PCM3 data whose byte count is not a multiple of 4 reaches it the same way.
- Lunaplay.FillTail: the two undefined-behaviour inputs, fewer than `stride` valid bytes (`*(p - stride)` reads before the buffer) and a tail that is not whole units (the last store lands past the buffer), are modelled as the errors "read before buffer" and "store past buffer". What the program then reads or overwrites is not modelled.
- Transfer.BodyIsLoopTrace: the fill and convert steps are events without their data. The data effect is stated by Lunaplay.FillTail and Lunaplay.Apply.
- `read8` and `write8` are not modelled: nothing in this code calls them.
- `strtod` parsing of `-f` is not modelled. The rate is an integer parameter.
- Consts: the definitions of the ENC_*, FMT_* and STR_* macros and of XP_BUFSIZE are not part of this model. The model only assumes they are distinct and that the block size is a positive multiple of 4.
- Naplay.Play: the outer loop with a negative count never ends. The model runs it for a given number of passes.
- Naplay.Play: the seeks inside the loop always succeed. Naplay.PlayFile models the first `lseek` (naplay.c:236-238) failing on a descriptor that cannot seek, which is fatal. The later `lseek(fd, start_ofs, SEEK_SET)` calls (244-245) go back to an offset that the same descriptor has just reported, so their failure exit is not modelled.
- Naplay.ParseAu: `au_offset - 24` is computed on unbounded integers. The `int` overflow for offsets near `INT_MIN` is not modelled.
- Naplay.Decodes: the shift `buf[0] << 24` is an `int` shift, and the model reads it as the two's-complement `int32_t`.
- Naplay.ParseRiff: reads exactly 16 bytes of "fmt " fields whatever the chunk length says, as the code does. A longer "fmt " chunk therefore puts its extra bytes in front of the "data" scan.
- The NetBSD `audio_info` settings are recorded as values. Whether the device accepts them is not modelled.

## Findings

| source | as written | input that shows it | evidently intended | confidence | as-written member | corrected member |
|---|---|---|---|---|---|---|
| lunaplay/lunaplay.c:344-348 | when the input and output encodings are equal, no converter is chosen and `conv` stays NULL, but the loop calls `conv(dst, src)` | `lunaplay -i pcm2 -o pcm2` on any PSGPCM file with data | use a pass-through converter (the buffers are shared, so nothing needs copying) | not executed | Transfer.EqualEncodingsCrash | Transfer.FixedSetupNeverCrashes |
| lunaplay/wav.c:217-226 | `wav_read_2u8` stores `n / 2` averaged bytes but adds `n`, the bytes read, to the valid length | a stereo 8-bit WAV whose first read fills the 2x stack buffer: 4 bytes into an empty 2-byte block report length 4 | add the number of averaged bytes stored | not executed | Wav.Read2u8Overruns | Wav.Read2u8FixedFills |
| naplay/naplay.c:242-251 | the seek runs only while `loop > 1` before the decrement, so the last pass of a positive count starts where the previous pass ended, at the end of the file | `naplay -L2` on any file with audio data: the second pass plays nothing, so the data is played once | seek back at the start of every pass | not executed | Naplay.LoopTwicePlaysOnce | Naplay.FixedRepeats |
| naplay/naplay.c:235-246 | `start_ofs` is the kernel offset after the header, but `read_buf` has already buffered the first audio bytes, and `lseek` does not empty that buffer | `naplay -L3` on a file whose first 4096-byte read takes in the header and some audio: the second pass lacks those buffered audio bytes | seek back to the first audio byte and empty the buffer | not executed | Naplay.LoopThriceLosesBuffered | Naplay.FixedPlaysData |

=== FILE: buffers.dfy ===
/** The storage side of lunaplay's BUFFER (whose definition is not part of this model): the
    allocated bytes, `bufsize == |data|`, and the valid `length`. The reader and writer shared
    by the WAV 1ch/8bit path and the PSGPCM container are defined here once. */
module Buffers {
  import opened Bytes
  import opened FileHelper

  datatype Block = Block(data: seq<byte>, length: int)
  {
    function Bufsize(): int { |data| }

    predicate Valid() { 0 <= length <= |data| }
  }

  datatype ReadStep = ReadStep(ret: int, buf: Block, rest: Source)

  datatype WriteStep = WriteStep(ret: int, buf: Block, rest: Sink)

  /** `psgpcm_read` (lunaplay/psgpcm.c) and `wav_read_1u8` (lunaplay/wav.c), which have the
      same body: append what `readbuf` delivers after the valid bytes. */
  function ReadAppend(src: Source, buf: Block): (r: ReadStep)
    requires buf.Valid()
    ensures r.buf.Valid() && |r.buf.data| == |buf.data|
    ensures buf.length <= r.buf.length
    ensures r.buf.data[..buf.length] == buf.data[..buf.length]
    ensures r.ret >= 0 ==> r.ret == r.buf.length
    ensures r.ret < 0 ==> r.ret == -1 && r.buf.length == buf.length && !NoFault(src.replies)
    ensures r.ret >= 0 ==> src.content == r.buf.data[buf.length..r.buf.length] + r.rest.content
    ensures r.ret >= 0 && r.buf.length < |buf.data| ==> r.rest.content == []
    ensures NoFault(src.replies) ==>
              r.buf.length == buf.length + Min(|buf.data| - buf.length, |src.content|)
  {
    var f := ReadBuf(src, |buf.data| - buf.length);
    var data := buf.data[..buf.length] + f.got + buf.data[buf.length + |f.got|..];
    assert data[buf.length..buf.length + |f.got|] == f.got;
    if f.ret < 0 then ReadStep(f.ret, Block(data, buf.length), f.rest)
    else if f.ret == 0 then ReadStep(buf.length, Block(data, buf.length), f.rest)
    else ReadStep(buf.length + f.ret, Block(data, buf.length + f.ret), f.rest)
  }

  /** `psgpcm_write` (lunaplay/psgpcm.c) and `wav_write_1u8` (lunaplay/wav.c): write the valid
      bytes from the start of the buffer, empty it, and pass `writebuf`'s result on. */
  function WriteFlush(sink: Sink, buf: Block): (r: WriteStep)
    requires buf.Valid()
    ensures r.buf == Block(buf.data, 0)
    ensures r.ret == buf.length || (r.ret == -1 && !NoFault(sink.replies))
    ensures r.ret == buf.length ==> r.rest.written == sink.written + buf.data[..buf.length]
    ensures sink.written <= r.rest.written
    ensures NoFault(sink.replies) ==> r.ret == buf.length
  {
    var w := WriteBuf(sink, buf.data, buf.length);
    WriteStep(w.ret, Block(buf.data, 0), w.rest)
  }
}

=== FILE: bytes.dfy ===
/** Fixed-width integers and the byte-order codecs the C sources rely on
    (le32toh/htole32, be32toh, and the big-endian LUNA host). */
module Bytes {

  type byte = x: int | 0 <= x < 0x100
  type uint16 = x: int | 0 <= x < 0x1_0000
  type uint32 = x: int | 0 <= x < 0x1_0000_0000

  const TWO16: int := 0x1_0000
  const TWO31: int := 0x8000_0000
  const TWO32: int := 0x1_0000_0000

  function Min(a: int, b: int): int { if a < b then a else b }

  function Max(a: int, b: int): int { if a < b then b else a }

  /** Conversion of a 32-bit pattern to a C `int32_t` (two's complement). */
  function ToInt32(u: uint32): (r: int)
    ensures -TWO31 <= r < TWO31
    ensures r % TWO32 == u
  {
    if u < TWO31 then u else u - TWO32
  }

  /** The 16-bit pattern a C cast to `int16_t`/`uint16_t` keeps. */
  function Trunc16(x: int): uint16 { x % TWO16 }

  /** The 32-bit pattern a C cast to `int32_t`/`uint32_t` keeps. */
  function Trunc32(x: int): uint32 { x % TWO32 }

  /** C's `/` on `int`: the quotient rounded toward zero (Dafny's `/` rounds toward minus
      infinity for a positive divisor). */
  function CDiv(a: int, b: int): int
    requires b != 0
  {
    if a >= 0 && b > 0 then a / b
    else if a < 0 && b > 0 then -((-a) / b)
    else if a >= 0 then -(a / (-b))
    else (-a) / (-b)
  }

  /** The 8-bit pattern a store into a `uint8_t` keeps. */
  function Trunc8(x: int): byte { x % 0x100 }

  lemma Int32RoundTrip(x: int)
    requires -TWO31 <= x < TWO31
    ensures ToInt32(Trunc32(x)) == x
  {
  }

  /** Little-endian bytes of a 16-bit value (htole16 followed by a 2-byte write). */
  function Le16(v: uint16): (r: seq<byte>)
    ensures |r| == 2
    ensures DecodeLe16(r) == v
  {
    [v % 0x100, v / 0x100]
  }

  /** Little-endian bytes of a 32-bit value (htole32 followed by a 4-byte write). */
  function Le32(v: uint32): (r: seq<byte>)
    ensures |r| == 4
    ensures DecodeLe32(r) == v
  {
    var v1 := v / 0x100;
    var v2 := v1 / 0x100;
    [v % 0x100, v1 % 0x100, v2 % 0x100, v2 / 0x100]
  }

  /** Big-endian bytes of a 16-bit word, as a `uint16_t` store lays them out on the m68k host. */
  function Be16(v: uint16): (r: seq<byte>)
    ensures |r| == 2
    ensures r[0] as int * 0x100 + r[1] as int == v
  {
    [v / 0x100, v % 0x100]
  }

  /** Big-endian bytes of a 32-bit word, as a `uint32_t` store lays them out on the m68k host. */
  function Be32(v: uint32): (r: seq<byte>)
    ensures |r| == 4
    ensures DecodeBe32(r) == v
  {
    var v1 := v / 0x100;
    var v2 := v1 / 0x100;
    [v2 / 0x100, v2 % 0x100, v1 % 0x100, v % 0x100]
  }

  function DecodeLe16(b: seq<byte>): uint16
    requires |b| == 2
  {
    b[0] as int + 0x100 * b[1] as int
  }

  function DecodeLe32(b: seq<byte>): uint32
    requires |b| == 4
  {
    b[0] as int + 0x100 * (b[1] as int + 0x100 * (b[2] as int + 0x100 * b[3] as int))
  }

  function DecodeBe32(b: seq<byte>): uint32
    requires |b| == 4
  {
    b[3] as int + 0x100 * (b[2] as int + 0x100 * (b[1] as int + 0x100 * b[0] as int))
  }

  /** Decoding then re-encoding gives back the bytes: the codecs are bijections. */
  lemma Le32Bijective(b: seq<byte>)
    requires |b| == 4
    ensures Le32(DecodeLe32(b)) == b
  {
    var h2 := b[2] as int + 0x100 * b[3] as int;
    var h1 := b[1] as int + 0x100 * h2;
    SplitByte(b[2], b[3]);
    SplitByte(b[1], h2);
    SplitByte(b[0], h1);
  }

  lemma Le16Bijective(b: seq<byte>)
    requires |b| == 2
    ensures Le16(DecodeLe16(b)) == b
  {
    SplitByte(b[0], b[1]);
  }

  lemma Be32Bijective(b: seq<byte>)
    requires |b| == 4
    ensures Be32(DecodeBe32(b)) == b
  {
    var h2 := b[1] as int + 0x100 * b[0] as int;
    var h1 := b[2] as int + 0x100 * h2;
    SplitByte(b[1], b[0]);
    SplitByte(b[2], h2);
    SplitByte(b[3], h1);
  }

  /** A low byte and the rest above it are what `% 0x100` and `/ 0x100` take apart. */
  lemma SplitByte(lo: byte, hi: nat)
    ensures (lo + 0x100 * hi) % 0x100 == lo && (lo + 0x100 * hi) / 0x100 == hi
  {
  }

  /** `b ^ 0x80`: flips the sign bit, turning a signed sample's high byte into an unsigned one. */
  function FlipSign(b: byte): (r: byte)
    ensures (r < 0x80) == (b >= 0x80)
    ensures r % 0x80 == b % 0x80
  {
    if b < 0x80 then b + 0x80 else b - 0x80
  }

  lemma FlipSignInvolutive(b: byte)
    ensures FlipSign(FlipSign(b)) == b
  {
  }

  /** `b & 15`: the channel level held in the low nibble. */
  function LowNibble(b: byte): (r: nat)
    ensures r < 16
    ensures (b - r) % 16 == 0
  {
    b % 16
  }
}

=== FILE: cdump.dfy ===
/** lunaplay/cdump.c: a file's bytes printed as a C initialiser, "0x" and two lower-case hex
    digits and a comma per byte, then a space, or a newline after every eighth byte. */
module CDump {
  import opened Bytes
  import opened FileHelper

  /** The `%02x` digit for a value below 16. */
  function HexDigit(d: int): (c: char)
    requires 0 <= d < 16
    ensures '0' <= c <= '9' || 'a' <= c <= 'f'
  {
    if d < 10 then (48 + d) as char else (97 + d - 10) as char
  }

  /** The value of a lower-case hex digit, as a reader of the output would take it. */
  function HexValue(c: char): int
  {
    if '0' <= c <= '9' then c as int - 48 else c as int - 97 + 10
  }

  lemma HexDigitValue(d: int)
    requires 0 <= d < 16
    ensures HexValue(HexDigit(d)) == d
  {
  }

  /** The separator after the byte at file position `pos`. */
  function Sep(pos: int): char
  {
    if pos % 8 == 7 then '\n' else ' '
  }

  /** One `printf("0x%02x,%c", b, sep)`. */
  function Entry(b: byte, pos: int): (r: string)
    ensures |r| == 6
  {
    ['0', 'x', HexDigit(b / 16), HexDigit(b % 16), ',', Sep(pos)]
  }

  /** An entry reads back as its byte, and ends in the separator for its position. */
  lemma EntryDecodes(b: byte, pos: int)
    ensures var r := Entry(b, pos);
            && r[..2] == "0x" && r[4] == ','
            && 16 * HexValue(r[2]) + HexValue(r[3]) == b
            && r[5] == (if pos % 8 == 7 then '\n' else ' ')
            && multiset(r)['\n'] == (if pos % 8 == 7 then 1 else 0)
  {
    HexDigitValue(b / 16);
    HexDigitValue(b % 16);
  }

  /** The inner `for` loop: the entries of `bytes`, the first at file position `pos`. */
  function Entries(bytes: seq<byte>, pos: int): (r: string)
    ensures |r| == 6 * |bytes|
    decreases |bytes|
  {
    if bytes == [] then "" else Entry(bytes[0], pos) + Entries(bytes[1..], pos + 1)
  }

  lemma {:induction false} EntriesAppend(a: seq<byte>, b: seq<byte>, pos: int)
    ensures Entries(a + b, pos) == Entries(a, pos) + Entries(b, pos + |a|)
    decreases |a|
  {
    if a == [] {
      assert a + b == b;
    } else {
      assert (a + b)[0] == a[0] && (a + b)[1..] == a[1..] + b;
      EntriesAppend(a[1..], b, pos + 1);
    }
  }

  /** The `i`-th entry is the byte's own entry at its position in the file. */
  lemma {:induction false} EntriesLayout(bytes: seq<byte>, pos: int, i: int)
    requires 0 <= i < |bytes|
    ensures Entries(bytes, pos)[6 * i..6 * i + 6] == Entry(bytes[i], pos + i)
    decreases |bytes|
  {
    if i > 0 {
      EntriesLayout(bytes[1..], pos + 1, i - 1);
      var tail := Entries(bytes[1..], pos + 1);
      assert Entries(bytes, pos) == Entry(bytes[0], pos) + tail;
      assert Entries(bytes, pos)[6 * i..6 * i + 6] == tail[6 * (i - 1)..6 * (i - 1) + 6];
    }
  }

  /** One newline per file position that is 7 modulo 8: for a whole file, `n / 8`. */
  lemma {:induction false} EntriesNewlines(bytes: seq<byte>, pos: nat)
    ensures multiset(Entries(bytes, pos))['\n'] == (pos + |bytes|) / 8 - pos / 8
    decreases |bytes|
  {
    if bytes != [] {
      EntryDecodes(bytes[0], pos);
      EntriesNewlines(bytes[1..], pos + 1);
      assert multiset(Entries(bytes, pos))
             == multiset(Entry(bytes[0], pos)) + multiset(Entries(bytes[1..], pos + 1));
      assert (pos + 1) / 8 - pos / 8 == (if pos % 8 == 7 then 1 else 0);
    }
  }

  /** The `read(fd, buf, 1024)` calls of the `do ... while (1)` loop: the non-empty chunks
      they return, and whether the last call found end of file (a failed call exits). */
  function Reads(src: Source): (r: (seq<seq<byte>>, bool))
    decreases |src.content|, |src.replies|
  {
    var call := SysRead(src, 1024);
    if !call.status.Done? then ([], false)
    else if call.data == [] then ([], true)
    else
      var more := Reads(call.rest);
      ([call.data] + more.0, more.1)
  }

  /** The entries printed for the chunks, the first at position `len`: the byte counter
      `len` runs on across reads. */
  function Print(chunks: seq<seq<byte>>, len: int): string
    decreases |chunks|
  {
    if chunks == [] then [] else Entries(chunks[0], len) + Print(chunks[1..], len + |chunks[0]|)
  }

  function Flatten(chunks: seq<seq<byte>>): seq<byte>
    decreases |chunks|
  {
    if chunks == [] then [] else chunks[0] + Flatten(chunks[1..])
  }

  /** The program: what it prints, and whether it ended at end of file. */
  function Dump(src: Source): (r: (string, bool))
  {
    var got := Reads(src);
    (Print(got.0, 0), got.1)
  }

  /** When every read succeeds the reads run to end of file and deliver the whole file. */
  lemma {:induction false} ReadsWholeFile(src: Source)
    requires AllReady(src.replies)
    ensures Reads(src).1 && Flatten(Reads(src).0) == src.content
    decreases |src.content|, |src.replies|
  {
    var call := SysRead(src, 1024);
    ReadyRead(src, 1024);
    if call.data != [] {
      ReadsWholeFile(call.rest);
      var more := Reads(call.rest);
      assert Reads(src).0 == [call.data] + more.0;
      assert ([call.data] + more.0)[1..] == more.0;
    }
  }

  /** The counter is never reset between reads, so the output depends only on the bytes. */
  lemma {:induction false} PrintIgnoresChunks(chunks: seq<seq<byte>>, len: int)
    ensures Print(chunks, len) == Entries(Flatten(chunks), len)
    decreases |chunks|
  {
    if chunks != [] {
      PrintIgnoresChunks(chunks[1..], len + |chunks[0]|);
      EntriesAppend(chunks[0], Flatten(chunks[1..]), len);
    }
  }

  /** Hence, with every read succeeding, the output is that of the whole file in one piece,
      however the reads split it. */
  lemma DumpIgnoresChunks(src: Source)
    requires AllReady(src.replies)
    ensures Dump(src) == (Entries(src.content, 0), true)
  {
    ReadsWholeFile(src);
    PrintIgnoresChunks(Reads(src).0, 0);
  }
}

=== FILE: consts.dfy ===
/** The named constants lunaplay's sources use but whose definitions are not part of this
    model (the ENC_*, FMT_* and STR_* macros and XP_BUFSIZE). They enter every operation as one
    record, constrained only by what the code relies on. */
module Consts {
  import opened Text

  datatype Consts = Consts(
    encU8: int, encPcm1: int, encPcm2: int, encPcm3: int, encPam2: int, encPam3: int,
    encUnknown: int,
    fmtWav: int, fmtAu: int, fmtPsgpcm: int, fmtUnknown: int,
    strU8: cstring, strWav: cstring, strAu: cstring, strPsgpcm: cstring,
    strPcm1: cstring, strPcm2: cstring, strPcm3: cstring, strPam2: cstring, strPam3: cstring,
    strUnknown: cstring,
    xpBufsize: int)
  {
    /** The encodings are distinct codes, the formats are distinct codes, and the device
        block is a positive whole number of 4-byte units. */
    predicate Valid()
    {
      && encU8 != encPcm1 && encU8 != encPcm2 && encU8 != encPcm3 && encU8 != encPam2
      && encU8 != encPam3 && encU8 != encUnknown
      && encPcm1 != encPcm2 && encPcm1 != encPcm3 && encPcm1 != encPam2 && encPcm1 != encPam3
      && encPcm1 != encUnknown
      && encPcm2 != encPcm3 && encPcm2 != encPam2 && encPcm2 != encPam3 && encPcm2 != encUnknown
      && encPcm3 != encPam2 && encPcm3 != encPam3 && encPcm3 != encUnknown
      && encPam2 != encPam3 && encPam2 != encUnknown
      && encPam3 != encUnknown
      && fmtWav != fmtAu && fmtWav != fmtPsgpcm && fmtWav != fmtUnknown
      && fmtAu != fmtPsgpcm && fmtAu != fmtUnknown
      && fmtPsgpcm != fmtUnknown
      && xpBufsize > 0 && xpBufsize % 4 == 0
    }

    /** One of the five PSG encodings (every encoding except plain U8). */
    predicate IsPsgEnc(e: int)
    {
      e == encPcm1 || e == encPcm2 || e == encPcm3 || e == encPam2 || e == encPam3
    }

    /** One of the six encodings the converters know. */
    predicate IsKnownEnc(e: int)
    {
      e == encU8 || IsPsgEnc(e)
    }

    /** The names of lunaplay's `-i`/`-o` arguments, in the order of `arg_list`. */
    function ArgNames(): seq<string>
    {
      [strWav, strAu, strPcm1, strPcm2, strPcm3, strPam2, strPam3]
    }

    /** The names accepted on the command line are told apart even ignoring case. */
    predicate ArgNamesDistinct()
    {
      forall i, j :: 0 <= i < j < |ArgNames()| ==> !SameIgnoringCase(ArgNames()[i], ArgNames()[j])
    }
  }
}

=== FILE: devxp.dfy ===
/** The XP sound processor seen through its shared memory window: firmware validation,
    the timer and encoding set-up, and the double-buffered block writer.

    The window is a map from offsets to bytes. The processor's own stores to it (status
    bytes changing while the host waits) are supplied from outside, and each busy wait is
    replaced by the condition that ends it. */
module DevXp {
  import opened Wrappers
  import opened Bytes
  import opened FileHelper
  import opened Buffers
  import Consts
  import Wav

  const MagicAt: int := 0x100
  const CmdStart: int := 0x108
  const TimerAt: int := 0x109
  const EncAt: int := 0x10A
  const StatReady: int := 0x10B
  const PageEndH: int := 0x10E

  const FirmSizeMin: int := 0x200
  const FirmSizeMax: int := 0xfe00
  const MaxSize: int := 0xfe00

  /** "LUNAPSG" and its terminating NUL: the 8 bytes `memcmp` compares. */
  const Magic: seq<byte> := [0x4C, 0x55, 0x4E, 0x41, 0x50, 0x53, 0x47, 0x00]

  /** The processor clock divided by the timer prescaler: 6144000 / 20. */
  const TimerBaseFreq: int := 6144000 / 20

  /** `xp_load_firmware` after `open` and `fstat`: the file must be between 0x200 and 0xfe00
      bytes, one `read` must deliver all of it, and it must carry the magic at 0x100. */
  function LoadFirmware(file: Source): (r: Result<seq<byte>>)
    ensures r.Ok? <==> && FirmSizeMin <= |file.content| <= FirmSizeMax
                       && SysRead(file, |file.content|).data == file.content
                       && file.content[MagicAt..MagicAt + 8] == Magic
    ensures r.Ok? ==> r.value == file.content
  {
    var size := |file.content|;
    if size < FirmSizeMin || size > FirmSizeMax then Err("invalid firmware size")
    else
      var rd := SysRead(file, size);
      if |rd.data| != size then Err("read error firmware")
      else if rd.data[MagicAt..MagicAt + 8] != Magic then Err("firmware MAGIC error")
      else Ok(rd.data)
  }

  /** A file with no pending error replies passes exactly when its size is in range and the
      magic is in place; the minimum size is what keeps the 8 magic bytes inside the file. */
  lemma FirmwareAcceptedIff(file: Source)
    requires file.replies == []
    ensures LoadFirmware(file).Ok? <==>
              FirmSizeMin <= |file.content| <= FirmSizeMax && file.content[MagicAt..MagicAt + 8] == Magic
    ensures FirmSizeMin <= |file.content| ==> MagicAt + 8 <= |file.content|
  {
  }

  /** The host's view of the processor: the window, the page written next, and the flag that
      says whether playback was started. */
  datatype Xp = Xp(mem: map<int, byte>, curpage: int, isstart: int)
  {
    predicate Valid() { curpage == 0 || curpage == 1 }
  }

  /** The outcome of a successful `xp_write_init`, and whether it warned that the rate is
      below what the timer can divide down to. */
  datatype Init = Init(xp: Xp, tooLow: bool)

  /** The timer divisor: the base frequency over the sample rate, in C integer division. */
  function Divisor(freq: int): int
    requires freq != 0
  {
    CDiv(TimerBaseFreq, freq)
  }

  /** What `xp_write_init` comes to when the rate is 0: the C division by zero traps (on the
      host this is SIGFPE) before anything is written to the window. */
  const DivideByZero: string := "integer division by zero"

  /** `xp_write_init` from the timer computation on: a rate of 0 traps in the division; a
      divisor below 6 fails; above 77 only warns; otherwise the timer byte gets
      `divisor - 1` and the encoding byte gets `enc`, both cut to 8 bits, and the writer
      starts on page 0 with playback not started. */
  function WriteInit(mem: map<int, byte>, freq: int, enc: int): (r: Result<Init>)
    ensures freq == 0 <==> r == Err(DivideByZero)
    ensures r.Ok? <==> freq != 0 && Divisor(freq) >= 6
    ensures r.Ok? ==> && r.value.xp.mem == mem[TimerAt := Trunc8(Divisor(freq) - 1)][EncAt := Trunc8(enc)]
                      && r.value.xp.curpage == 0 && r.value.xp.isstart == 0
                      && r.value.tooLow == (Divisor(freq) > 77)
  {
    if freq == 0 then Err(DivideByZero)
    else
      var divisor := Divisor(freq);
      if divisor < 6 then Err("freq too high")
      else
        var m := mem[TimerAt := Trunc8(divisor - 1)][EncAt := Trunc8(enc)];
        Ok(Init(Xp(m, 0, 0), divisor > 77))
  }

  /** Nothing on the way to the device rules out a rate of 0: a WAV file whose format chunk
      records rate 0 is read without complaint, its rate becomes the output rate when none
      is given on the command line, and the device set-up then divides by it. */
  lemma ZeroRateFileTraps(k: Consts.Consts, data: seq<byte>, mem: map<int, byte>, enc: int)
    ensures var w := Wav.ReadInit(Source(Wav.Header(0, |data|) + data, []), k);
            && w.Ok? && w.value.freq == 0
            && WriteInit(mem, w.value.freq as int, enc) == Err(DivideByZero)
  {
    Wav.ReadBackHeader(k, 0, |data|, data);
  }

  /** In sample rates: set-up fails exactly for rates above 51200 Hz and for negative rates
      (a negative `int` divides to a non-positive divisor). */
  lemma InitFailsIff(freq: int)
    requires freq != 0
    ensures Divisor(freq) < 6 <==> freq > 51200 || freq < 0
  {
    if freq > 0 {
      var d := TimerBaseFreq / freq;
      assert d * freq <= TimerBaseFreq < d * freq + freq;
      if freq > 51200 {
        assert d * freq < 6 * freq;
        DivBound(d, 6, freq);
      } else {
        assert 6 * freq <= TimerBaseFreq;
        if d < 6 { MulMono(d + 1, 6, freq); }
      }
    } else {
      assert Divisor(freq) == -(TimerBaseFreq / (-freq));
    }
  }

  /** The warning threshold: the divisor exceeds 77 exactly for rates of 1 to 3938 Hz. */
  lemma TooLowIff(freq: int)
    requires freq != 0
    ensures Divisor(freq) > 77 <==> 0 < freq <= 3938
  {
    if freq > 0 {
      var d := TimerBaseFreq / freq;
      assert d * freq <= TimerBaseFreq < d * freq + freq;
      if freq <= 3938 {
        assert 78 * freq <= TimerBaseFreq;
        if d <= 77 { MulMono(d + 1, 78, freq); }
      } else {
        assert TimerBaseFreq < 78 * freq;
        DivBound(d, 78, freq);
      }
    }
  }

  lemma DivBound(d: int, k: int, f: int)
    requires f > 0 && d * f < k * f
    ensures d < k
  {
    if d >= k { MulMono(k, d, f); }
  }

  lemma MulMono(a: int, b: int, f: int)
    requires f > 0 && a <= b
    ensures a * f <= b * f
  {
    assert b * f - a * f == (b - a) * f;
  }

  /** The base address and end-of-page marker of each page. */
  function PageTop(page: int): int { if page == 0 then 0x4000 else 0x8000 }
  function PageEndMarker(page: int): byte { if page == 0 then 0x80 else 0xc0 }

  /** `mem` with `data` stored from `base` on, one byte after another. */
  function Store(mem: map<int, byte>, base: int, data: seq<byte>): map<int, byte>
    decreases |data|
  {
    if data == [] then mem else Store(mem[base := data[0]], base + 1, data[1..])
  }

  /** The stored bytes land at `base` onwards, everything else is kept, and nothing else
      appears in the window. */
  lemma {:induction false} StoreFacts(mem: map<int, byte>, base: int, data: seq<byte>)
    ensures var m := Store(mem, base, data);
            && (forall a :: base <= a < base + |data| ==> a in m && m[a] == data[a - base])
            && (forall a :: a in mem && !(base <= a < base + |data|) ==> a in m && m[a] == mem[a])
            && (forall a :: a in m ==> a in mem || base <= a < base + |data|)
    decreases |data|
  {
    if data != [] {
      var m := Store(mem, base, data);
      var first := mem[base := data[0]];
      assert m == Store(first, base + 1, data[1..]);
      StoreFacts(first, base + 1, data[1..]);
      forall a | base <= a < base + |data| ensures a in m && m[a] == data[a - base] {
        if a == base {
          assert base in first && first[base] == data[0];
        } else {
          assert data[1..][a - (base + 1)] == data[a - base];
        }
      }
    }
  }

  datatype Written = Written(ret: int, xp: Xp, buf: Block)

  /** `xp_write`. `dev` holds the processor's stores to the window made while the host waits;
      the host reads the window after them. Once playback is started, the copy waits until
      the processor has left the current page (its page-end byte differs from the page's
      marker); before that, the copy is followed by `xp_start`, which waits for the ready
      byte to read 1 and then writes 1 to the start command. The valid bytes are copied to
      the current page, the page flips, the buffer is emptied and the byte count returned. */
  function XpWrite(xp: Xp, buf: Block, dev: map<int, byte>): (r: Written)
    requires xp.Valid() && buf.Valid()
    requires PageTop(xp.curpage) + buf.length <= MaxSize
    requires var seen := xp.mem + dev;
             && (xp.isstart != 0 ==> PageEndH in seen && seen[PageEndH] != PageEndMarker(xp.curpage))
             && (xp.isstart == 0 ==> StatReady in seen && seen[StatReady] == 1)
    ensures r.ret == buf.length
    ensures r.buf == Block(buf.data, 0)
    ensures r.xp.Valid() && r.xp.curpage == 1 - xp.curpage && r.xp.isstart == xp.isstart
    ensures forall i :: 0 <= i < buf.length ==>
              PageTop(xp.curpage) + i in r.xp.mem && r.xp.mem[PageTop(xp.curpage) + i] == buf.data[i]
    ensures xp.isstart == 0 ==> CmdStart in r.xp.mem && r.xp.mem[CmdStart] == 1
    ensures forall a ::
              (&& a in xp.mem + dev
               && !(PageTop(xp.curpage) <= a < PageTop(xp.curpage) + buf.length)
               && (xp.isstart == 0 ==> a != CmdStart))
              ==> a in r.xp.mem && r.xp.mem[a] == (xp.mem + dev)[a]
  {
    var seen := xp.mem + dev;
    var n := buf.length;
    var copied := Store(seen, PageTop(xp.curpage), buf.data[..n]);
    var started := if xp.isstart == 0 then copied[CmdStart := 1] else copied;
    StoreFacts(seen, PageTop(xp.curpage), buf.data[..n]);
    assert forall i :: 0 <= i < n ==> buf.data[..n][(PageTop(xp.curpage) + i) - PageTop(xp.curpage)] == buf.data[i];
    Written(n, Xp(started, if xp.curpage == 0 then 1 else 0, xp.isstart), Block(buf.data, 0))
  }

  /** A sequence of writes from a given state, with the processor's stores for each. */
  function WriteSeq(xp: Xp, bufs: seq<Block>, devs: seq<map<int, byte>>): (r: Xp)
    requires xp.Valid() && |devs| == |bufs| && xp.isstart == 0
    requires forall i :: 0 <= i < |bufs| ==> bufs[i].Valid() && 0x8000 + bufs[i].length <= MaxSize
    requires forall i :: 0 <= i < |devs| ==> StatReady in devs[i] && devs[i][StatReady] == 1
    ensures r.Valid() && r.isstart == 0
    ensures r.curpage == (xp.curpage + |bufs|) % 2
    decreases |bufs|
  {
    if bufs == [] then xp
    else
      var w := XpWrite(xp, bufs[0], devs[0]);
      WriteSeq(w.xp, bufs[1..], devs[1..])
  }

  /** Nothing in the driver sets the started flag, so after set-up every write takes the
      start path, and writes alternate between the pages at 0x4000 and 0x8000: the `k`-th
      write from set-up goes to page `k % 2`. */
  lemma {:induction false} PagesAlternate(xp: Xp, bufs: seq<Block>, devs: seq<map<int, byte>>, k: nat)
    requires xp.Valid() && xp.curpage == 0 && xp.isstart == 0 && |devs| == |bufs| && k <= |bufs|
    requires forall i :: 0 <= i < |bufs| ==> bufs[i].Valid() && 0x8000 + bufs[i].length <= MaxSize
    requires forall i :: 0 <= i < |devs| ==> StatReady in devs[i] && devs[i][StatReady] == 1
    ensures var before := WriteSeq(xp, bufs[..k], devs[..k]);
            before.isstart == 0 && PageTop(before.curpage) == (if k % 2 == 0 then 0x4000 else 0x8000)
  {
    var before := WriteSeq(xp, bufs[..k], devs[..k]);
    assert before.curpage == k % 2;
  }
}

=== FILE: filehelper.dfy ===
/** The read/write helpers of lunaplay/filehelper.c over a model of file descriptors.

    A read(2) or write(2) call is answered by the kernel with one of a finite list of replies
    (a partial transfer, EAGAIN, or a hard error); once the listed replies are used up, every
    call is served in full, as a regular file would. */
module FileHelper {
  import opened Bytes
  import opened Wrappers

  type pos = n: int | n >= 1 witness 1

  /** The kernel's answer to one system call: transfer at most `limit` bytes, fail with
      EAGAIN, or fail with any other error. */
  datatype Reply = Ready(limit: pos) | WouldBlock | Fault

  /** An input descriptor: the bytes still to be read and the replies to the next calls. */
  datatype Source = Source(content: seq<byte>, replies: seq<Reply>)

  /** An output descriptor: the bytes written so far and the replies to the next calls. */
  datatype Sink = Sink(written: seq<byte>, replies: seq<Reply>)

  /** Outcome class of one system call; `Done` with no data is end of file. */
  datatype Status = Done | Again | Failed

  datatype ReadOut = ReadOut(status: Status, data: seq<byte>, rest: Source)

  datatype WriteOut = WriteOut(status: Status, count: nat, rest: Sink)

  /** A decoded field and the descriptor positioned after it. */
  datatype Field<T> = Field(value: T, rest: Source)

  /** The bytes delivered so far, the C return value, and the descriptor afterwards. */
  datatype Filled = Filled(ret: int, got: seq<byte>, rest: Source)

  datatype Flushed = Flushed(ret: int, rest: Sink)

  predicate NoFault(replies: seq<Reply>)
  {
    forall i :: 0 <= i < |replies| ==> replies[i] != Fault
  }

  /** Every listed reply transfers data: no EAGAIN and no error. */
  predicate AllReady(replies: seq<Reply>)
  {
    forall i :: 0 <= i < |replies| ==> replies[i].Ready?
  }

  /** Dropping the first reply keeps the remaining replies free of errors. */
  lemma NoFaultTail(replies: seq<Reply>)
    ensures replies != [] && NoFault(replies) ==> NoFault(replies[1..])
    ensures replies != [] && replies[0] == Fault ==> !NoFault(replies)
  {
    if replies != [] && replies[0] == Fault {
      assert replies[0] == Fault;
    }
  }

  /** One `read(fd, buf, k)`. */
  function SysRead(src: Source, k: nat): (r: ReadOut)
    ensures src.content == r.data + r.rest.content
    ensures |r.data| <= k
    ensures !r.status.Done? ==> r.data == []
    ensures src.replies == [] ==> r.status.Done? && |r.data| == Min(k, |src.content|)
    ensures src.replies == [] ==> r.rest.replies == []
    ensures src.replies != [] ==> r.rest.replies == src.replies[1..]
    ensures src.replies != [] && src.replies[0].Ready? ==>
              r.status.Done? && |r.data| == Min(Min(k, src.replies[0].limit), |src.content|)
    ensures src.replies != [] && src.replies[0] == WouldBlock ==> r.status == Again
    ensures src.replies != [] && src.replies[0] == Fault ==> r.status == Failed
  {
    if src.replies == [] then
      var n := Min(k, |src.content|);
      ReadOut(Done, src.content[..n], Source(src.content[n..], []))
    else
      var more := src.replies[1..];
      match src.replies[0]
      case Ready(limit) =>
        var n := Min(Min(k, limit), |src.content|);
        ReadOut(Done, src.content[..n], Source(src.content[n..], more))
      case WouldBlock => ReadOut(Again, [], Source(src.content, more))
      case Fault => ReadOut(Failed, [], Source(src.content, more))
  }

  /** On a descriptor whose listed replies all transfer data, a read succeeds, leaves such
      replies behind, and comes back empty only at end of file. */
  lemma ReadyRead(src: Source, k: pos)
    ensures var r := SysRead(src, k);
            AllReady(src.replies) ==>
              && r.status.Done? && AllReady(r.rest.replies)
              && (r.data == [] <==> src.content == [])
  {
    if src.replies != [] {
      var more := src.replies[1..];
      assert forall i :: 0 <= i < |more| ==> more[i] == src.replies[i + 1];
    }
  }

  /** A read that succeeds with no data has met end of file. */
  lemma ReadEmptyAtEof(src: Source, k: pos)
    ensures var r := SysRead(src, k); r.status.Done? && r.data == [] ==> src.content == []
  {
  }

  /** One `write(fd, buf, |data|)`. */
  function SysWrite(sink: Sink, data: seq<byte>): (r: WriteOut)
    ensures r.count <= |data|
    ensures r.rest.written == sink.written + data[..r.count]
    ensures !r.status.Done? ==> r.count == 0
    ensures sink.replies == [] ==> r.status.Done? && r.count == |data| && r.rest.replies == []
    ensures sink.replies != [] ==> r.rest.replies == sink.replies[1..]
    ensures sink.replies != [] && sink.replies[0].Ready? && data != [] ==> r.status.Done? && r.count > 0
    ensures sink.replies != [] && sink.replies[0] == Fault ==> r.status == Failed
    ensures sink.replies != [] && sink.replies[0] == WouldBlock ==> r.status == Again
  {
    if sink.replies == [] then
      WriteOut(Done, |data|, Sink(sink.written + data, []))
    else
      var more := sink.replies[1..];
      match sink.replies[0]
      case Ready(limit) =>
        var n := Min(limit, |data|);
        WriteOut(Done, n, Sink(sink.written + data[..n], more))
      case WouldBlock => WriteOut(Again, 0, Sink(sink.written, more))
      case Fault => WriteOut(Failed, 0, Sink(sink.written, more))
  }

  /** `readbuf(fd, buf, length)`: read until `length` bytes have arrived, end of file, or an
      error other than EAGAIN. */
  function ReadBuf(src: Source, length: int): (r: Filled)
    ensures src.content == r.got + r.rest.content
    ensures |r.got| <= Max(length, 0)
    ensures length <= 0 ==> r.ret == length && r.got == [] && r.rest == src
    ensures length >= 0 && r.ret >= 0 ==> r.ret == |r.got|
    ensures length >= 0 && r.ret < 0 ==> r.ret == -1 && !NoFault(src.replies)
    ensures 0 <= r.ret < length ==> r.rest.content == []
    ensures length >= 0 && NoFault(src.replies) ==> r.ret == Min(length, |src.content|)
    ensures src.replies == [] ==> r.rest.replies == []
  {
    ReadBufFrom(src, length, [])
  }

  /** The loop of `readbuf` with `m == |got|` bytes already delivered. */
  function ReadBufFrom(src: Source, length: int, got: seq<byte>): (r: Filled)
    requires got == [] || |got| <= length
    ensures got <= r.got
    ensures src.content == r.got[|got|..] + r.rest.content
    ensures |r.got| <= Max(length, 0)
    ensures length <= |got| ==> r.ret == length && r.got == got && r.rest == src
    ensures length >= 0 && r.ret >= 0 ==> r.ret == |r.got|
    ensures length >= 0 && r.ret < 0 ==> r.ret == -1 && !NoFault(src.replies)
    ensures 0 <= r.ret < length ==> r.rest.content == []
    ensures length >= |got| && NoFault(src.replies) ==> r.ret == Min(length, |got| + |src.content|)
    ensures src.replies == [] ==> r.rest.replies == []
    decreases |src.replies|, length - |got|
  {
    if |got| >= length then Filled(length, got, src)
    else
      var call := SysRead(src, length - |got|);
      match call.status
      case Failed => Filled(-1, got, call.rest)
      case Again =>
        NoFaultTail(src.replies);
        ReadBufFrom(call.rest, length, got)
      case Done =>
        if call.data == [] then Filled(|got|, got, call.rest)
        else
          NoFaultTail(src.replies);
          var r := ReadBufFrom(call.rest, length, got + call.data);
          assert r.got[|got|..] == call.data + r.got[|got| + |call.data|..];
          r
  }

  /** `writebuf(fd, buf, length)`: write `data[..length]`, retrying after EAGAIN; `length`
      once everything is written, -1 after any other error. */
  function WriteBuf(sink: Sink, data: seq<byte>, length: int): (r: Flushed)
    requires length <= |data|
    ensures sink.written <= r.rest.written
    ensures |r.rest.written| <= |sink.written| + Max(length, 0)
    ensures r.rest.written == sink.written + data[..|r.rest.written| - |sink.written|]
    ensures r.ret == length || (length >= 0 && r.ret == -1 && !NoFault(sink.replies))
    ensures r.ret == length && length >= 0 ==> r.rest.written == sink.written + data[..length]
    ensures NoFault(sink.replies) ==> r.ret == length
    ensures sink.replies == [] ==> r.rest.replies == []
  {
    if length <= 0 then Flushed(length, sink)
    else
      var (ok, after) := WriteAll(sink, data[..length]);
      Flushed(if ok then length else -1, after)
  }

  /** The loop of `writebuf` on the bytes still pending. */
  function WriteAll(sink: Sink, pending: seq<byte>): (r: (bool, Sink))
    ensures sink.written <= r.1.written
    ensures |r.1.written| <= |sink.written| + |pending|
    ensures r.1.written == sink.written + pending[..|r.1.written| - |sink.written|]
    ensures r.0 ==> r.1.written == sink.written + pending
    ensures !r.0 ==> !NoFault(sink.replies)
    ensures sink.replies == [] ==> r.1.replies == []
    decreases |sink.replies|, |pending|
  {
    if pending == [] then (true, sink)
    else
      var call := SysWrite(sink, pending);
      NoFaultTail(sink.replies);
      match call.status
      case Failed => (false, call.rest)
      case Again => WriteAll(call.rest, pending)
      case Done =>
        var c := call.count;
        var r := WriteAll(call.rest, pending[c..]);
        var k := |r.1.written| - |call.rest.written|;
        assert pending[..c] + pending[c..][..k] == pending[..c + k];
        r
  }

  /** A single `read(fd, buf, k)` that must deliver all `k` bytes, as the fixed-size helpers
      require. */
  function ReadExact(src: Source, k: nat): (r: Option<Field<seq<byte>>>)
    ensures r.Some? ==> |r.value.value| == k && src.content == r.value.value + r.value.rest.content
    ensures src.replies == [] ==> (r.Some? <==> k <= |src.content|)
    ensures src.replies == [] && r.Some? ==> r.value.rest.replies == []
    ensures |src.content| < k ==> r.None?
  {
    var call := SysRead(src, k);
    if call.status.Done? && |call.data| == k then Some(Field(call.data, call.rest)) else None
  }

  /** `read32le`: a little-endian 32-bit field, or failure (0) on a short read. */
  function Read32Le(src: Source): (r: Option<Field<uint32>>)
    ensures r.Some? ==> |src.content| >= 4 && Le32(r.value.value) == src.content[..4]
    ensures r.Some? ==> r.value.rest.content == src.content[4..]
    ensures src.replies == [] ==> (r.Some? <==> |src.content| >= 4)
    ensures src.replies == [] && r.Some? ==> r.value.rest.replies == []
  {
    match ReadExact(src, 4)
    case None => None
    case Some(f) =>
      Le32Bijective(f.value);
      Some(Field(DecodeLe32(f.value), f.rest))
  }

  /** `read16le`: a little-endian 16-bit field, or failure (0) on a short read. */
  function Read16Le(src: Source): (r: Option<Field<uint16>>)
    ensures r.Some? ==> |src.content| >= 2 && Le16(r.value.value) == src.content[..2]
    ensures r.Some? ==> r.value.rest.content == src.content[2..]
    ensures src.replies == [] ==> (r.Some? <==> |src.content| >= 2)
    ensures src.replies == [] && r.Some? ==> r.value.rest.replies == []
  {
    match ReadExact(src, 2)
    case None => None
    case Some(f) =>
      Le16Bijective(f.value);
      Some(Field(DecodeLe16(f.value), f.rest))
  }

  /** `readtag`: four bytes read as a big-endian word. */
  function ReadTag(src: Source): (r: Option<Field<uint32>>)
    ensures r.Some? ==> |src.content| >= 4 && Be32(r.value.value) == src.content[..4]
    ensures r.Some? ==> r.value.rest.content == src.content[4..]
    ensures src.replies == [] ==> (r.Some? <==> |src.content| >= 4)
    ensures src.replies == [] && r.Some? ==> r.value.rest.replies == []
  {
    match ReadExact(src, 4)
    case None => None
    case Some(f) =>
      Be32Bijective(f.value);
      Some(Field(DecodeBe32(f.value), f.rest))
  }

  /** `cmptag(tag, s)`: the tag equals the four characters packed most significant first. */
  predicate CmpTag(tag: uint32, s: seq<byte>)
    requires |s| == 4
  {
    tag == s[0] as int * 0x100_0000 + s[1] as int * 0x1_0000 + s[2] as int * 0x100 + s[3] as int
  }

  /** `cmptag` holds exactly when the tag's big-endian bytes are the four characters. */
  lemma CmpTagIff(tag: uint32, s: seq<byte>)
    requires |s| == 4
    ensures CmpTag(tag, s) <==> Be32(tag) == s
  {
    Be32Bijective(s);
    assert DecodeBe32(s) == s[0] as int * 0x100_0000 + s[1] as int * 0x1_0000 + s[2] as int * 0x100 + s[3] as int;
  }

  /** Reading a tag and comparing it with `s` succeeds exactly when the next four bytes of a
      regular file are the bytes `writetag(s)` writes. */
  lemma {:induction false} ReadTagMatches(src: Source, s: seq<byte>)
    requires |s| == 4 && src.replies == []
    ensures (ReadTag(src).Some? && CmpTag(ReadTag(src).value.value, s))
            <==> (|src.content| >= 4 && src.content[..4] == WriteTagBytes(s))
  {
    if |src.content| >= 4 {
      var t := ReadTag(src).value.value;
      assert DecodeBe32(s) == s[0] as int * 0x100_0000 + s[1] as int * 0x1_0000 + s[2] as int * 0x100 + s[3] as int;
      if CmpTag(t, s) {
        Be32Bijective(s);
      } else {
        Be32Bijective(src.content[..4]);
      }
    }
  }

  /** On a regular file, `readtag` takes the next four bytes and leaves the rest. */
  lemma ReadTagOn(a: seq<byte>, b: seq<byte>)
    requires |a| == 4
    ensures ReadTag(Source(a + b, [])) == Some(Field(DecodeBe32(a), Source(b, [])))
  {
    assert (a + b)[..4] == a && (a + b)[4..] == b;
    Be32Bijective(a);
  }

  /** On a regular file, `read32le` takes the next four bytes and leaves the rest. */
  lemma Read32LeOn(a: seq<byte>, b: seq<byte>)
    requires |a| == 4
    ensures Read32Le(Source(a + b, [])) == Some(Field(DecodeLe32(a), Source(b, [])))
  {
    assert (a + b)[..4] == a && (a + b)[4..] == b;
    Le32Bijective(a);
  }

  /** On a regular file, `read16le` takes the next two bytes and leaves the rest. */
  lemma Read16LeOn(a: seq<byte>, b: seq<byte>)
    requires |a| == 2
    ensures Read16Le(Source(a + b, [])) == Some(Field(DecodeLe16(a), Source(b, [])))
  {
    assert (a + b)[..2] == a && (a + b)[2..] == b;
    Le16Bijective(a);
  }

  /** On a regular file, skipping a positive count of bytes drops exactly those bytes. */
  lemma ReadSkipOn(a: seq<byte>, b: seq<byte>)
    requires |a| > 0
    ensures ReadSkip(Source(a + b, []), |a|) == (|a|, Source(b, []))
  {
    assert (a + b)[|a|..] == b;
  }

  /** `readskip(fd, bytes)`: read and discard `bytes` bytes one at a time; `bytes` on success,
      0 as soon as a one-byte read fails. A count <= 0 reads nothing and is returned as is. */
  function ReadSkip(src: Source, bytes: int): (r: (int, Source))
    ensures r.0 == bytes || r.0 == 0
    ensures bytes <= 0 ==> r == (bytes, src)
    ensures bytes > 0 && r.0 == bytes ==> bytes <= |src.content| && r.1.content == src.content[bytes..]
    ensures bytes > 0 && AllReady(src.replies) ==> (r.0 == bytes <==> bytes <= |src.content|)
    ensures src.replies == [] ==> r.1.replies == []
  {
    ReadSkipFrom(src, bytes, 0)
  }

  function ReadSkipFrom(src: Source, bytes: int, i: nat): (r: (int, Source))
    requires i <= bytes || i == 0
    ensures r.0 == bytes || r.0 == 0
    ensures bytes <= i ==> r == (bytes, src)
    ensures i < bytes && r.0 == bytes ==> bytes - i <= |src.content| && r.1.content == src.content[bytes - i..]
    ensures i < bytes && AllReady(src.replies) ==> (r.0 == bytes <==> bytes - i <= |src.content|)
    ensures src.replies == [] ==> r.1.replies == []
    decreases bytes - i
  {
    if i >= bytes then (bytes, src)
    else
      var call := SysRead(src, 1);
      if call.status.Done? && |call.data| == 1 then ReadSkipFrom(call.rest, bytes, i + 1)
      else (0, call.rest)
  }

  /** A single `write(fd, p, |data|)` that counts only if everything was written: returns
      `|data|`, or 0 after a short or failed write. */
  function WriteExact(sink: Sink, data: seq<byte>): (r: Flushed)
    ensures r.ret == |data| || r.ret == 0
    ensures r.ret == |data| ==> r.rest.written == sink.written + data
    ensures sink.replies == [] ==> r.ret == |data| && r.rest == Sink(sink.written + data, [])
  {
    var call := SysWrite(sink, data);
    if call.status.Done? && call.count == |data| then Flushed(|data|, call.rest)
    else Flushed(0, call.rest)
  }

  /** The four bytes `writetag(s)` writes: the characters as they are. */
  function WriteTagBytes(s: seq<byte>): seq<byte>
    requires |s| == 4
  {
    s[..4]
  }

  function WriteTag(sink: Sink, s: seq<byte>): Flushed
    requires |s| == 4
  {
    WriteExact(sink, WriteTagBytes(s))
  }

  /** `write32le(fd, v)`: `v` is converted to `int32_t`, then written little-endian. */
  function Write32Le(sink: Sink, v: int): Flushed
  {
    WriteExact(sink, Le32(Trunc32(v)))
  }

  /** `write16le(fd, v)`: `v` is converted to `int16_t`, then written little-endian. */
  function Write16Le(sink: Sink, v: int): Flushed
  {
    WriteExact(sink, Le16(Trunc16(v)))
  }

  /** What `write32le` writes, `read32le` reads back: the same `int32_t`. */
  lemma {:induction false} Le32FieldRoundTrip(v: int, rest: seq<byte>)
    requires -TWO31 <= v < TWO31
    ensures Read32Le(Source(Write32Le(Sink([], []), v).rest.written + rest, [])).Some?
    ensures var f := Read32Le(Source(Write32Le(Sink([], []), v).rest.written + rest, [])).value;
            ToInt32(f.value) == v && f.rest == Source(rest, [])
  {
    var bytes := Write32Le(Sink([], []), v).rest.written;
    assert bytes == Le32(Trunc32(v));
    var f := Read32Le(Source(bytes + rest, [])).value;
    assert (bytes + rest)[..4] == bytes;
    assert (bytes + rest)[4..] == rest;
    Le32Bijective(bytes);
    Int32RoundTrip(v);
  }

  /** What `write16le` writes, `read16le` reads back as the same 16-bit pattern. */
  lemma {:induction false} Le16FieldRoundTrip(v: int, rest: seq<byte>)
    ensures Read16Le(Source(Write16Le(Sink([], []), v).rest.written + rest, [])).Some?
    ensures var f := Read16Le(Source(Write16Le(Sink([], []), v).rest.written + rest, [])).value;
            f.value == Trunc16(v) && f.rest == Source(rest, [])
  {
    var bytes := Write16Le(Sink([], []), v).rest.written;
    assert bytes == Le16(Trunc16(v));
    assert (bytes + rest)[..2] == bytes;
    assert (bytes + rest)[2..] == rest;
    Le16Bijective(bytes);
  }
}

=== FILE: format.dfy ===
/** lunaplay/format.c: the table of command-line names for a container format and encoding,
    and the reverse lookups that name a format code and an encoding code. */
module Format {
  import opened Text
  import Consts

  /** The format and encoding codes of `arg_list`, in the order of `Consts.ArgNames`. */
  function ArgCodes(k: Consts.Consts): seq<(int, int)>
  {
    [(k.fmtWav, k.encU8), (k.fmtAu, k.encU8),
     (k.fmtPsgpcm, k.encPcm1), (k.fmtPsgpcm, k.encPcm2), (k.fmtPsgpcm, k.encPcm3),
     (k.fmtPsgpcm, k.encPam2), (k.fmtPsgpcm, k.encPam3)]
  }

  /** A row of `format_list` or `enc_list`: a name and the code it names. */
  datatype Named = Named(name: cstring, code: int)

  function FormatList(k: Consts.Consts): seq<Named>
  {
    [Named(k.strWav, k.fmtWav), Named(k.strAu, k.fmtAu), Named(k.strPsgpcm, k.fmtPsgpcm)]
  }

  function EncList(k: Consts.Consts): seq<Named>
  {
    [Named(k.strU8, k.encU8), Named(k.strPcm1, k.encPcm1), Named(k.strPcm2, k.encPcm2),
     Named(k.strPcm3, k.encPcm3), Named(k.strPam2, k.encPam2), Named(k.strPam3, k.encPam3)]
  }

  /** `parse_arg_format_enc(arg, &format, &enc)`: the return value and the two out-variables
      afterwards, which keep their values `format` and `enc` when no name matches. */
  function ParseArgFormatEnc(arg: cstring, format: int, enc: int, k: Consts.Consts): (r: (int, int, int))
    ensures r.0 == 0 || r.0 == -1
    ensures r.0 == -1 <==> forall j :: 0 <= j < 7 ==> !SameIgnoringCase(arg, k.ArgNames()[j])
    ensures r.0 == -1 ==> r.1 == format && r.2 == enc
    ensures r.0 == 0 ==> exists j :: && 0 <= j < 7 && SameIgnoringCase(arg, k.ArgNames()[j])
                                     && (forall i :: 0 <= i < j ==> !SameIgnoringCase(arg, k.ArgNames()[i]))
                                     && (r.1, r.2) == ArgCodes(k)[j]
  {
    var i := FirstSame(k.ArgNames(), arg, 0);
    if i < 0 then (-1, format, enc) else (0, ArgCodes(k)[i].0, ArgCodes(k)[i].1)
  }

  /** The first row of a table whose code is `code`, from `from` on, or -1. */
  function FirstCode(table: seq<Named>, code: int, from: nat): (r: int)
    requires from <= |table|
    ensures r == -1 || from <= r < |table|
    ensures r >= 0 ==> table[r].code == code && forall j :: from <= j < r ==> table[j].code != code
    ensures r == -1 <==> forall j :: from <= j < |table| ==> table[j].code != code
    decreases |table| - from
  {
    if from == |table| then -1
    else if table[from].code == code then from
    else FirstCode(table, code, from + 1)
  }

  /** The name of the first row of `table` for `code`, or `STR_UNKNOWN`. */
  function NameOf(table: seq<Named>, code: int, unknown: cstring): (r: cstring)
    ensures (forall j :: 0 <= j < |table| ==> table[j].code != code) ==> r == unknown
    ensures (exists j :: 0 <= j < |table| && table[j].code == code) ==>
              exists j :: && 0 <= j < |table| && table[j].code == code && r == table[j].name
                          && forall i :: 0 <= i < j ==> table[i].code != code
  {
    var i := FirstCode(table, code, 0);
    if i < 0 then unknown else table[i].name
  }

  /** The row a code is first found at gives the name. */
  lemma NameAt(table: seq<Named>, code: int, unknown: cstring, j: int)
    requires 0 <= j < |table| && table[j].code == code
    requires forall i :: 0 <= i < j ==> table[i].code != code
    ensures NameOf(table, code, unknown) == table[j].name
  {
    var i := FirstCode(table, code, 0);
    assert i >= 0;
  }

  /** `format_tostr`. */
  function FormatToStr(format: int, k: Consts.Consts): cstring
  {
    NameOf(FormatList(k), format, k.strUnknown)
  }

  /** `enc_tostr`. */
  function EncToStr(enc: int, k: Consts.Consts): cstring
  {
    NameOf(EncList(k), enc, k.strUnknown)
  }

  /** With distinct codes, each format is named by its own row, and every other code is
      unknown. */
  lemma FormatNames(k: Consts.Consts, f: int)
    requires k.Valid()
    ensures FormatToStr(k.fmtWav, k) == k.strWav
    ensures FormatToStr(k.fmtAu, k) == k.strAu
    ensures FormatToStr(k.fmtPsgpcm, k) == k.strPsgpcm
    ensures f != k.fmtWav && f != k.fmtAu && f != k.fmtPsgpcm ==> FormatToStr(f, k) == k.strUnknown
  {
    var t := FormatList(k);
    NameAt(t, k.fmtWav, k.strUnknown, 0);
    NameAt(t, k.fmtAu, k.strUnknown, 1);
    NameAt(t, k.fmtPsgpcm, k.strUnknown, 2);
  }

  /** With distinct codes, each of the six encodings is named by its own row, and exactly the
      other codes are unknown. */
  lemma EncNames(k: Consts.Consts, e: int)
    requires k.Valid()
    ensures EncToStr(k.encU8, k) == k.strU8
    ensures EncToStr(k.encPcm1, k) == k.strPcm1 && EncToStr(k.encPcm2, k) == k.strPcm2
    ensures EncToStr(k.encPcm3, k) == k.strPcm3
    ensures EncToStr(k.encPam2, k) == k.strPam2 && EncToStr(k.encPam3, k) == k.strPam3
    ensures !k.IsKnownEnc(e) ==> EncToStr(e, k) == k.strUnknown
  {
    var t := EncList(k);
    NameAt(t, k.encU8, k.strUnknown, 0);
    NameAt(t, k.encPcm1, k.strUnknown, 1);
    NameAt(t, k.encPcm2, k.strUnknown, 2);
    NameAt(t, k.encPcm3, k.strUnknown, 3);
    NameAt(t, k.encPam2, k.strUnknown, 4);
    NameAt(t, k.encPam3, k.strUnknown, 5);
  }

  /** The rows of `arg_list`: each name yields its own format and encoding, the PSG names
      with the PSGPCM container and plain WAV and AU with 8-bit unsigned samples. */
  lemma ArgNamesParse(k: Consts.Consts, j: int, format: int, enc: int)
    requires k.ArgNamesDistinct() && 0 <= j < 7
    ensures ParseArgFormatEnc(k.ArgNames()[j], format, enc, k) == (0, ArgCodes(k)[j].0, ArgCodes(k)[j].1)
    ensures j >= 2 ==> ArgCodes(k)[j].0 == k.fmtPsgpcm && k.IsPsgEnc(ArgCodes(k)[j].1)
    ensures j < 2 ==> ArgCodes(k)[j].1 == k.encU8
  {
    SameIgnoringCaseIsEquivalence(k.ArgNames()[j], k.ArgNames()[j], k.ArgNames()[j]);
    FirstSameOfName(k.ArgNames(), k.ArgNames()[j], j);
  }

  /** The name `enc_tostr` gives a PSG encoding parses back to that encoding in the PSGPCM
      container. */
  lemma EncNameRoundTrip(k: Consts.Consts, e: int, format: int, enc: int)
    requires k.Valid() && k.ArgNamesDistinct() && k.IsPsgEnc(e)
    ensures ParseArgFormatEnc(EncToStr(e, k), format, enc, k) == (0, k.fmtPsgpcm, e)
  {
    EncNames(k, e);
    var j := if e == k.encPcm1 then 2 else if e == k.encPcm2 then 3 else if e == k.encPcm3 then 4
             else if e == k.encPam2 then 5 else 6;
    assert EncToStr(e, k) == k.ArgNames()[j];
    ArgNamesParse(k, j, format, enc);
  }

  /** Parsing ignores case: names that differ only in case give the same result. */
  lemma ParseIgnoresCase(k: Consts.Consts, a: cstring, b: cstring, format: int, enc: int)
    requires SameIgnoringCase(a, b)
    ensures ParseArgFormatEnc(a, format, enc, k) == ParseArgFormatEnc(b, format, enc, k)
  {
    FirstSameIgnoresCase(k.ArgNames(), a, b, 0);
  }
}

=== FILE: gentbl.dfy ===
/** The table generator: the PSG level ladder, the enumerated channel combinations, the
    sort by summed level, the windowed nearest-entry search, run statistics over the
    resulting 256-entry map, and the packing of channel levels into table words. */
module GenTbl {
  import opened Wrappers
  import opened Bytes
  import PsgConv

  /** The sixteen relative output voltages of a PSG channel, one per volume level. */
  const VT: seq<real> := [
    0.0, 0.0078125, 0.01104854346, 0.015625,
    0.02209708691, 0.03125, 0.04419417382, 0.0625,
    0.08838834765, 0.125, 0.1767766953, 0.25,
    0.3535533906, 0.5, 0.7071067812, 1.0
  ]

  lemma VtIncreasing()
    ensures |VT| == 16 && VT[0] == 0.0 && VT[15] == 1.0
    ensures forall i, j :: 0 <= i < j < 16 ==> VT[i] < VT[j]
  {
  }

  /** A table entry: a summed voltage and the channel levels producing it. */
  datatype Pte = Pte(v: real, a: int, b: int, c: int)

  /** A level in 0..15 for each used channel. */
  predicate Levels3(e: Pte) { 0 <= e.a < 16 && 0 <= e.b < 16 && 0 <= e.c < 16 }

  // ----- enumeration, before sorting -----
  // The builders take the ladder as a parameter; the program uses them with `VT`.

  /** `pcm1` before its sort: entry `i` is level `i` on one channel. */
  function Pcm1Entries(vt: seq<real>): (t: seq<Pte>)
    requires |vt| == 16
    ensures |t| == 16
    ensures forall i :: 0 <= i < 16 ==> t[i] == Pte(vt[i], i, 0, 0)
  {
    seq(16, i requires 0 <= i < 16 => Pte(vt[i], i, 0, 0))
  }

  function Pcm2At(vt: seq<real>, k: int): (e: Pte)
    requires |vt| == 16 && 0 <= k < 256
    ensures Levels3(e) && e.c == 0 && e.v == vt[e.a] + vt[e.b]
  {
    Pte(vt[k / 16] + vt[k % 16], k / 16, k % 16, 0)
  }

  /** `pcm2` before its sort: the entry at `a*16 + b` combines levels `a` and `b`. */
  function Pcm2Entries(vt: seq<real>): (t: seq<Pte>)
    requires |vt| == 16
    ensures |t| == 256
    ensures forall a, b :: 0 <= a < 16 && 0 <= b < 16 ==> t[a * 16 + b] == Pte(vt[a] + vt[b], a, b, 0)
    ensures forall k :: 0 <= k < 256 ==> Levels3(t[k]) && t[k].c == 0 && t[k].v == vt[t[k].a] + vt[t[k].b]
  {
    var t := seq(256, k requires 0 <= k < 256 => Pcm2At(vt, k));
    assert forall k :: 0 <= k < 256 ==> t[k] == Pcm2At(vt, k);
    assert forall a, b :: 0 <= a < 16 && 0 <= b < 16 ==> t[a * 16 + b] == Pte(vt[a] + vt[b], a, b, 0) by {
      forall a, b | 0 <= a < 16 && 0 <= b < 16
        ensures t[a * 16 + b] == Pte(vt[a] + vt[b], a, b, 0)
      {
        var k := a * 16 + b;
        assert k / 16 == a && k % 16 == b;
      }
    }
    t
  }

  function Pcm3At(vt: seq<real>, k: int): (e: Pte)
    requires |vt| == 16 && 0 <= k < 4096
    ensures Levels3(e) && e.v == vt[e.a] + vt[e.b] + vt[e.c]
  {
    Pte(vt[k / 256] + vt[k / 16 % 16] + vt[k % 16], k / 256, k / 16 % 16, k % 16)
  }

  lemma Pcm3Index(vt: seq<real>, a: int, b: int, c: int)
    requires |vt| == 16 && 0 <= a < 16 && 0 <= b < 16 && 0 <= c < 16
    ensures Pcm3At(vt, a * 256 + b * 16 + c) == Pte(vt[a] + vt[b] + vt[c], a, b, c)
  {
    var k := a * 256 + b * 16 + c;
    assert k / 16 == a * 16 + b;
    assert k / 256 == a;
  }

  /** `pcm3` before its sort: the entry at `a*256 + b*16 + c` combines levels `a`, `b`, `c`. */
  function Pcm3Entries(vt: seq<real>): (t: seq<Pte>)
    requires |vt| == 16
    ensures |t| == 4096
    ensures forall a, b, c :: 0 <= a < 16 && 0 <= b < 16 && 0 <= c < 16 ==>
              t[a * 256 + b * 16 + c] == Pte(vt[a] + vt[b] + vt[c], a, b, c)
    ensures forall k :: 0 <= k < 4096 ==> Levels3(t[k]) && t[k].v == vt[t[k].a] + vt[t[k].b] + vt[t[k].c]
  {
    var t := seq(4096, k requires 0 <= k < 4096 => Pcm3At(vt, k));
    assert forall a, b, c :: 0 <= a < 16 && 0 <= b < 16 && 0 <= c < 16 ==>
        t[a * 256 + b * 16 + c] == Pte(vt[a] + vt[b] + vt[c], a, b, c) by {
      forall a, b, c | 0 <= a < 16 && 0 <= b < 16 && 0 <= c < 16
        ensures t[a * 256 + b * 16 + c] == Pte(vt[a] + vt[b] + vt[c], a, b, c)
      {
        Pcm3Index(vt, a, b, c);
      }
    }
    t
  }

  /** Every two-channel entry holds levels below 16 whose voltages sum to its value. */
  lemma Pcm2EntryShape(vt: seq<real>, e: Pte)
    requires |vt| == 16 && e in Pcm2Entries(vt)
    ensures Levels3(e) && e.c == 0 && e.v == vt[e.a] + vt[e.b]
  {
    var t := Pcm2Entries(vt);
    var k :| 0 <= k < 256 && t[k] == e;
  }

  lemma Pcm3EntryShape(vt: seq<real>, e: Pte)
    requires |vt| == 16 && e in Pcm3Entries(vt)
    ensures Levels3(e) && e.v == vt[e.a] + vt[e.b] + vt[e.c]
  {
    var t := Pcm3Entries(vt);
    var k :| 0 <= k < 4096 && t[k] == e;
  }

  // ----- pte_sort: a sorted permutation -----

  predicate Sorted(t: seq<Pte>)
  {
    forall i, j :: 0 <= i < j < |t| ==> t[i].v <= t[j].v
  }

  function Insert(x: Pte, t: seq<Pte>): (r: seq<Pte>)
    requires Sorted(t)
    ensures Sorted(r)
    ensures multiset(r) == multiset(t) + multiset{x}
    ensures |r| == |t| + 1
  {
    if t == [] then [x]
    else if x.v <= t[0].v then [x] + t
    else
      var rest := Insert(x, t[1..]);
      assert t == [t[0]] + t[1..];
      ConsSorted(t[0], rest, x, t[1..]);
      [t[0]] + rest
  }

  /** Putting `h` in front of a sorted permutation of `t1 + [x]` keeps it sorted when `h` is
      no greater than `x` and than every element of `t1`. */
  lemma ConsSorted(h: Pte, rest: seq<Pte>, x: Pte, t1: seq<Pte>)
    requires Sorted(rest) && multiset(rest) == multiset(t1) + multiset{x}
    requires h.v <= x.v && forall y :: y in t1 ==> h.v <= y.v
    ensures Sorted([h] + rest)
  {
    var r := [h] + rest;
    forall i, j | 0 <= i < j < |r| ensures r[i].v <= r[j].v {
      if i == 0 {
        var y := rest[j - 1];
        assert y in multiset(rest);
        assert y == x || y in multiset(t1);
      } else {
        assert r[i] == rest[i - 1] && r[j] == rest[j - 1];
      }
    }
  }

  /** `pte_sort`: ordered by `v`; the order of equal values is left open, this is one of
      the orders `qsort` may produce. */
  function PteSort(t: seq<Pte>): (r: seq<Pte>)
    ensures Sorted(r)
    ensures multiset(r) == multiset(t)
    ensures |r| == |t|
  {
    if t == [] then []
    else
      assert t == [t[0]] + t[1..];
      Insert(t[0], PteSort(t[1..]))
  }

  /** `pcm1`: the entries sorted by summed voltage. */
  function Pcm1Table(vt: seq<real>): (t: seq<Pte>)
    requires |vt| == 16
    ensures |t| == 16 && Sorted(t) && multiset(t) == multiset(Pcm1Entries(vt))
  {
    PteSort(Pcm1Entries(vt))
  }

  /** `pcm2`: the entries sorted by summed voltage. */
  function Pcm2Table(vt: seq<real>): (t: seq<Pte>)
    requires |vt| == 16
    ensures |t| == 256 && Sorted(t) && multiset(t) == multiset(Pcm2Entries(vt))
  {
    PteSort(Pcm2Entries(vt))
  }

  /** `pcm3`: the entries sorted by summed voltage. */
  function Pcm3Table(vt: seq<real>): (t: seq<Pte>)
    requires |vt| == 16
    ensures |t| == 4096 && Sorted(t) && multiset(t) == multiset(Pcm3Entries(vt))
  {
    PteSort(Pcm3Entries(vt))
  }

  // ----- pte_search -----

  function Dist(x: real, y: real): real { if x < y then y - x else x - y }

  /** The bisection loop of `pte_search`; `c` is the last probed midpoint. */
  function Bisect(pt: seq<Pte>, v: real, lo: int, hi: int, c: int): (r: int)
    requires 0 <= lo && -1 <= hi < |pt| && 0 <= c < |pt|
    ensures 0 <= r < |pt|
    ensures lo < hi ==> lo <= r <= hi
    decreases hi - lo
  {
    if lo < hi then
      var m := (lo + hi) / 2;
      var dv := pt[m].v - v;
      if dv < 0.0 then Bisect(pt, v, m + 1, hi, m)
      else if dv > 0.0 then Bisect(pt, v, lo, m - 1, m)
      else m
    else c
  }

  /** The window loop of `pte_search` over `[i, hi]`: `best` is the smallest distance seen so
      far (none before the first entry), held by entry `rv`. */
  function Scan(pt: seq<Pte>, v: real, lo: int, i: int, hi: int, rv: int, best: Option<real>): (r: int)
    requires 0 <= lo <= i <= hi + 1 && hi < |pt| && lo <= hi
    requires best.None? <==> i == lo
    requires best.Some? ==> lo <= rv < i && best.value == Dist(pt[rv].v, v)
    requires best.Some? ==> forall k :: lo <= k < i ==> Dist(pt[rv].v, v) <= Dist(pt[k].v, v)
    requires best.Some? ==> forall k :: lo <= k < rv ==> Dist(pt[rv].v, v) < Dist(pt[k].v, v)
    ensures lo <= r <= hi
    ensures forall k :: lo <= k <= hi ==> Dist(pt[r].v, v) <= Dist(pt[k].v, v)
    ensures forall k :: lo <= k < r ==> Dist(pt[r].v, v) < Dist(pt[k].v, v)
    decreases hi + 1 - i
  {
    if i > hi then rv
    else
      var dv := Dist(pt[i].v, v);
      if best.None? || dv < best.value then Scan(pt, v, lo, i + 1, hi, i, Some(dv))
      else Scan(pt, v, lo, i + 1, hi, rv, best)
  }

  /** The outcome of a search: the chosen index and the last bisection midpoint. */
  datatype Found = Found(index: int, mid: int)

  /** The window `[mid-1, mid+1]` clipped to the table. */
  function WinLo(mid: int): int { Max(mid - 1, 0) }
  function WinHi(pt: seq<Pte>, mid: int): int { Min(mid + 1, |pt| - 1) }

  /** `pte_search`: bisect, then take the entry nearest to `v` among the last midpoint and its
      two neighbours; on equal distance the lower index wins. With at least two entries
      the bisection body runs at least once, so the seed midpoint 0 is never used. */
  function PteSearch(pt: seq<Pte>, v: real): (r: Found)
    requires |pt| >= 2
    ensures r.mid == Bisect(pt, v, 0, |pt| - 1, 0)
    ensures 0 <= r.index < |pt| && r.mid - 1 <= r.index <= r.mid + 1
    ensures forall k :: WinLo(r.mid) <= k <= WinHi(pt, r.mid) ==> Dist(pt[r.index].v, v) <= Dist(pt[k].v, v)
    ensures forall k :: WinLo(r.mid) <= k < r.index ==> Dist(pt[r.index].v, v) < Dist(pt[k].v, v)
  {
    var c := Bisect(pt, v, 0, |pt| - 1, 0);
    Found(Scan(pt, v, WinLo(c), WinLo(c), WinHi(pt, c), c, None), c)
  }

  /** When the value sought is in a sorted table, the bisection stops within one place of an
      entry holding it. */
  lemma {:induction false} BisectNearTarget(pt: seq<Pte>, v: real, lo: int, hi: int, c: int, k: int)
    requires Sorted(pt)
    requires 0 <= lo <= k <= hi < |pt| && 0 <= c < |pt| && pt[k].v == v
    requires lo >= hi ==> c - 1 <= k <= c + 1
    ensures var r := Bisect(pt, v, lo, hi, c);
            exists j :: 0 <= j < |pt| && r - 1 <= j <= r + 1 && pt[j].v == v
    decreases hi - lo
  {
    if lo < hi {
      var m := (lo + hi) / 2;
      var dv := pt[m].v - v;
      if dv < 0.0 {
        BisectNearTarget(pt, v, m + 1, hi, m, k);
      } else if dv > 0.0 {
        BisectNearTarget(pt, v, lo, m - 1, m, k);
      } else {
        assert pt[m].v == v;
      }
    } else {
      assert pt[k].v == v;
    }
  }

  /** A value that occurs in a sorted table is found exactly. (The search is not claimed to
      find the nearest entry in general: only the window around the last midpoint is
      compared.) */
  lemma SearchFindsPresentValue(pt: seq<Pte>, v: real, k: int)
    requires Sorted(pt) && |pt| >= 2 && 0 <= k < |pt| && pt[k].v == v
    ensures pt[PteSearch(pt, v).index].v == v
  {
    var r := PteSearch(pt, v);
    BisectNearTarget(pt, v, 0, |pt| - 1, 0, k);
    var j :| 0 <= j < |pt| && r.mid - 1 <= j <= r.mid + 1 && pt[j].v == v;
    assert WinLo(r.mid) <= j <= WinHi(pt, r.mid);
    assert Dist(pt[j].v, v) == 0.0;
  }

  // ----- pto_make -----

  /** One row of the 256-entry map: the sample value, its gained value, and the entry chosen. */
  datatype Pto = Pto(original: real, gained: real, psg: Pte)

  /** `u8_v`: a sample 0..255 as a value in [0, 1]. */
  function U8V(u: byte): (r: real)
    ensures 0.0 <= r <= 1.0
    ensures (u == 0) == (r == 0.0) && (u == 255) == (r == 1.0)
  {
    u as real / 255.0
  }

  /** One iteration of `pto_make`: sample `i`, truncated to 8 bits, through `gain` and
      `offset` to the table entry the search picks. */
  function PtoRow(i: int, table: seq<Pte>, gain: real, offset: real): (p: Pto)
    requires |table| >= 2
    ensures p.original == U8V(i % 256) && p.gained == p.original * gain + offset
    ensures p.psg in table
  {
    var v := U8V(i % 256);
    var g := v * gain + offset;
    Pto(v, g, Pick(table, g))
  }

  /** The entry `pte_search` picks for `v`. */
  function Pick(table: seq<Pte>, v: real): (e: Pte)
    requires |table| >= 2
    ensures e in table
  {
    table[PteSearch(table, v).index]
  }

  /** `pto_make`: `n` rows, row `i` for sample `i`. */
  function PtoMake(n: nat, table: seq<Pte>, gain: real, offset: real): (r: seq<Pto>)
    requires |table| >= 2
    ensures |r| == n
    ensures forall i :: 0 <= i < n ==> r[i] == PtoRow(i, table, gain, offset)
  {
    seq(n, i requires 0 <= i < n => PtoRow(i, table, gain, offset))
  }

  /** A gained value that the sorted table holds exactly is reproduced exactly. */
  lemma PtoMakeExactWhenPresent(n: nat, table: seq<Pte>, gain: real, offset: real, i: int, k: int)
    requires |table| >= 2 && Sorted(table) && 0 <= i < n && 0 <= k < |table|
    requires table[k].v == U8V(i % 256) * gain + offset
    ensures PtoMake(n, table, gain, offset)[i].psg.v == PtoMake(n, table, gain, offset)[i].gained
  {
    var row := PtoMake(n, table, gain, offset)[i];
    assert row == PtoRow(i, table, gain, offset);
    SearchFindsPresentValue(table, row.gained, k);
  }

  // ----- pto_region -----

  /** `lo..hi` (exclusive) is a maximal run of equal chosen values. */
  predicate MaximalRun(pto: seq<Pto>, lo: int, hi: int)
  {
    && 0 <= lo < hi <= |pto|
    && (forall k :: lo <= k < hi ==> pto[k].psg.v == pto[lo].psg.v)
    && (lo == 0 || pto[lo - 1].psg.v != pto[lo].psg.v)
    && (hi == |pto| || pto[hi].psg.v != pto[lo].psg.v)
  }

  /** The backward loop of `pto_region`: how many rows from `i` downwards hold `v0`. */
  function CountDown(pto: seq<Pto>, i: int, v0: real): (r: nat)
    requires -1 <= i < |pto|
    ensures r <= i + 1
    ensures forall k :: i - r < k <= i ==> pto[k].psg.v == v0
    ensures r <= i ==> pto[i - r].psg.v != v0
    decreases i + 1
  {
    if i < 0 then 0
    else if pto[i].psg.v == v0 then 1 + CountDown(pto, i - 1, v0)
    else 0
  }

  /** The forward loop of `pto_region`: how many rows from `i` upwards hold `v0`. */
  function CountUp(pto: seq<Pto>, i: int, v0: real): (r: nat)
    requires 0 <= i <= |pto|
    ensures i + r <= |pto|
    ensures forall k :: i <= k < i + r ==> pto[k].psg.v == v0
    ensures i + r < |pto| ==> pto[i + r].psg.v != v0
    decreases |pto| - i
  {
    if i == |pto| then 0
    else if pto[i].psg.v == v0 then 1 + CountUp(pto, i + 1, v0)
    else 0
  }

  /** `pto_region`: the length of the maximal run of equal chosen values around `idx`. */
  function PtoRegion(pto: seq<Pto>, idx: int): (r: int)
    requires 0 <= idx < |pto|
    ensures 1 <= r <= |pto|
    ensures exists lo, hi :: MaximalRun(pto, lo, hi) && lo <= idx < hi && r == hi - lo
    ensures forall lo, hi :: MaximalRun(pto, lo, hi) && lo <= idx < hi ==> r == hi - lo
  {
    var v0 := pto[idx].psg.v;
    var down := CountDown(pto, idx - 1, v0);
    var up := CountUp(pto, idx + 1, v0);
    assert MaximalRun(pto, idx - down, idx + 1 + up);
    RunLengthDetermined(pto, idx - down, idx + 1 + up, idx);
    1 + down + up
  }

  /** A row lies in exactly one maximal run. */
  lemma MaximalRunUnique(pto: seq<Pto>, lo1: int, hi1: int, lo2: int, hi2: int, idx: int)
    requires MaximalRun(pto, lo1, hi1) && MaximalRun(pto, lo2, hi2)
    requires lo1 <= idx < hi1 && lo2 <= idx < hi2
    ensures lo1 == lo2 && hi1 == hi2
  {
  }

  lemma RunLengthDetermined(pto: seq<Pto>, lo: int, hi: int, idx: int)
    requires MaximalRun(pto, lo, hi) && lo <= idx < hi
    ensures forall lo2, hi2 :: MaximalRun(pto, lo2, hi2) && lo2 <= idx < hi2 ==> hi2 - lo2 == hi - lo
  {
    forall lo2, hi2 | MaximalRun(pto, lo2, hi2) && lo2 <= idx < hi2 ensures hi2 - lo2 == hi - lo {
      MaximalRunUnique(pto, lo, hi, lo2, hi2, idx);
    }
  }

  // ----- pto_level -----

  /** Reference count: positions `k` in `[1, n)` whose chosen value differs from the one before. */
  function Changes(pto: seq<Pto>, n: int): (r: nat)
    requires 0 <= n <= |pto|
    ensures n >= 1 ==> r <= n - 1
    decreases n
  {
    if n <= 1 then 0
    else Changes(pto, n - 1) + (if pto[n - 1].psg.v != pto[n - 2].psg.v then 1 else 0)
  }

  /** The loop of `pto_level`: `pv` is the value of the last row where a change was counted. */
  function LevelFrom(pto: seq<Pto>, i: int, pv: real, rv: int): (r: int)
    requires 1 <= i <= |pto| && pv == pto[i - 1].psg.v
    ensures r == rv + Changes(pto, |pto|) - Changes(pto, i)
    decreases |pto| - i
  {
    if i == |pto| then rv
    else if pv != pto[i].psg.v then LevelFrom(pto, i + 1, pto[i].psg.v, rv + 1)
    else LevelFrom(pto, i + 1, pv, rv)
  }

  /** `pto_level`: the number of distinct runs, one more than the number of value changes. */
  function PtoLevel(pto: seq<Pto>): (r: int)
    requires |pto| >= 1
    ensures r == 1 + Changes(pto, |pto|)
    ensures 1 <= r <= |pto|
  {
    LevelFrom(pto, 1, pto[0].psg.v, 1)
  }

  // ----- the table word printed per row -----

  /** The word `pto_print` emits: `a` for one channel, `a<<8|b` for two, `a<<16|b<<8|c` for
      three (with levels below 16 the or-ed fields do not overlap, so `|` is `+`); any other
      channel count is an internal error. */
  function Code(e: Pte, channels: int): (r: Result<int>)
    requires Levels3(e)
    ensures r.Ok? <==> 1 <= channels <= 3
    ensures channels == 1 ==> r == Ok(e.a)
    ensures channels == 2 ==> r.Ok? && 0 <= r.value < TWO16 && r.value / 0x100 == e.a && r.value % 0x100 == e.b
    ensures channels == 3 ==> r.Ok? && 0 <= r.value < TWO32 && DecodeBe32([0, e.a, e.b, e.c]) == r.value
  {
    if channels == 1 then Ok(e.a)
    else if channels == 2 then Ok(e.a * 0x100 + e.b)
    else if channels == 3 then Ok(e.a * 0x1_0000 + e.b * 0x100 + e.c)
    else Err("internal error, invalid channel_count")
  }

  /** The big-endian bytes of a packed two-channel word are the two levels. */
  lemma Code2Bytes(e: Pte)
    requires Levels3(e)
    ensures Be16(Code(e, 2).value) == [e.a, e.b]
  {
    var s := Be16(Code(e, 2).value);
    assert s[0] as int * 0x100 + s[1] as int == e.a * 0x100 + e.b;
  }

  /** The big-endian bytes of a packed three-channel word are a zero byte and the three levels. */
  lemma Code3Bytes(e: Pte)
    requires Levels3(e)
    ensures Be32(Code(e, 3).value) == [0, e.a, e.b, e.c]
  {
    var s: seq<byte> := [0, e.a, e.b, e.c];
    Be32Bijective(s);
  }

  /** A two-channel word the generator prints, stored big-endian and decoded by the PCM2
      decoder with the same ladder, gives back the entry's summed voltage. */
  lemma Pcm2WordDecodesToEntry(p: PsgConv.Levels, k: int)
    requires p.Valid() && 0 <= k < 256
    ensures var e := Pcm2Table(p.vt)[k];
            Levels3(e) && PsgConv.Volt2(p, Be16(Code(e, 2).value), 0) == e.v
  {
    var e := Pcm2Table(p.vt)[k];
    Pcm2TableShape(p.vt, k);
    Pcm2Word(p, e);
  }

  lemma Pcm2Word(p: PsgConv.Levels, e: Pte)
    requires p.Valid() && Levels3(e)
    ensures PsgConv.Volt2(p, Be16(Code(e, 2).value), 0) == p.vt[e.a] + p.vt[e.b]
  {
    Code2Bytes(e);
    Volt2OfLevels(p, e.a, e.b);
  }

  lemma Volt2OfLevels(p: PsgConv.Levels, a: int, b: int)
    requires p.Valid() && 0 <= a < 16 && 0 <= b < 16
    ensures PsgConv.Volt2(p, [a, b], 0) == p.vt[a] + p.vt[b]
  {
    var s: seq<byte> := [a, b];
    assert LowNibble(s[0]) == a && LowNibble(s[1]) == b;
  }

  lemma Pcm2TableShape(vt: seq<real>, k: int)
    requires |vt| == 16 && 0 <= k < 256
    ensures var e := Pcm2Table(vt)[k]; Levels3(e) && e.c == 0 && e.v == vt[e.a] + vt[e.b]
  {
    var t := Pcm2Table(vt);
    assert t[k] in multiset(t);
    Pcm2EntryShape(vt, t[k]);
  }

  /** Likewise for three channels: the unused top byte is zero and the decoder skips it. */
  lemma Pcm3WordDecodesToEntry(p: PsgConv.Levels, k: int)
    requires p.Valid() && 0 <= k < 4096
    ensures var e := Pcm3Table(p.vt)[k];
            Levels3(e) && PsgConv.Volt3(p, Be32(Code(e, 3).value), 0) == e.v
  {
    var e := Pcm3Table(p.vt)[k];
    Pcm3TableShape(p.vt, k);
    Pcm3Word(p, e);
  }

  lemma Pcm3Word(p: PsgConv.Levels, e: Pte)
    requires p.Valid() && Levels3(e)
    ensures PsgConv.Volt3(p, Be32(Code(e, 3).value), 0) == p.vt[e.a] + p.vt[e.b] + p.vt[e.c]
  {
    Code3Bytes(e);
    Volt3OfLevels(p, e.a, e.b, e.c);
  }

  lemma Volt3OfLevels(p: PsgConv.Levels, a: int, b: int, c: int)
    requires p.Valid() && 0 <= a < 16 && 0 <= b < 16 && 0 <= c < 16
    ensures PsgConv.Volt3(p, [0, a, b, c], 0) == p.vt[a] + p.vt[b] + p.vt[c]
  {
    var s: seq<byte> := [0, a, b, c];
    assert LowNibble(s[1]) == a && LowNibble(s[2]) == b && LowNibble(s[3]) == c;
  }

  lemma Pcm3TableShape(vt: seq<real>, k: int)
    requires |vt| == 16 && 0 <= k < 4096
    ensures var e := Pcm3Table(vt)[k]; Levels3(e) && e.v == vt[e.a] + vt[e.b] + vt[e.c]
  {
    var t := Pcm3Table(vt);
    assert t[k] in multiset(t);
    Pcm3EntryShape(vt, t[k]);
  }

  /** A one-channel word is the level itself, decoded by the PCM1 decoder to the entry's voltage. */
  lemma Pcm1WordDecodesToEntry(p: PsgConv.Levels, k: int)
    requires p.Valid() && 0 <= k < 16
    ensures var e := Pcm1Table(p.vt)[k];
            Levels3(e) && 0 <= Code(e, 1).value < 0x100 && p.vt[LowNibble(Code(e, 1).value)] == e.v
  {
    var t := Pcm1Table(p.vt);
    assert t[k] in multiset(t);
    Pcm1EntryShape(p.vt, t[k]);
  }

  lemma Pcm1EntryShape(vt: seq<real>, e: Pte)
    requires |vt| == 16 && e in Pcm1Entries(vt)
    ensures Levels3(e) && e.v == vt[e.a]
  {
    var t := Pcm1Entries(vt);
    var j :| 0 <= j < 16 && t[j] == e;
  }
}

=== FILE: lunaplay.dfy ===
/** The pieces of the lunaplay player around its main loop: bytes per sample for each
    encoding, the choice of converter, the two buffers and who owns their storage, the
    fill that pads a short last block for the device, and the file-name suffix test. */
module Lunaplay {
  import opened Wrappers
  import opened Bytes
  import opened Text
  import opened Consts
  import PsgConv
  import Buffers
  import FileHelper

  /** `enc_stride`: bytes per sample unit; an unknown encoding is fatal. */
  function EncStride(k: Consts, e: int): (r: Result<int>)
    requires k.Valid()
    ensures r.Ok? <==> k.IsKnownEnc(e)
    ensures r.Ok? ==> r.value == 1 || r.value == 2 || r.value == 4
    ensures e == k.encU8 || e == k.encPcm1 ==> r == Ok(1)
    ensures e == k.encPcm2 || e == k.encPam2 ==> r == Ok(2)
    ensures e == k.encPcm3 || e == k.encPam3 ==> r == Ok(4)
  {
    if e == k.encU8 then Ok(1)
    else if e == k.encPcm1 then Ok(1)
    else if e == k.encPcm2 || e == k.encPam2 then Ok(2)
    else if e == k.encPcm3 || e == k.encPam3 then Ok(4)
    else Err("unknown encoding")
  }

  /** The converters a selector can hand out. `Pass` stands for `conv_pass`, whose definition
      is not part of this model. */
  datatype Conv =
    | Pass
    | U8ToPcm1 | U8ToPcm2 | U8ToPcm3 | U8ToPam2 | U8ToPam3
    | Pcm1ToU8 | Pcm2ToU8 | Pcm3ToU8 | Pam2ToU8 | Pam3ToU8
  {
    /** Bytes of `src` read per converted unit. */
    function InWidth(): nat
    {
      match this
      case Pass => 1
      case U8ToPcm1 | U8ToPcm2 | U8ToPcm3 | U8ToPam2 | U8ToPam3 => 1
      case Pcm1ToU8 => 1
      case Pcm2ToU8 | Pam2ToU8 => 2
      case Pcm3ToU8 | Pam3ToU8 => 4
    }

    /** Bytes of `dst` written per converted unit. */
    function OutWidth(): nat
    {
      match this
      case Pass => 1
      case U8ToPcm1 => 1
      case U8ToPcm2 | U8ToPam2 => 2
      case U8ToPcm3 | U8ToPam3 => 4
      case Pcm1ToU8 | Pcm2ToU8 | Pcm3ToU8 | Pam2ToU8 | Pam3ToU8 => 1
    }
  }

  /** `get_conv_u8_to`: the converter from unsigned 8-bit samples to encoding `e`. */
  function GetConvU8To(k: Consts, e: int): (r: Result<Conv>)
    requires k.Valid()
    ensures r.Ok? <==> k.IsKnownEnc(e)
    ensures e == k.encU8 ==> r == Ok(Pass)
    ensures k.IsPsgEnc(e) ==> r.Ok? && r.value.InWidth() == 1 && Ok(r.value.OutWidth()) == EncStride(k, e)
  {
    if e == k.encU8 then Ok(Pass)
    else if e == k.encPcm1 then Ok(U8ToPcm1)
    else if e == k.encPcm2 then Ok(U8ToPcm2)
    else if e == k.encPcm3 then Ok(U8ToPcm3)
    else if e == k.encPam2 then Ok(U8ToPam2)
    else if e == k.encPam3 then Ok(U8ToPam3)
    else Err("unknown encoding")
  }

  /** `get_conv_from_u8`: the converter from encoding `e` to unsigned 8-bit samples. */
  function GetConvFromU8(k: Consts, e: int): (r: Result<Conv>)
    requires k.Valid()
    ensures r.Ok? <==> k.IsKnownEnc(e)
    ensures e == k.encU8 ==> r == Ok(Pass)
    ensures k.IsPsgEnc(e) ==> r.Ok? && r.value.OutWidth() == 1 && Ok(r.value.InWidth()) == EncStride(k, e)
  {
    if e == k.encU8 then Ok(Pass)
    else if e == k.encPcm1 then Ok(Pcm1ToU8)
    else if e == k.encPcm2 then Ok(Pcm2ToU8)
    else if e == k.encPcm3 then Ok(Pcm3ToU8)
    else if e == k.encPam2 then Ok(Pam2ToU8)
    else if e == k.encPam3 then Ok(Pam3ToU8)
    else Err("unknown encoding")
  }

  /** Running converter `c` over `count` units, with the tables and the decoder tail. */
  function Apply(c: Conv, t: PsgConv.Tables, lv: PsgConv.Levels, dst: seq<byte>, src: seq<byte>, count: nat)
    : (d: seq<byte>)
    requires c != Pass && t.Valid() && lv.Valid()
    requires c.InWidth() * count <= |src| && c.OutWidth() * count <= |dst|
    ensures |d| == |dst|
    ensures d[c.OutWidth() * count..] == dst[c.OutWidth() * count..]
  {
    match c
    case U8ToPcm1 => PsgConv.U8ToPcm1(t, dst, src, count)
    case U8ToPcm2 => PsgConv.U8ToPcm2(t, dst, src, count)
    case U8ToPcm3 => PsgConv.U8ToPcm3(t, dst, src, count)
    case U8ToPam2 => PsgConv.U8ToPam2(t, dst, src, count)
    case U8ToPam3 => PsgConv.U8ToPam3(t, dst, src, count)
    case Pcm1ToU8 => PsgConv.Pcm1ToU8(lv, dst, src, count)
    case Pcm2ToU8 => PsgConv.Pcm2ToU8(lv, dst, src, count)
    case Pcm3ToU8 => PsgConv.Pcm3ToU8(lv, dst, src, count)
    case Pam2ToU8 => PsgConv.Pam2ToU8(lv, dst, src, count)
    case Pam3ToU8 => PsgConv.Pam3ToU8(lv, dst, src, count)
  }

  // ----- buffers and their storage -----

  /** A BUFFER: the storage region it points into, its size, the fill level, the unit count
      the converters read, and whether `buffer_free` releases its storage. */
  datatype Buffer = Buffer(region: nat, bufsize: int, length: int, count: int, isfree: bool)

  /** The two buffers of the player and the converter between them (absent when none was
      chosen). */
  datatype Pipeline = Pipeline(src: Buffer, dst: Buffer, conv: Option<Conv>)

  /** The storage regions `malloc` hands out: the device block first, the input block second. */
  const DstRegion: nat := 0
  const SrcRegion: nat := 1

  /** The buffer setup of `main`: `dst` owns a device-sized block; with equal encodings `src`
      shares it and no converter is chosen, otherwise `src` owns a block holding as many
      input units as `dst` holds output units. Both buffers start zeroed, so `count` is 0. */
  function Setup(k: Consts, inEnc: int, outEnc: int): (r: Result<Pipeline>)
    requires k.Valid()
    ensures r.Ok? <==> inEnc == outEnc || (inEnc == k.encU8 && k.IsKnownEnc(outEnc))
                                        || (outEnc == k.encU8 && k.IsKnownEnc(inEnc))
    ensures r.Ok? ==> r.value.dst == Buffer(DstRegion, k.xpBufsize, 0, 0, true)
    ensures r.Ok? && inEnc == outEnc ==>
              r.value.src == Buffer(DstRegion, k.xpBufsize, 0, 0, false) && r.value.conv == None
    ensures r.Ok? && inEnc != outEnc ==>
              && r.value.src.region == SrcRegion && r.value.src.isfree
              && r.value.src.length == 0 && r.value.src.count == 0
              && r.value.conv.Some? && r.value.conv.value != Pass
              && Ok(r.value.conv.value.InWidth()) == EncStride(k, inEnc)
              && Ok(r.value.conv.value.OutWidth()) == EncStride(k, outEnc)
              && r.value.src.bufsize * r.value.conv.value.OutWidth()
                 == r.value.dst.bufsize * r.value.conv.value.InWidth()
  {
    var dst := Buffer(DstRegion, k.xpBufsize, 0, 0, true);
    if inEnc == outEnc then
      Ok(Pipeline(Buffer(DstRegion, dst.bufsize, 0, 0, false), dst, None))
    else
      var conv :=
        if inEnc == k.encU8 then GetConvU8To(k, outEnc)
        else if outEnc == k.encU8 then GetConvFromU8(k, inEnc)
        else Err("unsupported encoding pair");
      if conv.Err? then Err(conv.msg)
      else
        var sin := EncStride(k, inEnc).value;
        var sout := EncStride(k, outEnc).value;
        var size := dst.bufsize * sin / sout;
        assert size * sout == dst.bufsize * sin by {
          assert dst.bufsize % 4 == 0;
          DivExact(dst.bufsize, sin, sout);
        }
        Ok(Pipeline(Buffer(SrcRegion, size, 0, 0, true), dst, Some(conv.value)))
  }

  /** With a block size divisible by 4, scaling by one stride and dividing by another is exact. */
  lemma DivExact(n: int, a: int, b: int)
    requires n > 0 && n % 4 == 0
    requires a == 1 || a == 2 || a == 4
    requires b == 1 || b == 2 || b == 4
    ensures n * a / b * b == n * a
  {
    var q := n / 4;
    var c := if a == 1 then q else if a == 2 then 2 * q else 4 * q;
    assert n * a == 4 * c by {
      assert n == 4 * q;
      if a == 2 { assert n * 2 == n + n; } else if a == 4 { assert n * 4 == n + n + n + n; }
    }
    if b == 2 { assert n * a / 2 == 2 * c; } else if b == 4 { assert n * a / 4 == c; }
  }

  /** A full input block converts to exactly a full output block: with `count` the units a
      full `src` holds, the converter chosen by the set-up reads every byte of `src` and
      writes every byte of `dst`, so `conv(dst, src)` neither overruns nor leaves a gap. */
  lemma FullBlockConverts(k: Consts, inEnc: int, outEnc: int, t: PsgConv.Tables, lv: PsgConv.Levels,
                          dst: seq<byte>, src: seq<byte>)
    requires k.Valid() && inEnc != outEnc && Setup(k, inEnc, outEnc).Ok?
    requires t.Valid() && lv.Valid()
    requires |src| == Setup(k, inEnc, outEnc).value.src.bufsize
    requires |dst| == Setup(k, inEnc, outEnc).value.dst.bufsize
    ensures var c := Setup(k, inEnc, outEnc).value.conv.value;
            var count := |src| / c.InWidth();
            && c.InWidth() * count == |src| && c.OutWidth() * count == |dst|
            && Apply(c, t, lv, dst, src, count)[c.OutWidth() * count..] == []
  {
  }

  /** `buffer_free`: the region released, if the buffer owns its storage. */
  function Released(b: Buffer): (r: seq<nat>)
    ensures |r| <= 1
    ensures b.region in r <==> b.isfree
  {
    if b.isfree then [b.region] else []
  }

  /** The regions released by `buffer_free(src); buffer_free(dst);`. */
  function Frees(p: Pipeline): seq<nat>
  {
    Released(p.src) + Released(p.dst)
  }

  /** Every region the set-up buffers point into is released, and released exactly once,
      whether or not `src` shares `dst`'s storage. */
  lemma FreesEachRegionOnce(k: Consts, inEnc: int, outEnc: int)
    requires k.Valid() && Setup(k, inEnc, outEnc).Ok?
    ensures var p := Setup(k, inEnc, outEnc).value;
            && (forall rg :: rg in Frees(p) <==> rg == p.src.region || rg == p.dst.region)
            && multiset(Frees(p))[p.src.region] == 1
            && multiset(Frees(p))[p.dst.region] == 1
  {
  }

  // ----- padding a short block -----

  /** `memset8`: `len` copies of `val` from `off`. */
  function Memset8(data: seq<byte>, off: nat, val: byte, len: nat): (r: seq<byte>)
    requires off + len <= |data|
    ensures |r| == |data|
    ensures r[..off] == data[..off] && r[off + len..] == data[off + len..]
    ensures forall i :: off <= i < off + len ==> r[i] == val
    decreases len
  {
    if len == 0 then data
    else Memset8(PsgConv.Put(data, off, [val]), off + 1, val, len - 1)
  }

  /** `memset16`: `len / 2` big-endian copies of the 16-bit `val` from `off`. An odd `len`
      would store one unit past the end; the precondition rules that out. */
  function Memset16(data: seq<byte>, off: nat, val: uint16, len: nat): (r: seq<byte>)
    requires off + len <= |data| && len % 2 == 0
    ensures |r| == |data|
    ensures r[..off] == data[..off] && r[off + len..] == data[off + len..]
    ensures forall i :: off <= i < off + len ==> r[i] == Be16(val)[(i - off) % 2]
    decreases len
  {
    if len == 0 then data
    else
      var d := PsgConv.Put(data, off, Be16(val));
      var r := Memset16(d, off + 2, val, len - 2);
      assert r[off] == d[off] && r[off + 1] == d[off + 1] by {
        assert r[..off + 2] == d[..off + 2];
      }
      r
  }

  /** `memset32`: `len / 4` big-endian copies of the 32-bit `val` from `off`. */
  function Memset32(data: seq<byte>, off: nat, val: uint32, len: nat): (r: seq<byte>)
    requires off + len <= |data| && len % 4 == 0
    ensures |r| == |data|
    ensures r[..off] == data[..off] && r[off + len..] == data[off + len..]
    ensures forall i :: off <= i < off + len ==> r[i] == Be32(val)[(i - off) % 4]
    decreases len
  {
    if len == 0 then data
    else
      var d := PsgConv.Put(data, off, Be32(val));
      var r := Memset32(d, off + 4, val, len - 4);
      assert r[..off + 4] == d[..off + 4];
      forall i | off <= i < off + len ensures r[i] == Be32(val)[(i - off) % 4] {
        if i < off + 4 {
          assert r[i] == d[i] == d[off..off + 4][i - off];
        } else {
          assert (i - (off + 4)) % 4 == (i - off) % 4;
        }
      }
      assert r[..off] == r[..off + 4][..off];
      r
  }

  /** The stored value of a one-byte `uint8_t` widened to 16 bits, big-endian: a zero byte,
      then the byte. */
  lemma Be16OfByte(b: byte)
    ensures Be16(b) == [0, b]
  {
    var s := Be16(b);
    assert s[0] as int * 0x100 + s[1] as int == b;
  }

  lemma Be32OfByte(b: byte)
    ensures Be32(b) == [0, 0, 0, b]
  {
    Be32Bijective([0, 0, 0, b]);
  }

  /** `filltail`: pad `[length, |data|)` by repeating the last unit. As written, the repeated
      value is the single byte at `length - stride` (the read goes through a byte pointer),
      so for strides 2 and 4 every unit is that byte zero-extended. Any other stride is fatal.
      Two inputs are undefined behaviour in the program and are reported here as errors of
      their own: fewer than `stride` valid bytes (the read lands before the buffer), and a
      tail that is not whole units (the last store lands past the buffer). */
  function FillTail(data: seq<byte>, length: int, stride: int): (r: Result<seq<byte>>)
    requires 0 <= length <= |data|
    ensures r.Ok? <==> && (stride == 1 || stride == 2 || stride == 4)
                       && stride <= length && (|data| - length) % stride == 0
    ensures r == Err("invalid stride") <==> !(stride == 1 || stride == 2 || stride == 4)
    ensures r == Err("read before buffer") <==> (stride == 1 || stride == 2 || stride == 4) && length < stride
    ensures r == Err("store past buffer") <==>
              && (stride == 1 || stride == 2 || stride == 4)
              && stride <= length && (|data| - length) % stride != 0
    ensures r.Ok? ==> |r.value| == |data| && r.value[..length] == data[..length]
    ensures r.Ok? && stride == 1 ==> forall i :: length <= i < |data| ==> r.value[i] == data[length - 1]
    ensures r.Ok? && stride == 2 ==> forall i :: length <= i < |data| ==>
              r.value[i] == (if (i - length) % 2 == 1 then data[length - 2] else 0)
    ensures r.Ok? && stride == 4 ==> forall i :: length <= i < |data| ==>
              r.value[i] == (if (i - length) % 4 == 3 then data[length - 4] else 0)
  {
    var len := |data| - length;
    if !(stride == 1 || stride == 2 || stride == 4) then Err("invalid stride")
    else if length < stride then Err("read before buffer")
    else if len % stride != 0 then Err("store past buffer")
    else if stride == 1 then Ok(Memset8(data, length, data[length - 1], len))
    else if stride == 2 then
      Be16OfByte(data[length - 2]);
      Ok(Memset16(data, length, data[length - 2], len))
    else
      Be32OfByte(data[length - 4]);
      Ok(Memset32(data, length, data[length - 4], len))
  }

  /** The undefined store is reachable from a well-formed input: a PSGPCM file whose PCM2 or
      PCM3 data is not a whole number of units, shorter than one block, is read by
      `psgpcm_read` into a block of whole units; the block comes back short and `filltail`
      is then asked to pad a tail that is not whole units. */
  lemma PartialUnitReachesStore(data: seq<byte>, buf: seq<byte>, stride: int)
    requires stride == 2 || stride == 4
    requires |buf| % stride == 0 && stride <= |data| < |buf| && |data| % stride != 0
    ensures var rd := Buffers.ReadAppend(FileHelper.Source(data, []), Buffers.Block(buf, 0));
            && rd.ret == |data| == rd.buf.length
            && FillTail(rd.buf.data, rd.buf.length, stride) == Err("store past buffer")
  {
    var rd := Buffers.ReadAppend(FileHelper.Source(data, []), Buffers.Block(buf, 0));
    assert FileHelper.NoFault([]);
    assert rd.buf.length == |data|;
    PartialTail(|rd.buf.data|, |data|, stride);
  }

  /** Whole units less a partial count leave a partial count. */
  lemma PartialTail(size: int, length: int, stride: int)
    requires stride == 2 || stride == 4
    requires size % stride == 0 && length % stride != 0
    ensures (size - length) % stride != 0
  {
    MultipleLess(size, size - length, stride);
  }

  lemma MultipleLess(size: int, x: int, stride: int)
    requires stride == 2 || stride == 4
    requires size % stride == 0
    ensures x % stride == 0 ==> (size - x) % stride == 0
  {
    if x % stride == 0 {
      var a, c := size / stride, x / stride;
      assert size == a * stride && x == c * stride;
      assert size - x == (a - c) * stride;
    }
  }

  // ----- file-name suffix -----

  /** `strrchr(s, '.')`: the position of the last '.', if any. */
  function LastDot(s: string): (r: Option<nat>)
    ensures r.None? <==> forall j :: 0 <= j < |s| ==> s[j] != '.'
    ensures r.Some? ==> r.value < |s| && s[r.value] == '.'
                        && forall j :: r.value < j < |s| ==> s[j] != '.'
  {
    if |s| == 0 then None
    else if s[|s| - 1] == '.' then Some(|s| - 1)
    else LastDot(s[..|s| - 1])
  }

  /** `isextension`: the part of `fname` from its last '.' begins with `ext`, ignoring case.
      "a.WAVX" thus has the extension ".wav"; a name without '.' has none. */
  function IsExtension(fname: cstring, ext: cstring): (r: bool)
    ensures r <==> exists i :: 0 <= i < |fname| && fname[i] == '.'
                              && (forall j :: i < j < |fname| ==> fname[j] != '.')
                              && StartsIgnoringCase(fname[i..], ext)
  {
    match LastDot(fname)
    case None => false
    case Some(i) =>
      var r := StartsIgnoringCase(fname[i..], ext);
      assert r ==> fname[i] == '.';
      r
  }
}

=== FILE: mainfmt.dfy ===
/** The format names of lunaplay/main.c: a list whose positions are the format codes of
    lunaplay.h, the case-insensitive lookup of a name and the naming of a code. */
module MainFormat {
  import opened Text

  /** The format codes of the enumeration in lunaplay.h. */
  const FmtWav: int := 0
  const FmtLunapam2: int := 1
  const FmtLunapcm1: int := 2
  const FmtLunapcm2: int := 3
  const FmtLunapcm3: int := 4
  const FmtAu: int := 5

  /** `FMTSTR_list`, in the order of the format codes. */
  const FmtNames: seq<string> := ["WAV", "LUNAPAM2", "LUNAPCM1", "LUNAPCM2", "LUNAPCM3", "AU"]

  /** `parse_format`: the position of the first name equal to `s` ignoring case, or -1. */
  function ParseFormat(s: cstring): (r: int)
    ensures -1 <= r < |FmtNames|
    ensures r >= 0 ==> SameIgnoringCase(s, FmtNames[r])
    ensures r == -1 <==> forall j :: 0 <= j < |FmtNames| ==> !SameIgnoringCase(s, FmtNames[j])
  {
    FirstSame(FmtNames, s, 0)
  }

  /** `format_tostr`: the name at a code's position, or "?" for a code outside the list. */
  function FormatToStr(format: int): (r: string)
    ensures 0 <= format < |FmtNames| ==> r == FmtNames[format]
    ensures !(0 <= format < |FmtNames|) ==> r == "?"
  {
    if format < 0 || format >= |FmtNames| then "?" else FmtNames[format]
  }

  /** No two names of the list are equal ignoring case. */
  lemma NamesDistinct()
    ensures forall a, b :: 0 <= a < b < |FmtNames| ==> !SameIgnoringCase(FmtNames[a], FmtNames[b])
  {
    assert Lower(FmtNames[1][5]) != Lower(FmtNames[2][5]);
    assert Lower(FmtNames[1][5]) != Lower(FmtNames[3][5]);
    assert Lower(FmtNames[1][5]) != Lower(FmtNames[4][5]);
    assert Lower(FmtNames[2][7]) != Lower(FmtNames[3][7]);
    assert Lower(FmtNames[2][7]) != Lower(FmtNames[4][7]);
    assert Lower(FmtNames[3][7]) != Lower(FmtNames[4][7]);
  }

  /** Naming a code and parsing the name gives the code back, for every code of the list. */
  lemma FormatRoundTrip(format: int)
    requires 0 <= format < |FmtNames|
    ensures ParseFormat(FormatToStr(format)) == format
  {
    NamesDistinct();
    SameIgnoringCaseIsEquivalence(FmtNames[format], FmtNames[format], FmtNames[format]);
    FirstSameOfName(FmtNames, FmtNames[format], format);
  }

  /** Any spelling of a name in another case parses to the same code. */
  lemma ParseIgnoresCase(s: cstring, t: cstring)
    requires SameIgnoringCase(s, t)
    ensures ParseFormat(s) == ParseFormat(t)
  {
    FirstSameIgnoresCase(FmtNames, s, t, 0);
  }

  /** A string of a length no name has, such as the "?" of an unknown code, does not parse. */
  lemma ParseRejectsOtherLengths(s: cstring)
    requires |s| != 2 && |s| != 3 && |s| != 8
    ensures ParseFormat(s) == -1
  {
    assert forall j :: 0 <= j < |FmtNames| ==> |FmtNames[j]| in {2, 3, 8};
  }
}

=== FILE: naplay.dfy ===
/** naplay: a stand-alone player that reads the file through a 4096-byte buffer, parses an
    AU or RIFF header, and copies the rest of the file to the audio device `loop` times. */
module Naplay {
  import opened Wrappers
  import opened Bytes
  import opened FileHelper
  import Wav

  /** The size of `read_buf`'s static buffer and of `main`'s transfer buffer. */
  const BufSize: int := 4096

  /** The input descriptor: the whole file, the kernel's offset in it, and the replies to the
      next `read` calls. */
  datatype Fd = Fd(file: seq<byte>, pos: nat, replies: seq<Reply>)
  {
    predicate Valid() { pos <= |file| }

    /** What `read` would deliver from here on. */
    function Rest(): seq<byte>
      requires Valid()
    {
      file[pos..]
    }
  }

  /** `read_buf`'s static variables: the buffer, the offset of the first unconsumed byte, and
      the number of unconsumed bytes. */
  datatype Rb = Rb(ibuf: seq<byte>, head: int, len: int)
  {
    predicate Valid() { |ibuf| == BufSize && 0 <= head && 0 <= len && head + len <= BufSize }

    function Pending(): seq<byte>
      requires Valid()
    {
      ibuf[head..head + len]
    }
  }

  /** The reader as the program sees it: the descriptor and the buffer in front of it. */
  datatype Nap = Nap(fd: Fd, rb: Rb)
  {
    predicate Valid() { fd.Valid() && rb.Valid() }

    /** The bytes the program will get from `read_buf` calls, in order. */
    function Stream(): seq<byte>
      requires Valid()
    {
      rb.Pending() + fd.Rest()
    }

    /** The buffered bytes are the ones just before the kernel's offset, as they are as long
        as nothing has moved the offset behind the buffer's back. */
    predicate Coherent()
      requires Valid()
    {
      rb.len <= fd.pos && rb.Pending() == fd.file[fd.pos - rb.len..fd.pos]
    }
  }

  /** The state at program start: offset 0 and the zero-initialised static buffer. */
  function Start(file: seq<byte>, replies: seq<Reply>): (s: Nap)
    ensures s.Valid() && s.Coherent() && s.Stream() == file
  {
    var s := Nap(Fd(file, 0, replies), Rb(seq(BufSize, _ => 0), 0, 0));
    assert s.rb.Pending() == [];
    s
  }

  datatype FdOut = FdOut(data: seq<byte>, fd: Fd)

  /** One `read(fd, ibuf, k)`; `None` is a failed call (`n < 0`). */
  function FdRead(fd: Fd, k: pos): (r: Option<FdOut>)
    requires fd.Valid()
    ensures r.Some? ==> && r.value.fd.Valid() && r.value.fd.file == fd.file
                        && r.value.fd.pos == fd.pos + |r.value.data| && |r.value.data| <= k
                        && r.value.data == fd.file[fd.pos..r.value.fd.pos]
                        && (r.value.data == [] ==> fd.Rest() == [])
    ensures AllReady(fd.replies) ==> && r.Some? && AllReady(r.value.fd.replies)
                                     && (r.value.data == [] <==> fd.Rest() == [])
  {
    var src := Source(fd.Rest(), fd.replies);
    var call := SysRead(src, k);
    ReadEmptyAtEof(src, k);
    ReadyRead(src, k);
    if !call.status.Done? then None
    else
      var n := |call.data|;
      assert fd.file[fd.pos..] == call.data + call.rest.content;
      assert fd.file[fd.pos..fd.pos + n] == call.data;
      assert fd.file[fd.pos + n..] == call.rest.content;
      Some(FdOut(call.data, Fd(fd.file, fd.pos + n, call.rest.replies)))
  }

  /** Bytes handed out by a call, and the state after it. */
  datatype Got = Got(bytes: seq<byte>, s: Nap)

  /** The copy out of the buffer: `min(buflen, len)` bytes from `head` on. */
  function Take(s: Nap, buflen: int): (g: Got)
    requires s.Valid() && buflen > 0
    ensures g.s.Valid() && g.s.fd == s.fd
    ensures g.bytes + g.s.Stream() == s.Stream()
    ensures |g.bytes| == Min(buflen, s.rb.len)
    ensures |g.bytes| == buflen || g.s.rb.len == 0
    ensures s.Coherent() ==> g.s.Coherent()
  {
    var rb := s.rb;
    var n := Min(buflen, rb.len);
    var t := s.(rb := Rb(rb.ibuf, rb.head + n, rb.len - n));
    assert rb.ibuf[rb.head..rb.head + n] + t.rb.Pending() == rb.Pending();
    Got(rb.ibuf[rb.head..rb.head + n], t)
  }

  /** `read_buf(fd, buf, buflen)`: only when the buffer is empty is it refilled, with one
      read of up to 4096 bytes (a failed read is fatal, end of file returns 0); then up to
      `buflen` buffered bytes are handed out. The function is split into itself and `Fill`,
      which refills an empty buffer and comes back here to hand out the bytes, so that a
      caller sees `read_buf` through this contract and not through the `read` call. */
  function ReadBuf(s: Nap, buflen: int): (r: Result<Got>)
    requires s.Valid() && buflen > 0
    ensures r.Ok? ==> && r.value.s.Valid() && r.value.s.fd.file == s.fd.file
                      && r.value.bytes + r.value.s.Stream() == s.Stream()
                      && |r.value.bytes| <= buflen
                      && (r.value.bytes == [] <==> s.Stream() == [])
                      && (|r.value.bytes| == buflen || r.value.s.rb.len == 0)
                      && (s.Coherent() ==> r.value.s.Coherent())
    ensures s.rb.len > 0 ==> r.Ok? && r.value.s.fd == s.fd
    ensures AllReady(s.fd.replies) ==> r.Ok? && AllReady(r.value.s.fd.replies)
    decreases if s.rb.len > 0 then 0 else 1, 1
  {
    Fill(s, buflen)
  }

  /** The body of `read_buf`. */
  function Fill(s: Nap, buflen: int): (r: Result<Got>)
    requires s.Valid() && buflen > 0
    ensures r.Ok? ==> && r.value.s.Valid() && r.value.s.fd.file == s.fd.file
                      && r.value.bytes + r.value.s.Stream() == s.Stream()
                      && |r.value.bytes| <= buflen
                      && (r.value.bytes == [] <==> s.Stream() == [])
                      && (|r.value.bytes| == buflen || r.value.s.rb.len == 0)
                      && (s.Coherent() ==> r.value.s.Coherent())
    ensures s.rb.len > 0 ==> r.Ok? && r.value.s.fd == s.fd
    ensures AllReady(s.fd.replies) ==> r.Ok? && AllReady(r.value.s.fd.replies)
    decreases if s.rb.len > 0 then 0 else 1, 0
  {
    if s.rb.len > 0 then Ok(Take(s, buflen))
    else
      match FdRead(s.fd, BufSize)
      case None => Err("read")
      case Some(out) =>
        assert s.rb.Pending() == [];
        if out.data == [] then Ok(Got([], Nap(out.fd, s.rb)))
        else
          var n := |out.data|;
          var t := Nap(out.fd, Rb(out.data + s.rb.ibuf[n..], 0, n));
          assert t.rb.Pending() == out.data;
          assert t.Stream() == s.Stream();
          ReadBuf(t, buflen)
  }

  /** `read_exact(fd, buf, len)`: `read_buf` calls until `len` bytes have arrived; end of file
      before that is fatal. Split like `read_buf`: `Gather` is the loop body. */
  function ReadExact(s: Nap, len: int): (r: Result<Got>)
    requires s.Valid() && len > 0
    ensures r.Ok? ==> && r.value.s.Valid() && r.value.s.fd.file == s.fd.file
                      && |r.value.bytes| == len && r.value.bytes + r.value.s.Stream() == s.Stream()
                      && (s.Coherent() ==> r.value.s.Coherent())
    ensures AllReady(s.fd.replies) ==> && (r.Ok? <==> len <= |s.Stream()|)
                                       && (r.Ok? ==> AllReady(r.value.s.fd.replies))
    decreases len, 1
  {
    Gather(s, len)
  }

  /** One `read_buf` call of `read_exact`, then the rest of the loop. */
  function Gather(s: Nap, len: int): (r: Result<Got>)
    requires s.Valid() && len > 0
    ensures r.Ok? ==> && r.value.s.Valid() && r.value.s.fd.file == s.fd.file
                      && |r.value.bytes| == len && r.value.bytes + r.value.s.Stream() == s.Stream()
                      && (s.Coherent() ==> r.value.s.Coherent())
    ensures AllReady(s.fd.replies) ==> && (r.Ok? <==> len <= |s.Stream()|)
                                       && (r.Ok? ==> AllReady(r.value.s.fd.replies))
    decreases len, 0
  {
    match ReadBuf(s, len)
    case Err(e) => Err(e)
    case Ok(g) =>
      if g.bytes == [] then Err("EOF")
      else if |g.bytes| == len then Ok(g)
      else
        match ReadExact(g.s, len - |g.bytes|)
        case Err(e) => Err(e)
        case Ok(h) =>
          assert (g.bytes + h.bytes) + h.s.Stream() == g.bytes + (h.bytes + h.s.Stream());
          Ok(Got(g.bytes + h.bytes, h.s))
  }

  /** The three field readers: `read_be32`, `read_le32` and `read_le16`. */
  datatype Kind = Be32Field | Le32Field | Le16Field

  function Width(k: Kind): nat
  {
    if k == Le16Field then 2 else 4
  }

  function Total(kinds: seq<Kind>): nat
    decreases |kinds|
  {
    if kinds == [] then 0 else Width(kinds[0]) + Total(kinds[1..])
  }

  /** The `int32_t` a reader returns: the bytes shifted into place and or-ed together, the top
      byte landing in the sign bit. */
  function Decode(k: Kind, b: seq<byte>): int
    requires |b| == Width(k)
  {
    match k
    case Be32Field => ToInt32(DecodeBe32(b))
    case Le32Field => ToInt32(DecodeLe32(b))
    case Le16Field => DecodeLe16(b)
  }

  /** The values of consecutive fields at the front of `b`. */
  function Decodes(kinds: seq<Kind>, b: seq<byte>): (v: seq<int>)
    requires Total(kinds) <= |b|
    ensures |v| == |kinds|
    decreases |kinds|
  {
    if kinds == [] then []
    else
      var w := Width(kinds[0]);
      [Decode(kinds[0], b[..w])] + Decodes(kinds[1..], b[w..])
  }

  datatype Fields = Fields(values: seq<int>, s: Nap)

  /** Consecutive reader calls, each a `read_exact` of its width. */
  function ReadFields(s: Nap, kinds: seq<Kind>): (r: Result<Fields>)
    requires s.Valid()
    ensures r.Ok? ==> && r.value.s.Valid() && r.value.s.fd.file == s.fd.file
                      && Total(kinds) <= |s.Stream()|
                      && r.value.values == Decodes(kinds, s.Stream())
                      && r.value.s.Stream() == s.Stream()[Total(kinds)..]
                      && (s.Coherent() ==> r.value.s.Coherent())
    decreases |kinds|
  {
    if kinds == [] then Ok(Fields([], s))
    else
      var w := Width(kinds[0]);
      match ReadExact(s, w)
      case Err(e) => Err(e)
      case Ok(g) =>
        match ReadFields(g.s, kinds[1..])
        case Err(e) => Err(e)
        case Ok(f) =>
          var b := s.Stream();
          assert g.bytes == b[..w] && g.s.Stream() == b[w..];
          assert b[w..][Total(kinds[1..])..] == b[Total(kinds)..];
          Ok(Fields([Decode(kinds[0], g.bytes)] + f.values, f.s))
  }

  /** When every read succeeds, the fields are read exactly when the stream holds them. */
  lemma {:induction false} ReadFieldsReady(s: Nap, kinds: seq<Kind>)
    requires s.Valid()
    ensures var r := ReadFields(s, kinds);
            AllReady(s.fd.replies) ==>
              && (r.Ok? <==> Total(kinds) <= |s.Stream()|)
              && (r.Ok? ==> AllReady(r.value.s.fd.replies))
    decreases |kinds|
  {
    if kinds != [] && AllReady(s.fd.replies) {
      var w := Width(kinds[0]);
      var g := ReadExact(s, w);
      if g.Ok? {
        assert g.value.s.Stream() == s.Stream()[w..];
        ReadFieldsReady(g.value.s, kinds[1..]);
      }
    }
  }

  /** The AU header's skip loop: `n` bytes (none when `n <= 0`) in `read_exact` calls of at
      most 4096 bytes. */
  function Skip(s: Nap, n: int): (r: Result<Nap>)
    requires s.Valid()
    ensures r.Ok? ==> && r.value.Valid() && r.value.fd.file == s.fd.file
                      && Max(0, n) <= |s.Stream()| && r.value.Stream() == s.Stream()[Max(0, n)..]
                      && (s.Coherent() ==> r.value.Coherent())
    ensures AllReady(s.fd.replies) ==> && (r.Ok? <==> Max(0, n) <= |s.Stream()|)
                                       && (r.Ok? ==> AllReady(r.value.fd.replies))
    decreases n
  {
    if n <= 0 then Ok(s)
    else
      var k := Min(n, BufSize);
      match ReadExact(s, k)
      case Err(e) => Err(e)
      case Ok(g) =>
        var x := s.Stream();
        assert g.s.Stream() == x[k..];
        assert Max(0, n - k) == n - k && Max(0, n) == n;
        var r := Skip(g.s, n - k);
        assert r.Ok? ==> n <= |x| && x[k..][n - k..] == x[n..];
        r
  }

  /** `b` holds the 4-byte word `tag` at offset `j`. */
  predicate WordAt(b: seq<byte>, j: int, tag: seq<byte>)
  {
    0 <= j && j + 4 <= |b| && b[j..j + 4] == tag
  }

  /** Where a scan of whole 4-byte words from the front of `b` stops: just after the first
      word equal to `tag`, or nowhere. */
  function FindWord(b: seq<byte>, tag: seq<byte>): (r: Option<nat>)
    ensures r.Some? ==> 4 <= r.value <= |b| && r.value % 4 == 0 && WordAt(b, r.value - 4, tag)
    decreases |b|
  {
    if |b| < 4 then None
    else if b[..4] == tag then
      assert WordAt(b, 0, tag);
      Some(4)
    else
      match FindWord(b[4..], tag)
      case None => None
      case Some(k) =>
        assert b[k..k + 4] == b[4..][k - 4..k];
        assert WordAt(b, k, tag) && (k + 4) % 4 == 0;
        Some(k + 4)
  }

  /** The scan finds the first aligned occurrence, and finds one whenever there is one. */
  lemma {:induction false} FindWordFirst(b: seq<byte>, tag: seq<byte>, j: int)
    requires j % 4 == 0 && WordAt(b, j, tag)
    ensures FindWord(b, tag).Some? && FindWord(b, tag).value <= j + 4
    decreases |b|
  {
    if b[..4] != tag {
      assert j >= 4;
      assert b[4..][j - 4..j] == b[j..j + 4];
      FindWordFirst(b[4..], tag, j - 4);
    }
  }

  /** The header scans: `read_exact` of one word at a time until a word equals `tag`. */
  function ScanFor(s: Nap, tag: seq<byte>): (r: Result<Nap>)
    requires s.Valid()
    ensures r.Ok? ==> && r.value.Valid() && r.value.fd.file == s.fd.file
                      && FindWord(s.Stream(), tag).Some?
                      && r.value.Stream() == s.Stream()[FindWord(s.Stream(), tag).value..]
                      && (s.Coherent() ==> r.value.Coherent())
    ensures AllReady(s.fd.replies) ==> && (r.Ok? <==> FindWord(s.Stream(), tag).Some?)
                                       && (r.Ok? ==> AllReady(r.value.fd.replies))
    decreases |s.Stream()|
  {
    FindWordStep(s.Stream(), tag);
    match ReadExact(s, 4)
    case Err(e) => Err(e)
    case Ok(g) =>
      var b := s.Stream();
      assert g.bytes == b[..4] && g.s.Stream() == b[4..];
      if g.bytes == tag then Ok(g.s)
      else
        match ScanFor(g.s, tag)
        case Err(e) => Err(e)
        case Ok(t) => Ok(t)
  }

  /** One word of the scan: a match at the front, or the scan of the rest shifted by 4. */
  lemma FindWordStep(b: seq<byte>, tag: seq<byte>)
    ensures |b| < 4 ==> FindWord(b, tag).None?
    ensures |b| >= 4 && b[..4] == tag ==> FindWord(b, tag) == Some(4)
    ensures |b| >= 4 && b[..4] != tag ==>
              && FindWord(b, tag).Some? == FindWord(b[4..], tag).Some?
              && (FindWord(b, tag).Some? ==>
                    && FindWord(b, tag).value == FindWord(b[4..], tag).value + 4
                    && b[FindWord(b, tag).value..] == b[4..][FindWord(b[4..], tag).value..])
  {
  }

  const MagicAu: seq<byte> := [0x2E, 0x73, 0x6E, 0x64]   // ".snd"

  /** The five big-endian words after ".snd": data offset, data size, encoding, rate and
      channel count. */
  const AuKinds: seq<Kind> := [Be32Field, Be32Field, Be32Field, Be32Field, Be32Field]

  /** The seven "fmt " fields: chunk length, format, channels, rate, byte rate, block size
      and bits per sample. */
  const RiffKinds: seq<Kind> := [Le32Field, Le16Field, Le16Field, Le32Field, Le32Field, Le16Field, Le16Field]

  lemma KindTotals()
    ensures Total(AuKinds) == 20 && Total(RiffKinds) == 20
  {
    assert Total(AuKinds[4..]) == 4 && Total(AuKinds[3..]) == 8 && Total(AuKinds[2..]) == 12;
    assert Total(RiffKinds[6..]) == 2 && Total(RiffKinds[5..]) == 4 && Total(RiffKinds[4..]) == 8;
    assert Total(RiffKinds[3..]) == 12 && Total(RiffKinds[2..]) == 14 && Total(RiffKinds[1..]) == 16;
  }

  /** The sample encodings `main` can select. */
  datatype Enc = Ulaw | UlinearLe | SlinearLe

  /** The playback parameters handed to `AUDIO_SETINFO`. */
  datatype Info = Info(encoding: Enc, precision: int, rate: int, channels: int)

  /** The audio parameters and the bytes left to play. */
  datatype Layout = Layout(info: Info, data: seq<byte>)

  /** The AU header after its five words `v`: `offset - 24` bytes (none if that is not
      positive) are skipped, then only encoding 1 (8-bit mu-law) is accepted. */
  function AuTail(v: seq<int>, rest: seq<byte>): Option<Layout>
    requires |v| == 5
  {
    var skip := Max(0, v[0] - 24);
    if skip > |rest| || v[2] != 1 then None
    else Some(Layout(Info(Ulaw, 8, v[3], v[4]), rest[skip..]))
  }

  /** The AU header as a function of the bytes after the magic alone. */
  function AuLayout(b: seq<byte>): Option<Layout>
  {
    KindTotals();
    if |b| < 20 then None else AuTail(Decodes(AuKinds, b), b[20..])
  }

  /** The RIFF header after its "fmt " word: the seven fields, then the word scan for
      "data"; 8 bits per sample is unsigned, anything else signed. */
  function RiffTail(v: seq<int>, rest: seq<byte>): Option<Layout>
    requires |v| == 7
  {
    match FindWord(rest, Wav.TagData)
    case None => None
    case Some(d) =>
      var bits := v[6];
      Some(Layout(Info(if bits == 8 then UlinearLe else SlinearLe, bits, v[3], v[2]), rest[d..]))
  }

  /** The RIFF header from its seven fields on. */
  function RiffAfterFmt(c: seq<byte>): Option<Layout>
  {
    KindTotals();
    if |c| < 20 then None else RiffTail(Decodes(RiffKinds, c), c[20..])
  }

  /** The RIFF header as a function of the bytes after the magic alone: the word scan for
      "fmt " and what follows it. */
  function RiffLayout(b: seq<byte>): Option<Layout>
  {
    match FindWord(b, Wav.TagFmt)
    case None => None
    case Some(k) => RiffAfterFmt(b[k..])
  }

  datatype Parsed = Parsed(info: Info, s: Nap)

  /** The skip and encoding check after the five AU words. */
  function AuSkip(f: Fields): (r: Result<Parsed>)
    requires f.s.Valid() && |f.values| == 5
    ensures r.Ok? ==> && r.value.s.Valid() && r.value.s.fd.file == f.s.fd.file
                      && AuTail(f.values, f.s.Stream()).Some?
                      && r.value.info == AuTail(f.values, f.s.Stream()).value.info
                      && r.value.s.Stream() == AuTail(f.values, f.s.Stream()).value.data
                      && (f.s.Coherent() ==> r.value.s.Coherent())
    ensures AllReady(f.s.fd.replies) ==> && (r.Ok? <==> AuTail(f.values, f.s.Stream()).Some?)
                                         && (r.Ok? ==> AllReady(r.value.s.fd.replies))
  {
    var v := f.values;
    match Skip(f.s, v[0] - 24)
    case Err(e) => Err(e)
    case Ok(t) =>
      if v[2] != 1 then Err("unsupported encoding")
      else Ok(Parsed(Info(Ulaw, 8, v[3], v[4]), t))
  }

  /** The AU branch of `main` after the magic. */
  function ParseAu(s: Nap): (r: Result<Parsed>)
    requires s.Valid()
    ensures r.Ok? ==> && r.value.s.Valid() && r.value.s.fd.file == s.fd.file
                      && AuLayout(s.Stream()).Some?
                      && r.value.info == AuLayout(s.Stream()).value.info
                      && r.value.s.Stream() == AuLayout(s.Stream()).value.data
                      && (s.Coherent() ==> r.value.s.Coherent())
    ensures AllReady(s.fd.replies) ==> && (r.Ok? <==> AuLayout(s.Stream()).Some?)
                                       && (r.Ok? ==> AllReady(r.value.s.fd.replies))
  {
    KindTotals();
    ReadFieldsReady(s, AuKinds);
    var b := s.Stream();
    assert AuLayout(b) == if |b| < 20 then None else AuTail(Decodes(AuKinds, b), b[20..]);
    match ReadFields(s, AuKinds)
    case Err(e) => Err(e)
    case Ok(f) => AuSkip(f)
  }

  /** The "data" scan after the seven RIFF fields. */
  function RiffScan(f: Fields): (r: Result<Parsed>)
    requires f.s.Valid() && |f.values| == 7
    ensures r.Ok? ==> && r.value.s.Valid() && r.value.s.fd.file == f.s.fd.file
                      && RiffTail(f.values, f.s.Stream()).Some?
                      && r.value.info == RiffTail(f.values, f.s.Stream()).value.info
                      && r.value.s.Stream() == RiffTail(f.values, f.s.Stream()).value.data
                      && (f.s.Coherent() ==> r.value.s.Coherent())
    ensures AllReady(f.s.fd.replies) ==> && (r.Ok? <==> RiffTail(f.values, f.s.Stream()).Some?)
                                         && (r.Ok? ==> AllReady(r.value.s.fd.replies))
  {
    var v := f.values;
    var bits := v[6];
    var info := Info(if bits == 8 then UlinearLe else SlinearLe, bits, v[3], v[2]);
    var rest := f.s.Stream();
    assert RiffTail(v, rest).Some? <==> FindWord(rest, Wav.TagData).Some?;
    assert RiffTail(v, rest).Some? ==> RiffTail(v, rest).value == Layout(info, rest[FindWord(rest, Wav.TagData).value..]);
    match ScanFor(f.s, Wav.TagData)
    case Err(e) => Err(e)
    case Ok(u) => Ok(Parsed(info, u))
  }

  /** The seven fields and the "data" scan after the "fmt " word. */
  function RiffFields(t: Nap): (r: Result<Parsed>)
    requires t.Valid()
    ensures r.Ok? ==> && r.value.s.Valid() && r.value.s.fd.file == t.fd.file
                      && RiffAfterFmt(t.Stream()).Some?
                      && r.value.info == RiffAfterFmt(t.Stream()).value.info
                      && r.value.s.Stream() == RiffAfterFmt(t.Stream()).value.data
                      && (t.Coherent() ==> r.value.s.Coherent())
    ensures AllReady(t.fd.replies) ==> && (r.Ok? <==> RiffAfterFmt(t.Stream()).Some?)
                                       && (r.Ok? ==> AllReady(r.value.s.fd.replies))
  {
    KindTotals();
    ReadFieldsReady(t, RiffKinds);
    var c := t.Stream();
    assert RiffAfterFmt(c) == if |c| < 20 then None else RiffTail(Decodes(RiffKinds, c), c[20..]);
    match ReadFields(t, RiffKinds)
    case Err(e) => Err(e)
    case Ok(f) => RiffScan(f)
  }

  /** The RIFF branch of `main` after the magic. */
  function ParseRiff(s: Nap): (r: Result<Parsed>)
    requires s.Valid()
    ensures r.Ok? ==> && r.value.s.Valid() && r.value.s.fd.file == s.fd.file
                      && RiffLayout(s.Stream()).Some?
                      && r.value.info == RiffLayout(s.Stream()).value.info
                      && r.value.s.Stream() == RiffLayout(s.Stream()).value.data
                      && (s.Coherent() ==> r.value.s.Coherent())
    ensures AllReady(s.fd.replies) ==> && (r.Ok? <==> RiffLayout(s.Stream()).Some?)
                                       && (r.Ok? ==> AllReady(r.value.s.fd.replies))
  {
    match ScanFor(s, Wav.TagFmt)
    case Err(e) => Err(e)
    case Ok(t) => RiffFields(t)
  }

  /** The whole header as a function of the file's bytes. */
  function HeaderLayout(b: seq<byte>): Option<Layout>
  {
    if |b| < 4 then None
    else if b[..4] == MagicAu then AuLayout(b[4..])
    else if b[..4] == Wav.TagRiff then RiffLayout(b[4..])
    else None
  }

  /** `main` from the 4-byte magic to the end of the header: ".snd" is AU, "RIFF" is WAV,
      anything else is unsupported. */
  function Header(s: Nap): (r: Result<Parsed>)
    requires s.Valid()
    ensures r.Ok? ==> && r.value.s.Valid() && r.value.s.fd.file == s.fd.file
                      && HeaderLayout(s.Stream()).Some?
                      && r.value.info == HeaderLayout(s.Stream()).value.info
                      && r.value.s.Stream() == HeaderLayout(s.Stream()).value.data
                      && (s.Coherent() ==> r.value.s.Coherent())
    ensures AllReady(s.fd.replies) ==> && (r.Ok? <==> HeaderLayout(s.Stream()).Some?)
                                       && (r.Ok? ==> AllReady(r.value.s.fd.replies))
  {
    match ReadExact(s, 4)
    case Err(e) => Err(e)
    case Ok(g) =>
      var b := s.Stream();
      assert g.bytes == b[..4] && g.s.Stream() == b[4..];
      if g.bytes == MagicAu then ParseAu(g.s)
      else if g.bytes == Wav.TagRiff then ParseRiff(g.s)
      else Err("unsupported")
  }

  /** The reader and the audio device after a pass. */
  datatype Played = Played(s: Nap, audio: Sink)

  /** The `write` of a turn: a failed write and a short one are fatal. */
  function Emit(bytes: seq<byte>, audio: Sink): (r: Result<Sink>)
    ensures r.Ok? ==> r.value.written == audio.written + bytes
    ensures audio.replies == [] ==> r.Ok? && r.value.replies == []
  {
    var w := SysWrite(audio, bytes);
    if !w.status.Done? then Err("write")
    else if w.count != |bytes| then Err("r != w")
    else
      assert bytes[..w.count] == bytes;
      Ok(w.rest)
  }

  /** One turn of the inner `for (;;)`: `read_buf` of up to 4096 bytes and, unless it
      returned 0, one `write` of them. */
  function Step(s: Nap, audio: Sink): (r: Result<Played>)
    requires s.Valid()
    ensures r.Ok? ==> && r.value.s.Valid() && r.value.s.fd.file == s.fd.file
                      && r.value.audio.written + r.value.s.Stream() == audio.written + s.Stream()
                      && (s.Stream() != [] ==> |r.value.s.Stream()| < |s.Stream()|)
                      && (s.Stream() == [] ==> r.value.audio.written == audio.written)
                      && (s.Coherent() ==> r.value.s.Coherent())
    ensures AllReady(s.fd.replies) && audio.replies == [] ==>
              r.Ok? && AllReady(r.value.s.fd.replies) && r.value.audio.replies == []
  {
    var rd := ReadBuf(s, BufSize);
    if rd.Err? then Err(rd.msg)
    else
      var g := rd.value;
      assert |g.s.Stream()| == |s.Stream()| - |g.bytes|;
      if g.bytes == [] then Ok(Played(g.s, audio))
      else
        var w := Emit(g.bytes, audio);
        if w.Err? then Err(w.msg)
        else
          assert w.value.written + g.s.Stream() == audio.written + (g.bytes + g.s.Stream());
          Ok(Played(g.s, w.value))
  }

  /** The inner `for (;;)`: turns until `read_buf` returns 0, that is until the stream is
      exhausted; everything the stream held reaches the device, in order. The loop is split
      into itself and `Turn`, one turn followed by the rest of the loop, so that a caller
      sees the loop through this contract and not through the calls of a turn. */
  function Pass(s: Nap, audio: Sink): (r: Result<Played>)
    requires s.Valid()
    ensures r.Ok? ==> && r.value.s.Valid() && r.value.s.fd.file == s.fd.file
                      && r.value.audio.written == audio.written + s.Stream()
                      && r.value.s.Stream() == []
                      && (s.Coherent() ==> r.value.s.Coherent())
    ensures AllReady(s.fd.replies) && audio.replies == [] ==>
              r.Ok? && AllReady(r.value.s.fd.replies) && r.value.audio.replies == []
    decreases |s.Stream()|, 1
  {
    Turn(s, audio)
  }

  /** One turn of the inner loop, then the rest of it. */
  function Turn(s: Nap, audio: Sink): (r: Result<Played>)
    requires s.Valid()
    ensures r.Ok? ==> && r.value.s.Valid() && r.value.s.fd.file == s.fd.file
                      && r.value.audio.written == audio.written + s.Stream()
                      && r.value.s.Stream() == []
                      && (s.Coherent() ==> r.value.s.Coherent())
    ensures AllReady(s.fd.replies) && audio.replies == [] ==>
              r.Ok? && AllReady(r.value.s.fd.replies) && r.value.audio.replies == []
    decreases |s.Stream()|, 0
  {
    match Step(s, audio)
    case Err(e) => Err(e)
    case Ok(p) =>
      if s.Stream() == [] then
        assert p.audio.written == audio.written + s.Stream();
        Ok(p)
      else Pass(p.s, p.audio)
  }

  /** `lseek(fd, ofs, SEEK_SET)`: the kernel's offset moves, `read_buf`'s buffer stays. */
  function Seek(s: Nap, ofs: nat): (t: Nap)
    requires s.Valid() && ofs <= |s.fd.file|
    ensures t.Valid() && t.rb == s.rb && t.fd.file == s.fd.file && t.fd.replies == s.fd.replies
    ensures t.Stream() == s.rb.Pending() + s.fd.file[ofs..]
  {
    s.(fd := s.fd.(pos := ofs))
  }

  /** The number of passes the outer loop makes within `passes`: `loop` for a positive count,
      none for 0, and every allowed one for a negative count. */
  function Count(loop: int, passes: nat): nat
  {
    if loop >= 0 then Min(loop, passes) else passes
  }

  /** What the outer loop leaves, with whether each pass started with a seek. */
  datatype Playback = Playback(s: Nap, audio: Sink, seeks: seq<bool>)

  /** `while (loop != 0)`, for at most `passes` passes: a pass seeks back to `startOfs` when
      the count is negative or above 1, then counts down a positive count, then plays. */
  function Play(s: Nap, loop: int, startOfs: nat, audio: Sink, passes: nat): (r: Result<Playback>)
    requires s.Valid() && startOfs <= |s.fd.file|
    ensures r.Ok? ==> && r.value.s.Valid() && r.value.s.fd.file == s.fd.file
                      && |r.value.seeks| == Count(loop, passes)
                      && forall i :: 0 <= i < |r.value.seeks| ==> (r.value.seeks[i] <==> loop < 0 || loop - i > 1)
    ensures AllReady(s.fd.replies) && audio.replies == [] ==> r.Ok?
    decreases passes
  {
    if loop == 0 || passes == 0 then Ok(Playback(s, audio, []))
    else
      var seek := loop < 0 || loop > 1;
      var t := if seek then Seek(s, startOfs) else s;
      var next := if loop > 0 then loop - 1 else loop;
      match Pass(t, audio)
      case Err(e) => Err(e)
      case Ok(p) =>
        match Play(p.s, next, startOfs, p.audio, passes - 1)
        case Err(e) => Err(e)
        case Ok(q) =>
          var seeks := [seek] + q.seeks;
          assert forall i :: 1 <= i < |seeks| ==> seeks[i] == q.seeks[i - 1];
          Ok(Playback(q.s, q.audio, seeks))
  }

  /** `n` copies of `x`, one after another. */
  function Repeat(x: seq<byte>, n: nat): seq<byte>
  {
    if n == 0 then [] else x + Repeat(x, n - 1)
  }

  /** From a drained reader, as written: a positive count seeks before every pass but the
      last, so it plays the bytes after `startOfs` one time fewer than asked; a negative count
      plays them on every pass. */
  lemma {:induction false} PlayDrained(t: Nap, m: int, startOfs: nat, audio: Sink, passes: nat)
    requires t.Valid() && t.Stream() == [] && startOfs <= |t.fd.file|
    requires AllReady(t.fd.replies) && audio.replies == []
    requires m != 0 && (m > 0 ==> 1 <= m <= passes)
    ensures var r := Play(t, m, startOfs, audio, passes);
            && r.Ok?
            && r.value.audio.written
               == audio.written + Repeat(t.fd.file[startOfs..], if m > 0 then m - 1 else passes)
    decreases passes
  {
    var x := t.fd.file[startOfs..];
    assert t.rb.Pending() == [];
    if passes > 0 && m != 1 {
      var next := if m > 0 then m - 1 else m;
      var u := Seek(t, startOfs);
      assert u.Stream() == x;
      var p := Pass(u, audio).value;
      PlayDrained(p.s, next, startOfs, p.audio, passes - 1);
      assert p.s.fd.file[startOfs..] == x;
      if m > 0 {
        RepeatAfter(audio.written, x, m - 1);
      } else {
        RepeatAfter(audio.written, x, passes);
      }
    }
  }

  lemma RepeatAfter(a: seq<byte>, x: seq<byte>, n: nat)
    requires n > 0
    ensures (a + x) + Repeat(x, n - 1) == a + Repeat(x, n)
  {
  }

  /** The outer loop as written, from the state the header leaves and the offset `lseek`
      reports there: for a count of 2 or more the first pass plays the whole stream, the
      middle passes replay only what lies after the kernel's offset (the bytes `read_buf`
      had buffered are lost), and the last pass, which does not seek, plays nothing. */
  lemma PlayAsWritten(s: Nap, loop: int, audio: Sink, passes: nat)
    requires s.Valid() && AllReady(s.fd.replies) && audio.replies == []
    requires (loop >= 2 && loop <= passes) || (loop < 0 && passes >= 1)
    ensures var r := Play(s, loop, s.fd.pos, audio, passes);
            && r.Ok?
            && r.value.audio.written
               == audio.written + s.Stream() + Repeat(s.fd.Rest(), if loop > 0 then loop - 2 else passes - 1)
  {
    assert Seek(s, s.fd.pos) == s;
    var p := Pass(s, audio).value;
    var next := if loop > 0 then loop - 1 else loop;
    if passes - 1 > 0 || loop > 0 {
      PlayDrained(p.s, next, s.fd.pos, p.audio, passes - 1);
    }
  }

  /** The smallest case: asked to play twice, the program plays the data once. */
  lemma LoopTwicePlaysOnce(s: Nap, audio: Sink)
    requires s.Valid() && AllReady(s.fd.replies) && audio.replies == [] && s.Stream() != []
    ensures var r := Play(s, 2, s.fd.pos, audio, 2);
            && r.Ok? && r.value.audio.written == audio.written + s.Stream()
            && r.value.audio.written != audio.written + Repeat(s.Stream(), 2)
  {
    PlayAsWritten(s, 2, audio, 2);
    var x := s.Stream();
    assert Repeat(x, 1) == x;
    assert |audio.written + Repeat(x, 2)| == |audio.written| + 2 * |x|;
  }

  /** Asked to play three times with bytes still buffered after the header, the second pass
      lacks those buffered bytes: the output is the stream, then only what follows the
      kernel's offset, and not three copies of the stream. */
  lemma LoopThriceLosesBuffered(s: Nap, audio: Sink)
    requires s.Valid() && AllReady(s.fd.replies) && audio.replies == [] && s.rb.Pending() != []
    ensures var r := Play(s, 3, s.fd.pos, audio, 3);
            && r.Ok? && r.value.audio.written == audio.written + s.Stream() + s.fd.Rest()
            && r.value.audio.written != audio.written + Repeat(s.Stream(), 3)
  {
    PlayAsWritten(s, 3, audio, 3);
    var x := s.Stream();
    assert Repeat(s.fd.Rest(), 1) == s.fd.Rest();
    assert |Repeat(x, 3)| == 3 * |x| by {
      assert Repeat(x, 0) == [];
      assert Repeat(x, 1) == x;
      assert Repeat(x, 2) == x + x;
    }
    assert |x| == |s.rb.Pending()| + |s.fd.Rest()|;
  }

  /** The evidently intended loop: every pass goes back to the first audio byte, which lies
      `len` bytes before the kernel's offset after the header, and empties the buffer. */
  function PlayFixed(s: Nap, loop: int, dataStart: nat, audio: Sink, passes: nat): (r: Result<Playback>)
    requires s.Valid() && dataStart <= |s.fd.file|
    ensures r.Ok? ==> && r.value.s.Valid() && r.value.s.fd.file == s.fd.file
                      && |r.value.seeks| == Count(loop, passes)
    ensures AllReady(s.fd.replies) && audio.replies == [] ==> r.Ok? && r.value.audio.replies == []
    decreases passes
  {
    if loop == 0 || passes == 0 then Ok(Playback(s, audio, []))
    else
      var next := if loop > 0 then loop - 1 else loop;
      match Pass(Rewind(s, dataStart), audio)
      case Err(e) => Err(e)
      case Ok(p) =>
        match PlayFixed(p.s, next, dataStart, p.audio, passes - 1)
        case Err(e) => Err(e)
        case Ok(q) => Ok(Playback(q.s, q.audio, [true] + q.seeks))
  }

  /** The fixed seek: the kernel's offset goes to `ofs` and the buffer is emptied. */
  function Rewind(s: Nap, ofs: nat): (t: Nap)
    requires s.Valid() && ofs <= |s.fd.file|
    ensures t.Valid() && t.fd.file == s.fd.file && t.fd.replies == s.fd.replies
    ensures t.Stream() == s.fd.file[ofs..]
  {
    var t := s.(fd := s.fd.(pos := ofs), rb := s.rb.(head := 0, len := 0));
    assert t.rb.Pending() == [];
    t
  }

  /** Whatever state it starts from, the fixed loop plays the bytes from `dataStart` on
      exactly as many times as the count asks. */
  lemma {:induction false} FixedRepeats(s: Nap, loop: int, dataStart: nat, audio: Sink, passes: nat)
    requires s.Valid() && dataStart <= |s.fd.file| && AllReady(s.fd.replies) && audio.replies == []
    ensures var r := PlayFixed(s, loop, dataStart, audio, passes);
            && r.Ok?
            && r.value.audio.written == audio.written + Repeat(s.fd.file[dataStart..], Count(loop, passes))
    decreases passes
  {
    var x := s.fd.file[dataStart..];
    if loop == 0 || passes == 0 {
      assert Count(loop, passes) == 0 && Repeat(x, 0) == [];
    } else {
      var next := if loop > 0 then loop - 1 else loop;
      var p := Pass(Rewind(s, dataStart), audio).value;
      FixedRepeats(p.s, next, dataStart, p.audio, passes - 1);
      RepeatAfter(audio.written, x, Count(loop, passes));
    }
  }

  /** From the state the header leaves, the fixed loop started at the first byte `read_buf`
      has not yet handed out plays the audio data, as many times as the count asks. */
  lemma FixedPlaysData(s: Nap, loop: int, audio: Sink, passes: nat)
    requires s.Valid() && s.Coherent() && AllReady(s.fd.replies) && audio.replies == []
    ensures var r := PlayFixed(s, loop, s.fd.pos - s.rb.len, audio, passes);
            && r.Ok? && r.value.audio.written == audio.written + Repeat(s.Stream(), Count(loop, passes))
  {
    assert s.fd.file[s.fd.pos - s.rb.len..] == s.rb.Pending() + s.fd.Rest();
    FixedRepeats(s, loop, s.fd.pos - s.rb.len, audio, passes);
  }

  /** The bytes a field of kind `k` holding `v` occupies in a file. */
  function Encode(k: Kind, v: int): (r: seq<byte>)
    ensures |r| == Width(k)
  {
    match k
    case Be32Field => Be32(Trunc32(v))
    case Le32Field => Le32(Trunc32(v))
    case Le16Field => Le16(Trunc16(v))
  }

  /** A value a field of kind `k` reads back unchanged: any `int32_t` for the 32-bit kinds,
      and 0 to 65535 for the 16-bit one. */
  predicate Fits(k: Kind, v: int)
  {
    if k == Le16Field then 0 <= v < TWO16 else -TWO31 <= v < TWO31
  }

  function Encodes(kinds: seq<Kind>, vals: seq<int>): (r: seq<byte>)
    requires |vals| == |kinds|
    ensures |r| == Total(kinds)
    decreases |kinds|
  {
    if kinds == [] then [] else Encode(kinds[0], vals[0]) + Encodes(kinds[1..], vals[1..])
  }

  /** The readers invert the field encodings, sign included. */
  lemma DecodeEncode(k: Kind, v: int)
    requires Fits(k, v)
    ensures Decode(k, Encode(k, v)) == v
  {
    if k != Le16Field {
      Int32RoundTrip(v);
    }
  }

  /** Consecutive readers give back the values of consecutively encoded fields, whatever
      follows them. */
  lemma {:induction false} DecodesEncodes(kinds: seq<Kind>, vals: seq<int>, rest: seq<byte>)
    requires |vals| == |kinds| && forall i :: 0 <= i < |kinds| ==> Fits(kinds[i], vals[i])
    ensures Decodes(kinds, Encodes(kinds, vals) + rest) == vals
    decreases |kinds|
  {
    if kinds != [] {
      var e := Encode(kinds[0], vals[0]);
      var b := Encodes(kinds, vals) + rest;
      var tail := Encodes(kinds[1..], vals[1..]) + rest;
      assert b == e + tail;
      assert b[..Width(kinds[0])] == e && b[Width(kinds[0])..] == tail;
      DecodeEncode(kinds[0], vals[0]);
      assert forall i :: 0 <= i < |kinds| - 1 ==> kinds[1..][i] == kinds[i + 1] && vals[1..][i] == vals[i + 1];
      DecodesEncodes(kinds[1..], vals[1..], rest);
    }
  }

  /** An AU file whose data offset counts the 24 header bytes and the padding after them, and
      whose encoding is 1: the header gives 8-bit mu-law at the stored rate and channel count,
      and the bytes after the padding are the audio. The data size field is not looked at. */
  lemma AuRoundTrip(words: seq<int>, pad: seq<byte>, data: seq<byte>)
    requires |words| == 5 && words[0] == 24 + |pad| && words[2] == 1
    requires forall i :: 0 <= i < 5 ==> -TWO31 <= words[i] < TWO31
    ensures HeaderLayout(MagicAu + (Encodes(AuKinds, words) + (pad + data)))
            == Some(Layout(Info(Ulaw, 8, words[3], words[4]), data))
  {
    var b := Encodes(AuKinds, words) + (pad + data);
    AfterMagic(MagicAu, b);
    AuWords(words, pad + data);
    assert (pad + data)[|pad|..] == data;
  }

  /** The magic selects the format and is not part of what follows. */
  lemma AfterMagic(magic: seq<byte>, b: seq<byte>)
    requires |magic| == 4
    ensures (magic + b)[..4] == magic && (magic + b)[4..] == b
  {
  }

  lemma AuWords(words: seq<int>, rest: seq<byte>)
    requires |words| == 5 && forall i :: 0 <= i < 5 ==> -TWO31 <= words[i] < TWO31
    ensures AuLayout(Encodes(AuKinds, words) + rest) == AuTail(words, rest)
  {
    KindTotals();
    assert forall i :: 0 <= i < 5 ==> Fits(AuKinds[i], words[i]);
    DecodesEncodes(AuKinds, words, rest);
    assert (Encodes(AuKinds, words) + rest)[20..] == rest;
  }

  /** A RIFF file whose first chunk is "WAVE" with a "fmt " chunk of just the seven fields,
      followed directly by the "data" chunk: the header gives the stored bits, rate and
      channel count, unsigned for 8 bits and signed otherwise, and the audio starts right
      after the word "data", so that the chunk's 4-byte length is played as samples. Neither
      the chunk lengths nor the format code are looked at. */
  lemma RiffRoundTrip(riffLen: seq<byte>, fields: seq<int>, dataLen: seq<byte>, data: seq<byte>)
    requires |riffLen| == 4 && riffLen != Wav.TagFmt && |dataLen| == 4
    requires |fields| == 7 && forall i :: 0 <= i < 7 ==> Fits(RiffKinds[i], fields[i])
    ensures HeaderLayout(Wav.TagRiff + (riffLen + (Wav.TagWave + (Wav.TagFmt + (Encodes(RiffKinds, fields)
                         + (Wav.TagData + (dataLen + data)))))))
            == Some(Layout(Info(if fields[6] == 8 then UlinearLe else SlinearLe, fields[6], fields[3], fields[2]),
                           dataLen + data))
  {
    var tail := Wav.TagData + (dataLen + data);
    var c := Encodes(RiffKinds, fields) + tail;
    var b := riffLen + (Wav.TagWave + (Wav.TagFmt + c));
    AfterMagic(Wav.TagRiff, b);
    assert Wav.TagRiff != MagicAu by { assert Wav.TagRiff[0] != MagicAu[0]; }
    FmtThird(riffLen, c);
    assert RiffLayout(b) == RiffAfterFmt(c);
    RiffFmtWords(fields, tail);
    DataFirst(fields, dataLen + data);
  }

  /** A "data" word right after the fields ends the second scan at once. */
  lemma DataFirst(fields: seq<int>, x: seq<byte>)
    requires |fields| == 7
    ensures RiffTail(fields, Wav.TagData + x)
            == Some(Layout(Info(if fields[6] == 8 then UlinearLe else SlinearLe, fields[6], fields[3], fields[2]), x))
  {
    var tail := Wav.TagData + x;
    assert tail[..4] == Wav.TagData && tail[4..] == x;
  }

  /** The scan for "fmt " passes over the RIFF length and "WAVE" and stops after the third word. */
  lemma FmtThird(riffLen: seq<byte>, c: seq<byte>)
    requires |riffLen| == 4 && riffLen != Wav.TagFmt
    ensures var b := riffLen + (Wav.TagWave + (Wav.TagFmt + c));
            FindWord(b, Wav.TagFmt) == Some(12) && b[12..] == c
  {
    var b1 := Wav.TagWave + (Wav.TagFmt + c);
    var b := riffLen + b1;
    assert b[..4] == riffLen && b[4..] == b1;
    assert Wav.TagWave != Wav.TagFmt by { assert Wav.TagWave[0] != Wav.TagFmt[0]; }
    assert b1[..4] == Wav.TagWave && b1[4..] == Wav.TagFmt + c;
    assert (Wav.TagFmt + c)[..4] == Wav.TagFmt;
    assert FindWord(Wav.TagFmt + c, Wav.TagFmt) == Some(4);
    assert FindWord(b1, Wav.TagFmt) == Some(8);
  }

  lemma RiffFmtWords(fields: seq<int>, rest: seq<byte>)
    requires |fields| == 7 && forall i :: 0 <= i < 7 ==> Fits(RiffKinds[i], fields[i])
    ensures RiffAfterFmt(Encodes(RiffKinds, fields) + rest) == RiffTail(fields, rest)
  {
    KindTotals();
    DecodesEncodes(RiffKinds, fields, rest);
    assert (Encodes(RiffKinds, fields) + rest)[20..] == rest;
  }

  /** What a run of the program leaves: the parameters it set and the playback. */
  datatype Outcome = Outcome(info: Info, playback: Playback)

  /** Whether a count makes `main` call `lseek`: a negative count or one above 1. */
  predicate Loops(loop: int)
  {
    loop < 0 || loop > 1
  }

  /** `main` after `open`: the header, then the outer loop from the offset `lseek` reports
      after it. A descriptor that cannot seek (a pipe, say) makes that first `lseek` fail,
      which is fatal; once it has succeeded the later seeks to the same offset do too. */
  function PlayFile(file: seq<byte>, replies: seq<Reply>, seekable: bool, loop: int, audio: Sink, passes: nat)
    : (r: Result<Outcome>)
    ensures r.Ok? ==> HeaderLayout(file).Some? && r.value.info == HeaderLayout(file).value.info
    ensures r.Ok? ==> seekable || !Loops(loop)
    ensures AllReady(replies) && audio.replies == [] ==>
              (r.Ok? <==> HeaderLayout(file).Some? && (seekable || !Loops(loop)))
  {
    var s := Start(file, replies);
    match Header(s)
    case Err(e) => Err(e)
    case Ok(p) =>
      if Loops(loop) && !seekable then Err("lseek")
      else
      match Play(p.s, loop, p.s.fd.pos, audio, passes)
      case Err(e) => Err(e)
      case Ok(q) => Ok(Outcome(p.info, q))
  }

  /** Played once, a file with a well-formed header reaches the device as exactly its audio
      data. */
  lemma PlayFileOnce(file: seq<byte>, replies: seq<Reply>, seekable: bool, audio: Sink, passes: nat)
    requires AllReady(replies) && audio.replies == [] && passes >= 1 && HeaderLayout(file).Some?
    ensures var r := PlayFile(file, replies, seekable, 1, audio, passes);
            r.Ok? && r.value.playback.audio.written == audio.written + HeaderLayout(file).value.data
  {
    var p := Header(Start(file, replies)).value;
    var q := Pass(p.s, audio).value;
    assert Play(p.s, 1, p.s.fd.pos, audio, passes).value.audio == q.audio;
  }

  /** `main` with the evidently intended loop; it still needs a seekable descriptor exactly
      when the count asks for more than one pass. */
  function PlayFileFixed(file: seq<byte>, replies: seq<Reply>, seekable: bool, loop: int, audio: Sink,
                         passes: nat): (r: Result<Outcome>)
    ensures r.Ok? ==> HeaderLayout(file).Some? && r.value.info == HeaderLayout(file).value.info
    ensures r.Ok? ==> seekable || !Loops(loop)
    ensures AllReady(replies) && audio.replies == [] ==>
              (r.Ok? <==> HeaderLayout(file).Some? && (seekable || !Loops(loop)))
  {
    var s := Start(file, replies);
    match Header(s)
    case Err(e) => Err(e)
    case Ok(p) =>
      if Loops(loop) && !seekable then Err("lseek")
      else
      match PlayFixed(p.s, loop, p.s.fd.pos - p.s.rb.len, audio, passes)
      case Err(e) => Err(e)
      case Ok(q) => Ok(Outcome(p.info, q))
  }

  /** With the intended loop a file with a well-formed header reaches the device as its audio
      data repeated as often as the count asks: `loop` times for a positive count, on every
      pass for a negative one. */
  lemma FixedFileRepeats(file: seq<byte>, replies: seq<Reply>, seekable: bool, loop: int, audio: Sink,
                         passes: nat)
    requires AllReady(replies) && audio.replies == [] && HeaderLayout(file).Some?
    ensures var r := PlayFileFixed(file, replies, seekable, loop, audio, passes);
            && (r.Ok? <==> seekable || !Loops(loop))
            && (r.Ok? ==> r.value.playback.audio.written
                          == audio.written + Repeat(HeaderLayout(file).value.data, Count(loop, passes)))
  {
    if seekable || !Loops(loop) {
      FixedFilePlays(file, replies, seekable, loop, audio, passes);
    }
  }

  lemma FixedFilePlays(file: seq<byte>, replies: seq<Reply>, seekable: bool, loop: int, audio: Sink,
                       passes: nat)
    requires AllReady(replies) && audio.replies == [] && HeaderLayout(file).Some?
    requires seekable || !Loops(loop)
    ensures var r := PlayFileFixed(file, replies, seekable, loop, audio, passes);
            r.Ok? && r.value.playback.audio.written
                     == audio.written + Repeat(HeaderLayout(file).value.data, Count(loop, passes))
  {
    var s := Start(file, replies);
    var p := Header(s).value;
    assert p.s.Coherent() && p.s.Stream() == HeaderLayout(file).value.data;
    FixedPlaysData(p.s, loop, audio, passes);
    var q := PlayFixed(p.s, loop, p.s.fd.pos - p.s.rb.len, audio, passes).value;
    assert PlayFileFixed(file, replies, seekable, loop, audio, passes).value.playback == q;
  }
}

=== FILE: psgconv.dfy ===
/** The PSG quantisation codec of lunaplay/psgconv.c.

    Encoding looks every 8-bit sample up in a 256-entry table whose entries are 1, 2 or 4
    bytes wide (one byte per channel level); the words are stored in the host's big-endian
    order. Decoding sums the voltage of each channel's low-nibble level and hands the sum
    to the floating-point tail (subtract offset, divide by gain, scale, cast), which enters
    the model as an uninterpreted function per table. */
module PsgConv {
  import opened Bytes

  /** PCM1_TABLE, PCM2_TABLE and PCM3_TABLE of the generated .tbl files. */
  datatype Tables = Tables(pcm1: seq<byte>, pcm2: seq<uint16>, pcm3: seq<uint32>)
  {
    predicate Valid() { |pcm1| == 256 && |pcm2| == 256 && |pcm3| == 256 }
  }

  /** PSG_VT and, per table, the tail that turns a summed voltage back into a sample. */
  datatype Levels = Levels(vt: seq<real>, finish1: real -> byte, finish2: real -> byte,
                           finish3: real -> byte)
  {
    predicate Valid() { |vt| == 16 }
  }

  /** `dst` with the bytes `u` stored at offset `off`. */
  function Put(dst: seq<byte>, off: nat, u: seq<byte>): (r: seq<byte>)
    requires off + |u| <= |dst|
    ensures |r| == |dst|
    ensures r[off..off + |u|] == u
    ensures r[..off] == dst[..off] && r[off + |u|..] == dst[off + |u|..]
  {
    dst[..off] + u + dst[off + |u|..]
  }

  /** Unit `j` of a buffer of 16-bit words. */
  function Word16(d: seq<byte>, j: nat): seq<byte>
    requires 2 * j + 2 <= |d|
  {
    d[2 * j..2 * j + 2]
  }

  /** Unit `j` of a buffer of 32-bit words. */
  function Word32(d: seq<byte>, j: nat): seq<byte>
    requires 4 * j + 4 <= |d|
  {
    d[4 * j..4 * j + 4]
  }

  // ----- u8 -> PCMn: one table lookup per sample -----

  /** `conv_u8_pcm1`: byte `i` of the output is PCM1_TABLE at sample `i`. */
  function U8ToPcm1(t: Tables, dst: seq<byte>, src: seq<byte>, count: nat): (d: seq<byte>)
    requires t.Valid() && count <= |src| && count <= |dst|
    ensures |d| == |dst|
    ensures forall i :: 0 <= i < count ==> d[i] == t.pcm1[src[i]]
    ensures d[count..] == dst[count..]
  {
    U8ToPcm1From(t, dst, src, count, 0)
  }

  function U8ToPcm1From(t: Tables, dst: seq<byte>, src: seq<byte>, count: nat, i: nat)
    : (d: seq<byte>)
    requires t.Valid() && i <= count <= |src| && count <= |dst|
    ensures |d| == |dst|
    ensures d[..i] == dst[..i]
    ensures forall j :: i <= j < count ==> d[j] == t.pcm1[src[j]]
    ensures d[count..] == dst[count..]
    decreases count - i
  {
    if i == count then dst
    else U8ToPcm1From(t, Put(dst, i, [t.pcm1[src[i]]]), src, count, i + 1)
  }

  /** `conv_u8_pcm2`: one 16-bit word per sample, PCM2_TABLE at that sample. */
  function U8ToPcm2(t: Tables, dst: seq<byte>, src: seq<byte>, count: nat): (d: seq<byte>)
    requires t.Valid() && count <= |src| && 2 * count <= |dst|
    ensures |d| == |dst|
    ensures forall i :: 0 <= i < count ==> Word16(d, i) == Be16(t.pcm2[src[i]])
    ensures d[2 * count..] == dst[2 * count..]
  {
    U8ToPcm2From(t, dst, src, count, 0)
  }

  function U8ToPcm2From(t: Tables, dst: seq<byte>, src: seq<byte>, count: nat, i: nat)
    : (d: seq<byte>)
    requires t.Valid() && i <= count <= |src| && 2 * count <= |dst|
    ensures |d| == |dst|
    ensures d[..2 * i] == dst[..2 * i]
    ensures forall j :: i <= j < count ==> Word16(d, j) == Be16(t.pcm2[src[j]])
    ensures d[2 * count..] == dst[2 * count..]
    decreases count - i
  {
    if i == count then dst
    else
      var d := U8ToPcm2From(t, Put(dst, 2 * i, Be16(t.pcm2[src[i]])), src, count, i + 1);
      assert d[..2 * i + 2][2 * i..] == Word16(d, i);
      d
  }

  /** `conv_u8_pcm3`: one 32-bit word per sample, PCM3_TABLE at that sample. */
  function U8ToPcm3(t: Tables, dst: seq<byte>, src: seq<byte>, count: nat): (d: seq<byte>)
    requires t.Valid() && count <= |src| && 4 * count <= |dst|
    ensures |d| == |dst|
    ensures forall i :: 0 <= i < count ==> Word32(d, i) == Be32(t.pcm3[src[i]])
    ensures d[4 * count..] == dst[4 * count..]
  {
    U8ToPcm3From(t, dst, src, count, 0)
  }

  function U8ToPcm3From(t: Tables, dst: seq<byte>, src: seq<byte>, count: nat, i: nat)
    : (d: seq<byte>)
    requires t.Valid() && i <= count <= |src| && 4 * count <= |dst|
    ensures |d| == |dst|
    ensures d[..4 * i] == dst[..4 * i]
    ensures forall j :: i <= j < count ==> Word32(d, j) == Be32(t.pcm3[src[j]])
    ensures d[4 * count..] == dst[4 * count..]
    decreases count - i
  {
    if i == count then dst
    else
      var d := U8ToPcm3From(t, Put(dst, 4 * i, Be32(t.pcm3[src[i]])), src, count, i + 1);
      assert d[..4 * i + 4][4 * i..] == Word32(d, i);
      d
  }

  // ----- PCMn -> u8: sum the levels of the low nibbles -----

  /** `conv_pcm1_u8`: sample `i` is the tail applied to the voltage of byte `i`'s level. */
  function Pcm1ToU8(p: Levels, dst: seq<byte>, src: seq<byte>, count: nat): (d: seq<byte>)
    requires p.Valid() && count <= |src| && count <= |dst|
    ensures |d| == |dst|
    ensures forall i :: 0 <= i < count ==> d[i] == p.finish1(p.vt[LowNibble(src[i])])
    ensures d[count..] == dst[count..]
  {
    Pcm1ToU8From(p, dst, src, count, 0)
  }

  function Pcm1ToU8From(p: Levels, dst: seq<byte>, src: seq<byte>, count: nat, i: nat)
    : (d: seq<byte>)
    requires p.Valid() && i <= count <= |src| && count <= |dst|
    ensures |d| == |dst|
    ensures d[..i] == dst[..i]
    ensures forall j :: i <= j < count ==> d[j] == p.finish1(p.vt[LowNibble(src[j])])
    ensures d[count..] == dst[count..]
    decreases count - i
  {
    if i == count then dst
    else
      var v := p.vt[LowNibble(src[i])];
      Pcm1ToU8From(p, Put(dst, i, [p.finish1(v)]), src, count, i + 1)
  }

  /** The summed voltage of a two-channel unit starting at byte `off`. */
  function Volt2(p: Levels, s: seq<byte>, off: nat): real
    requires p.Valid() && off + 2 <= |s|
  {
    p.vt[LowNibble(s[off])] + p.vt[LowNibble(s[off + 1])]
  }

  /** The summed voltage of a three-channel unit starting at byte `off`; the unit's first
      byte is the unused top byte of the 32-bit word. */
  function Volt3(p: Levels, s: seq<byte>, off: nat): real
    requires p.Valid() && off + 4 <= |s|
  {
    p.vt[LowNibble(s[off + 1])] + p.vt[LowNibble(s[off + 2])] + p.vt[LowNibble(s[off + 3])]
  }

  /** `conv_pcm2_u8`: consumes two bytes per output sample. */
  function Pcm2ToU8(p: Levels, dst: seq<byte>, src: seq<byte>, count: nat): (d: seq<byte>)
    requires p.Valid() && 2 * count <= |src| && count <= |dst|
    ensures |d| == |dst|
    ensures forall i :: 0 <= i < count ==> d[i] == p.finish2(Volt2(p, src, 2 * i))
    ensures d[count..] == dst[count..]
  {
    Pcm2ToU8From(p, dst, src, count, 0)
  }

  function Pcm2ToU8From(p: Levels, dst: seq<byte>, src: seq<byte>, count: nat, i: nat)
    : (d: seq<byte>)
    requires p.Valid() && i <= count && 2 * count <= |src| && count <= |dst|
    ensures |d| == |dst|
    ensures d[..i] == dst[..i]
    ensures forall j :: i <= j < count ==> d[j] == p.finish2(Volt2(p, src, 2 * j))
    ensures d[count..] == dst[count..]
    decreases count - i
  {
    if i == count then dst
    else Pcm2ToU8From(p, Put(dst, i, [p.finish2(Volt2(p, src, 2 * i))]), src, count, i + 1)
  }

  /** `conv_pcm3_u8`: consumes four bytes per output sample. */
  function Pcm3ToU8(p: Levels, dst: seq<byte>, src: seq<byte>, count: nat): (d: seq<byte>)
    requires p.Valid() && 4 * count <= |src| && count <= |dst|
    ensures |d| == |dst|
    ensures forall i :: 0 <= i < count ==> d[i] == p.finish3(Volt3(p, src, 4 * i))
    ensures d[count..] == dst[count..]
  {
    Pcm3ToU8From(p, dst, src, count, 0)
  }

  function Pcm3ToU8From(p: Levels, dst: seq<byte>, src: seq<byte>, count: nat, i: nat)
    : (d: seq<byte>)
    requires p.Valid() && i <= count && 4 * count <= |src| && count <= |dst|
    ensures |d| == |dst|
    ensures d[..i] == dst[..i]
    ensures forall j :: i <= j < count ==> d[j] == p.finish3(Volt3(p, src, 4 * j))
    ensures d[count..] == dst[count..]
    decreases count - i
  {
    if i == count then dst
    else Pcm3ToU8From(p, Put(dst, i, [p.finish3(Volt3(p, src, 4 * i))]), src, count, i + 1)
  }

  // ----- signed 16-bit -> PCMn: the high-order byte, sign bit flipped -----

  /** The 16-bit sample `i` of `src` as an unsigned 8-bit sample: its high-order byte, which
      is byte `2i` for big-endian input (`lane == 0`) and byte `2i + 1` for little-endian input
      (`lane == 1`), with bit 7 flipped. */
  function High8(src: seq<byte>, i: nat, lane: nat): byte
    requires lane <= 1 && 2 * i + 2 <= |src|
  {
    FlipSign(src[2 * i + lane])
  }

  function S16ToPcm1From(t: Tables, dst: seq<byte>, src: seq<byte>, count: nat, lane: nat, i: nat)
    : (d: seq<byte>)
    requires t.Valid() && lane <= 1 && i <= count && 2 * count <= |src| && count <= |dst|
    ensures |d| == |dst|
    ensures d[..i] == dst[..i]
    ensures forall j :: i <= j < count ==> d[j] == t.pcm1[High8(src, j, lane)]
    ensures d[count..] == dst[count..]
    decreases count - i
  {
    if i == count then dst
    else S16ToPcm1From(t, Put(dst, i, [t.pcm1[High8(src, i, lane)]]), src, count, lane, i + 1)
  }

  function S16ToPcm2From(t: Tables, dst: seq<byte>, src: seq<byte>, count: nat, lane: nat, i: nat)
    : (d: seq<byte>)
    requires t.Valid() && lane <= 1 && i <= count && 2 * count <= |src| && 2 * count <= |dst|
    ensures |d| == |dst|
    ensures d[..2 * i] == dst[..2 * i]
    ensures forall j :: i <= j < count ==> Word16(d, j) == Be16(t.pcm2[High8(src, j, lane)])
    ensures d[2 * count..] == dst[2 * count..]
    decreases count - i
  {
    if i == count then dst
    else
      var u := Be16(t.pcm2[High8(src, i, lane)]);
      var d := S16ToPcm2From(t, Put(dst, 2 * i, u), src, count, lane, i + 1);
      assert d[..2 * i + 2][2 * i..] == Word16(d, i);
      d
  }

  function S16ToPcm3From(t: Tables, dst: seq<byte>, src: seq<byte>, count: nat, lane: nat, i: nat)
    : (d: seq<byte>)
    requires t.Valid() && lane <= 1 && i <= count && 2 * count <= |src| && 4 * count <= |dst|
    ensures |d| == |dst|
    ensures d[..4 * i] == dst[..4 * i]
    ensures forall j :: i <= j < count ==> Word32(d, j) == Be32(t.pcm3[High8(src, j, lane)])
    ensures d[4 * count..] == dst[4 * count..]
    decreases count - i
  {
    if i == count then dst
    else
      var u := Be32(t.pcm3[High8(src, i, lane)]);
      var d := S16ToPcm3From(t, Put(dst, 4 * i, u), src, count, lane, i + 1);
      assert d[..4 * i + 4][4 * i..] == Word32(d, i);
      d
  }

  /** `conv_s16BE_pcm1`: output byte `i` is PCM1_TABLE at `src[2i] ^ 0x80`. */
  function S16BeToPcm1(t: Tables, dst: seq<byte>, src: seq<byte>, count: nat): (d: seq<byte>)
    requires t.Valid() && 2 * count <= |src| && count <= |dst|
    ensures |d| == |dst|
    ensures forall i :: 0 <= i < count ==> d[i] == t.pcm1[FlipSign(src[2 * i])]
    ensures d[count..] == dst[count..]
  {
    S16ToPcm1From(t, dst, src, count, 0, 0)
  }

  /** `conv_s16LE_pcm1`: output byte `i` is PCM1_TABLE at `src[2i + 1] ^ 0x80`. */
  function S16LeToPcm1(t: Tables, dst: seq<byte>, src: seq<byte>, count: nat): (d: seq<byte>)
    requires t.Valid() && 2 * count <= |src| && count <= |dst|
    ensures |d| == |dst|
    ensures forall i :: 0 <= i < count ==> d[i] == t.pcm1[FlipSign(src[2 * i + 1])]
    ensures d[count..] == dst[count..]
  {
    S16ToPcm1From(t, dst, src, count, 1, 0)
  }

  /** `conv_s16BE_pcm2` */
  function S16BeToPcm2(t: Tables, dst: seq<byte>, src: seq<byte>, count: nat): (d: seq<byte>)
    requires t.Valid() && 2 * count <= |src| && 2 * count <= |dst|
    ensures |d| == |dst|
    ensures forall i :: 0 <= i < count ==> Word16(d, i) == Be16(t.pcm2[FlipSign(src[2 * i])])
    ensures d[2 * count..] == dst[2 * count..]
  {
    S16ToPcm2From(t, dst, src, count, 0, 0)
  }

  /** `conv_s16LE_pcm2` */
  function S16LeToPcm2(t: Tables, dst: seq<byte>, src: seq<byte>, count: nat): (d: seq<byte>)
    requires t.Valid() && 2 * count <= |src| && 2 * count <= |dst|
    ensures |d| == |dst|
    ensures forall i :: 0 <= i < count ==> Word16(d, i) == Be16(t.pcm2[FlipSign(src[2 * i + 1])])
    ensures d[2 * count..] == dst[2 * count..]
  {
    S16ToPcm2From(t, dst, src, count, 1, 0)
  }

  /** `conv_s16BE_pcm3` */
  function S16BeToPcm3(t: Tables, dst: seq<byte>, src: seq<byte>, count: nat): (d: seq<byte>)
    requires t.Valid() && 2 * count <= |src| && 4 * count <= |dst|
    ensures |d| == |dst|
    ensures forall i :: 0 <= i < count ==> Word32(d, i) == Be32(t.pcm3[FlipSign(src[2 * i])])
    ensures d[4 * count..] == dst[4 * count..]
  {
    S16ToPcm3From(t, dst, src, count, 0, 0)
  }

  /** `conv_s16LE_pcm3` */
  function S16LeToPcm3(t: Tables, dst: seq<byte>, src: seq<byte>, count: nat): (d: seq<byte>)
    requires t.Valid() && 2 * count <= |src| && 4 * count <= |dst|
    ensures |d| == |dst|
    ensures forall i :: 0 <= i < count ==> Word32(d, i) == Be32(t.pcm3[FlipSign(src[2 * i + 1])])
    ensures d[4 * count..] == dst[4 * count..]
  {
    S16ToPcm3From(t, dst, src, count, 1, 0)
  }

  // ----- PAM2 / PAM3: for now the same tables as PCM2 / PCM3 -----

  /** `conv_u8_pam2`: the PCM2 encoder, PCM2_TABLE per sample. */
  function U8ToPam2(t: Tables, dst: seq<byte>, src: seq<byte>, count: nat): (d: seq<byte>)
    requires t.Valid() && count <= |src| && 2 * count <= |dst|
    ensures |d| == |dst|
    ensures forall i :: 0 <= i < count ==> Word16(d, i) == Be16(t.pcm2[src[i]])
    ensures d[2 * count..] == dst[2 * count..]
  {
    U8ToPcm2(t, dst, src, count)
  }

  /** `conv_pam2_u8`: the PCM2 decoder. */
  function Pam2ToU8(p: Levels, dst: seq<byte>, src: seq<byte>, count: nat): (d: seq<byte>)
    requires p.Valid() && 2 * count <= |src| && count <= |dst|
    ensures |d| == |dst|
    ensures forall i :: 0 <= i < count ==> d[i] == p.finish2(Volt2(p, src, 2 * i))
    ensures d[count..] == dst[count..]
  {
    Pcm2ToU8(p, dst, src, count)
  }

  /** `conv_u8_pam3`: the PCM3 encoder, PCM3_TABLE per sample. */
  function U8ToPam3(t: Tables, dst: seq<byte>, src: seq<byte>, count: nat): (d: seq<byte>)
    requires t.Valid() && count <= |src| && 4 * count <= |dst|
    ensures |d| == |dst|
    ensures forall i :: 0 <= i < count ==> Word32(d, i) == Be32(t.pcm3[src[i]])
    ensures d[4 * count..] == dst[4 * count..]
  {
    U8ToPcm3(t, dst, src, count)
  }

  /** `conv_pam3_u8`: the PCM3 decoder. */
  function Pam3ToU8(p: Levels, dst: seq<byte>, src: seq<byte>, count: nat): (d: seq<byte>)
    requires p.Valid() && 4 * count <= |src| && count <= |dst|
    ensures |d| == |dst|
    ensures forall i :: 0 <= i < count ==> d[i] == p.finish3(Volt3(p, src, 4 * i))
    ensures d[count..] == dst[count..]
  {
    Pcm3ToU8(p, dst, src, count)
  }

  /** `conv_s16BE_pam2` */
  function S16BeToPam2(t: Tables, dst: seq<byte>, src: seq<byte>, count: nat): (d: seq<byte>)
    requires t.Valid() && 2 * count <= |src| && 2 * count <= |dst|
    ensures |d| == |dst|
    ensures forall i :: 0 <= i < count ==> Word16(d, i) == Be16(t.pcm2[FlipSign(src[2 * i])])
    ensures d[2 * count..] == dst[2 * count..]
  {
    S16BeToPcm2(t, dst, src, count)
  }

  /** `conv_s16LE_pam2` */
  function S16LeToPam2(t: Tables, dst: seq<byte>, src: seq<byte>, count: nat): (d: seq<byte>)
    requires t.Valid() && 2 * count <= |src| && 2 * count <= |dst|
    ensures |d| == |dst|
    ensures forall i :: 0 <= i < count ==> Word16(d, i) == Be16(t.pcm2[FlipSign(src[2 * i + 1])])
    ensures d[2 * count..] == dst[2 * count..]
  {
    S16LeToPcm2(t, dst, src, count)
  }

  /** `conv_s16BE_pam3` */
  function S16BeToPam3(t: Tables, dst: seq<byte>, src: seq<byte>, count: nat): (d: seq<byte>)
    requires t.Valid() && 2 * count <= |src| && 4 * count <= |dst|
    ensures |d| == |dst|
    ensures forall i :: 0 <= i < count ==> Word32(d, i) == Be32(t.pcm3[FlipSign(src[2 * i])])
    ensures d[4 * count..] == dst[4 * count..]
  {
    S16BeToPcm3(t, dst, src, count)
  }

  /** `conv_s16LE_pam3` */
  function S16LeToPam3(t: Tables, dst: seq<byte>, src: seq<byte>, count: nat): (d: seq<byte>)
    requires t.Valid() && 2 * count <= |src| && 4 * count <= |dst|
    ensures |d| == |dst|
    ensures forall i :: 0 <= i < count ==> Word32(d, i) == Be32(t.pcm3[FlipSign(src[2 * i + 1])])
    ensures d[4 * count..] == dst[4 * count..]
  {
    S16LeToPcm3(t, dst, src, count)
  }

  // ----- properties relating converters -----

  /** Two inputs whose channel bytes agree on their low nibbles decode alike: the decoders
      never look at the upper four bits. */
  lemma Pcm1ReadsOnlyLowNibbles(p: Levels, dst: seq<byte>, a: seq<byte>, b: seq<byte>, count: nat)
    requires p.Valid() && count <= |a| && count <= |b| && count <= |dst|
    requires forall k :: 0 <= k < count ==> LowNibble(a[k]) == LowNibble(b[k])
    ensures Pcm1ToU8(p, dst, a, count) == Pcm1ToU8(p, dst, b, count)
  {
    var da, db := Pcm1ToU8(p, dst, a, count), Pcm1ToU8(p, dst, b, count);
    assert forall k :: 0 <= k < |dst| ==> da[k] == db[k] by {
      forall k | 0 <= k < |dst| ensures da[k] == db[k] {
        if k >= count {
          assert da[k] == da[count..][k - count];
          assert db[k] == db[count..][k - count];
        }
      }
    }
  }

  lemma Pcm2ReadsOnlyLowNibbles(p: Levels, dst: seq<byte>, a: seq<byte>, b: seq<byte>, count: nat)
    requires p.Valid() && 2 * count <= |a| && 2 * count <= |b| && count <= |dst|
    requires forall k :: 0 <= k < 2 * count ==> LowNibble(a[k]) == LowNibble(b[k])
    ensures Pcm2ToU8(p, dst, a, count) == Pcm2ToU8(p, dst, b, count)
  {
    var da, db := Pcm2ToU8(p, dst, a, count), Pcm2ToU8(p, dst, b, count);
    forall k | 0 <= k < |dst| ensures da[k] == db[k] {
      if k >= count {
        assert da[k] == da[count..][k - count];
        assert db[k] == db[count..][k - count];
      } else {
        assert Volt2(p, a, 2 * k) == Volt2(p, b, 2 * k);
      }
    }
  }

  /** The PCM3 decoder ignores the top byte of every 32-bit unit as well as the upper nibbles
      of the three channel bytes. */
  lemma Pcm3ReadsOnlyChannelNibbles(p: Levels, dst: seq<byte>, a: seq<byte>, b: seq<byte>, count: nat)
    requires p.Valid() && 4 * count <= |a| && 4 * count <= |b| && count <= |dst|
    requires forall i :: 0 <= i < count ==>
               && LowNibble(a[4 * i + 1]) == LowNibble(b[4 * i + 1])
               && LowNibble(a[4 * i + 2]) == LowNibble(b[4 * i + 2])
               && LowNibble(a[4 * i + 3]) == LowNibble(b[4 * i + 3])
    ensures Pcm3ToU8(p, dst, a, count) == Pcm3ToU8(p, dst, b, count)
  {
    var da, db := Pcm3ToU8(p, dst, a, count), Pcm3ToU8(p, dst, b, count);
    forall k | 0 <= k < |dst| ensures da[k] == db[k] {
      if k >= count {
        assert da[k] == da[count..][k - count];
        assert db[k] == db[count..][k - count];
      } else {
        assert LowNibble(a[4 * k + 1]) == LowNibble(b[4 * k + 1]);
        assert LowNibble(a[4 * k + 2]) == LowNibble(b[4 * k + 2]);
        assert LowNibble(a[4 * k + 3]) == LowNibble(b[4 * k + 3]);
        assert Volt3(p, a, 4 * k) == Volt3(p, b, 4 * k);
      }
    }
  }

  /** Exchanging the two channel bytes of every PCM2 unit leaves the decoded samples as they
      are: the decoder depends only on the sum of the two voltages. */
  lemma Pcm2ChannelSwap(p: Levels, dst: seq<byte>, a: seq<byte>, b: seq<byte>, count: nat)
    requires p.Valid() && 2 * count <= |a| && 2 * count <= |b| && count <= |dst|
    requires forall i :: 0 <= i < count ==> b[2 * i] == a[2 * i + 1] && b[2 * i + 1] == a[2 * i]
    ensures Pcm2ToU8(p, dst, a, count) == Pcm2ToU8(p, dst, b, count)
  {
    var da, db := Pcm2ToU8(p, dst, a, count), Pcm2ToU8(p, dst, b, count);
    forall k | 0 <= k < |dst| ensures da[k] == db[k] {
      if k >= count {
        assert da[k] == da[count..][k - count];
        assert db[k] == db[count..][k - count];
      } else {
        assert Volt2(p, a, 2 * k) == Volt2(p, b, 2 * k);
      }
    }
  }

  /** Swapping the bytes of every 16-bit sample turns little-endian input into big-endian
      input: the LE converters on the swapped buffer agree with the BE converters. */
  lemma S16LeOfSwappedIsBe1(t: Tables, dst: seq<byte>, be: seq<byte>, le: seq<byte>, count: nat)
    requires t.Valid() && 2 * count <= |be| && 2 * count <= |le| && count <= |dst|
    requires forall i :: 0 <= i < count ==> le[2 * i + 1] == be[2 * i]
    ensures S16LeToPcm1(t, dst, le, count) == S16BeToPcm1(t, dst, be, count)
  {
    var l, b := S16LeToPcm1(t, dst, le, count), S16BeToPcm1(t, dst, be, count);
    forall k | 0 <= k < |dst| ensures l[k] == b[k] {
      if k >= count {
        assert l[k] == l[count..][k - count];
        assert b[k] == b[count..][k - count];
      }
    }
  }

  lemma S16LeOfSwappedIsBe2(t: Tables, dst: seq<byte>, be: seq<byte>, le: seq<byte>, count: nat)
    requires t.Valid() && 2 * count <= |be| && 2 * count <= |le| && 2 * count <= |dst|
    requires forall i :: 0 <= i < count ==> le[2 * i + 1] == be[2 * i]
    ensures S16LeToPcm2(t, dst, le, count) == S16BeToPcm2(t, dst, be, count)
  {
    var l, b := S16LeToPcm2(t, dst, le, count), S16BeToPcm2(t, dst, be, count);
    forall k | 0 <= k < |dst| ensures l[k] == b[k] {
      if k >= 2 * count {
        assert l[k] == l[2 * count..][k - 2 * count];
        assert b[k] == b[2 * count..][k - 2 * count];
      } else {
        var i := k / 2;
        assert Word16(l, i) == Word16(b, i);
        assert l[k] == Word16(l, i)[k - 2 * i];
        assert b[k] == Word16(b, i)[k - 2 * i];
      }
    }
  }

  lemma S16LeOfSwappedIsBe3(t: Tables, dst: seq<byte>, be: seq<byte>, le: seq<byte>, count: nat)
    requires t.Valid() && 2 * count <= |be| && 2 * count <= |le| && 4 * count <= |dst|
    requires forall i :: 0 <= i < count ==> le[2 * i + 1] == be[2 * i]
    ensures S16LeToPcm3(t, dst, le, count) == S16BeToPcm3(t, dst, be, count)
  {
    var l, b := S16LeToPcm3(t, dst, le, count), S16BeToPcm3(t, dst, be, count);
    forall k | 0 <= k < |dst| ensures l[k] == b[k] {
      if k >= 4 * count {
        assert l[k] == l[4 * count..][k - 4 * count];
        assert b[k] == b[4 * count..][k - 4 * count];
      } else {
        var i := k / 4;
        assert Word32(l, i) == Word32(b, i);
        assert l[k] == Word32(l, i)[k - 4 * i];
        assert b[k] == Word32(b, i)[k - 4 * i];
      }
    }
  }
}

=== FILE: psgpcm.dfy ===
/** lunaplay's PSGPCM container: a 10-byte header (the tag "PSGP", the encoding as a 16-bit
    and the sample rate as a 32-bit little-endian field) followed by the encoded samples.
    Reading and writing the samples are the shared `ReadAppend` and `WriteFlush`. */
module Psgpcm {
  import opened Wrappers
  import opened Bytes
  import opened FileHelper
  import Consts

  const TagPsgp: seq<byte> := [0x50, 0x53, 0x47, 0x50]   // "PSGP"

  /** What a successful `psgpcm_read_init` leaves in the descriptor. */
  datatype PsgIn = PsgIn(enc: uint16, freq: uint32, rest: Source)

  /** `psgpcm_read_init`: the tag, then the encoding, then the rate, each read with one call;
      any short read or a wrong tag is a header error, and only the five PSG encodings are
      accepted. */
  function ReadInit(src: Source, k: Consts.Consts): (r: Result<PsgIn>)
    ensures r.Ok? ==> && |src.content| >= 10 && src.content[..4] == TagPsgp
                      && Le16(r.value.enc) == src.content[4..6]
                      && Le32(r.value.freq) == src.content[6..10]
                      && r.value.rest.content == src.content[10..]
                      && k.IsPsgEnc(r.value.enc)
    ensures src.replies == [] ==>
              (r.Ok? <==> && |src.content| >= 10 && src.content[..4] == TagPsgp
                          && k.IsPsgEnc(DecodeLe16(src.content[4..6])))
  {
    match ReadTag(src)
    case None => Err("PSGPCM header read error")
    case Some(tag) =>
      CmpTagIff(tag.value, TagPsgp);
      if !CmpTag(tag.value, TagPsgp) then Err("PSGPCM header read error")
      else match Read16Le(tag.rest)
      case None => Err("PSGPCM header read error")
      case Some(enc) =>
        match Read32Le(enc.rest)
        case None => Err("PSGPCM header read error")
        case Some(freq) =>
          assert src.content[4..6] == tag.rest.content[..2];
          Le16Bijective(src.content[4..6]);
          assert src.content[6..10] == enc.rest.content[..4];
          assert src.content[10..] == freq.rest.content;
          if !k.IsPsgEnc(enc.value) then Err("enc is not supported")
          else Ok(PsgIn(enc.value, freq.value, freq.rest))
  }

  /** `psgpcm_write_init`: the three header writes, whose results are not looked at. */
  function WriteInit(sink: Sink, enc: int, freq: int): (r: Sink)
    ensures sink.replies == [] ==>
              r == Sink(sink.written + (TagPsgp + (Le16(Trunc16(enc)) + Le32(Trunc32(freq)))), [])
    ensures sink.written <= r.written
  {
    var t := WriteTag(sink, TagPsgp).rest;
    var e := Write16Le(t, enc).rest;
    var f := Write32Le(e, freq).rest;
    assert TagPsgp[..4] == TagPsgp;
    assert sink.replies == [] ==>
             f.written == sink.written + (TagPsgp + (Le16(Trunc16(enc)) + Le32(Trunc32(freq))));
    f
  }

  /** On a regular file, the reader's verdict on a tag "PSGP" and the two fields after it:
      accepted with the decoded fields exactly when the encoding is a PSG one. */
  lemma ReadInitOn(k: Consts.Consts, e: seq<byte>, f: seq<byte>, data: seq<byte>)
    requires |e| == 2 && |f| == 4
    ensures ReadInit(Source(TagPsgp + (e + (f + data)), []), k)
            == if k.IsPsgEnc(DecodeLe16(e)) then Ok(PsgIn(DecodeLe16(e), DecodeLe32(f), Source(data, [])))
               else Err("enc is not supported")
  {
    ReadTagOn(TagPsgp, e + (f + data));
    Be32Bijective(TagPsgp);
    CmpTagIff(DecodeBe32(TagPsgp), TagPsgp);
    Read16LeOn(e, f + data);
    Read32LeOn(f, data);
  }

  /** On an error-free descriptor the header is the tag and the two fields. */
  lemma WriteInitOn(enc: int, freq: int)
    ensures WriteInit(Sink([], []), enc, freq).written == TagPsgp + (Le16(Trunc16(enc)) + Le32(Trunc32(freq)))
  {
    var none: seq<byte> := [];
    assert none + (TagPsgp + (Le16(Trunc16(enc)) + Le32(Trunc32(freq))))
           == TagPsgp + (Le16(Trunc16(enc)) + Le32(Trunc32(freq)));
  }

  /** A header written for a PSG encoding and a rate that fit their fields reads back as the
      same encoding and rate, with the descriptor at the first sample. */
  lemma HeaderRoundTrip(k: Consts.Consts, enc: int, freq: int, data: seq<byte>)
    requires 0 <= enc < TWO16 && k.IsPsgEnc(enc) && 0 <= freq < TWO32
    ensures ReadInit(Source(WriteInit(Sink([], []), enc, freq).written + data, []), k)
            == Ok(PsgIn(enc, freq, Source(data, [])))
  {
    assert Trunc16(enc) == enc && Trunc32(freq) == freq;
    var e := Le16(Trunc16(enc));
    var f := Le32(Trunc32(freq));
    WriteInitOn(enc, freq);
    var bytes := TagPsgp + (e + (f + data));
    assert WriteInit(Sink([], []), enc, freq).written + data == bytes;
    ReadInitOn(k, e, f, data);
    assert DecodeLe16(e) == enc && DecodeLe32(f) == freq;
  }
}

=== FILE: text.dfy ===
/** C strings and the ASCII case-insensitive comparisons of <strings.h>. */
module Text {
  import opened Bytes

  /** A C string: no embedded NUL, since NUL ends it. */
  type cstring = s: string | forall i :: 0 <= i < |s| ==> s[i] != '\0'

  /** `tolower` in the C locale: only 'A'..'Z' change. */
  function Lower(c: char): (r: char)
    ensures 'A' <= c <= 'Z' ==> r as int == c as int + 32
    ensures !('A' <= c <= 'Z') ==> r == c
    ensures r == '\0' <==> c == '\0'
  {
    if 'A' <= c <= 'Z' then (c as int + 32) as char else c
  }

  /** `strcasecmp(a, b) == 0` for two C strings. */
  predicate SameIgnoringCase(a: string, b: string)
  {
    |a| == |b| && forall i :: 0 <= i < |a| ==> Lower(a[i]) == Lower(b[i])
  }

  /** `strncasecmp(a, b, strlen(b)) == 0`: `a` begins with `b`, ignoring case.
      When `a` is shorter, its terminating NUL meets a non-NUL character of `b`. */
  predicate StartsIgnoringCase(a: cstring, b: cstring)
  {
    |a| >= |b| && SameIgnoringCase(a[..|b|], b)
  }

  lemma SameIgnoringCaseIsEquivalence(a: string, b: string, c: string)
    ensures SameIgnoringCase(a, a)
    ensures SameIgnoringCase(a, b) ==> SameIgnoringCase(b, a)
    ensures SameIgnoringCase(a, b) && SameIgnoringCase(b, c) ==> SameIgnoringCase(a, c)
  {
  }

  /** The `for` loop over a name table that returns at the first `strcasecmp` match: the
      index of the first name from `from` on that equals `s` ignoring case, or -1. */
  function FirstSame(names: seq<string>, s: string, from: nat): (r: int)
    requires from <= |names|
    ensures r == -1 || from <= r < |names|
    ensures r >= 0 ==> SameIgnoringCase(s, names[r])
    ensures r >= 0 ==> forall j :: from <= j < r ==> !SameIgnoringCase(s, names[j])
    ensures r == -1 <==> forall j :: from <= j < |names| ==> !SameIgnoringCase(s, names[j])
    decreases |names| - from
  {
    if from == |names| then -1
    else if SameIgnoringCase(s, names[from]) then from
    else FirstSame(names, s, from + 1)
  }

  /** Names that no two of which are equal ignoring case are found at their own index, and
      a string equal to one of them ignoring case finds the same index. */
  lemma FirstSameOfName(names: seq<string>, s: string, i: int)
    requires forall a, b :: 0 <= a < b < |names| ==> !SameIgnoringCase(names[a], names[b])
    requires 0 <= i < |names| && SameIgnoringCase(s, names[i])
    ensures FirstSame(names, s, 0) == i
  {
    var r := FirstSame(names, s, 0);
    if r != i {
      assert r >= 0;
      SameIgnoringCaseIsEquivalence(s, names[r], names[i]);
      SameIgnoringCaseIsEquivalence(names[r], s, names[i]);
    }
  }

  /** The lookup depends on the string only up to case. */
  lemma FirstSameIgnoresCase(names: seq<string>, s: string, t: string, from: nat)
    requires from <= |names| && SameIgnoringCase(s, t)
    ensures FirstSame(names, s, from) == FirstSame(names, t, from)
    decreases |names| - from
  {
    if from < |names| {
      SameIgnoringCaseIsEquivalence(s, t, names[from]);
      SameIgnoringCaseIsEquivalence(t, s, names[from]);
      FirstSameIgnoresCase(names, s, t, from + 1);
    }
  }

  /** The bytes of an ASCII literal such as "RIFF". */
  function Ascii(s: string): (r: seq<byte>)
    requires forall i :: 0 <= i < |s| ==> s[i] as int < 0x100
    ensures |r| == |s|
    ensures forall i :: 0 <= i < |s| ==> r[i] == s[i] as int
  {
    seq(|s|, i requires 0 <= i < |s| => s[i] as int)
  }
}

=== FILE: transfer.dfy ===
/** The transfer loop at the end of lunaplay's `main`, as a trace of the calls it makes.
    Reader and writer are the format- or device-specific functions; each round gives what
    the reader returned, the input length it left, and what the writer returned. */
module Transfer {
  import opened Wrappers
  import opened Lunaplay

  /** The outcomes of one pass through the loop body, supplied from outside. */
  datatype Round = Round(ret: int, length: int, writeRet: int)

  /** The steps of the loop and of the shutdown after it. */
  datatype Event =
    | Reset                              // src->length = 0; dst->length = 0;
    | Reader(ret: int, length: int)      // the reader call and the input length it left
    | Fill(stride: int)                  // filltail on the short input block
    | Convert(conv: Conv, count: int)    // the converter call, with the unit count it reads
    | NullCall                           // a call through the absent converter
    | Writer(length: int, ret: int)      // the writer call, with the output length it is given
    | CloseIn
    | CloseOut
    | Release(region: nat)

  /** Which step may follow which: the loop body as a state machine. A reader result of zero
      or less ends the loop, as does a negative writer result; the tail fill is done only for
      the device and only for a short block; a writer call always follows a converter call. */
  predicate Next(prev: Event, cur: Event, isXp: bool, bufsize: int)
  {
    match prev
    case Reset => cur.Reader?
    case Reader(ret, length) =>
      ret > 0 && (cur.Fill? ==> isXp && length < bufsize) &&
      (cur.Fill? || cur.Convert? || cur.NullCall?) &&
      (cur.Convert? || cur.NullCall? ==> !(isXp && length < bufsize))
    case Fill(_) => cur.Convert? || cur.NullCall?
    case Convert(_, _) => cur.Writer?
    case Writer(_, ret) => ret >= 0 && cur == Reset
    case _ => false
  }

  /** A trace of loop steps: it starts with a reset and each step may follow the one before. */
  predicate IsLoopTrace(t: seq<Event>, isXp: bool, bufsize: int)
  {
    && (|t| > 0 ==> t[0] == Reset)
    && forall i :: 0 < i < |t| ==> Next(t[i - 1], t[i], isXp, bufsize)
  }

  lemma LoopTraceConcat(a: seq<Event>, b: seq<Event>, isXp: bool, bufsize: int)
    requires IsLoopTrace(a, isXp, bufsize) && IsLoopTrace(b, isXp, bufsize)
    requires |a| > 0 && |b| > 0 && Next(a[|a| - 1], b[0], isXp, bufsize)
    ensures IsLoopTrace(a + b, isXp, bufsize)
  {
    var t := a + b;
    forall i | 0 < i < |t| ensures Next(t[i - 1], t[i], isXp, bufsize) {
      if i < |a| {
        assert t[i - 1] == a[i - 1] && t[i] == a[i];
      } else if i == |a| {
        assert t[i - 1] == a[|a| - 1] && t[i] == b[0];
      } else {
        assert t[i - 1] == b[i - 1 - |a|] && t[i] == b[i - |a|];
      }
    }
  }

  /** The end of the loop: left through `break`, crashed on the absent converter, or still
      running when the supplied rounds ran out. */
  datatype Outcome = Exited | Crashed | Running

  datatype Loop = Loop(events: seq<Event>, outcome: Outcome)

  /** A round that leaves the loop, given a converter. */
  predicate Stops(rd: Round)
  {
    rd.ret <= 0 || rd.writeRet < 0
  }

  /** The steps of one pass through the loop body. */
  function Body(p: Pipeline, isXp: bool, stride: int, rd: Round): seq<Event>
  {
    var head := [Reset, Reader(rd.ret, rd.length)];
    if rd.ret <= 0 then head
    else
      var fill := if isXp && rd.length < p.src.bufsize then [Fill(stride)] else [];
      match p.conv
      case None => head + fill + [NullCall]
      case Some(c) => head + fill + [Convert(c, p.src.count), Writer(p.dst.length, rd.writeRet)]
  }

  lemma BodyIsLoopTrace(p: Pipeline, isXp: bool, stride: int, rd: Round)
    ensures var b := Body(p, isXp, stride, rd);
            && IsLoopTrace(b, isXp, p.src.bufsize)
            && |b| >= 2 && b[0] == Reset
            && (rd.ret <= 0 ==> b[|b| - 1] == Reader(rd.ret, rd.length))
            && (rd.ret > 0 && p.conv.None? ==> b[|b| - 1] == NullCall)
            && (rd.ret > 0 && p.conv.Some? ==> b[|b| - 1] == Writer(p.dst.length, rd.writeRet))
  {
  }

  /** The `for (;;)` loop over the supplied rounds; the lengths are reset at the top of every
      pass, so the writer always sees the reset output length. */
  function RunLoop(p: Pipeline, isXp: bool, stride: int, rounds: seq<Round>): (r: Loop)
    requires p.dst.length == 0
    ensures IsLoopTrace(r.events, isXp, p.src.bufsize)
    ensures forall e :: e in r.events ==> !e.CloseIn? && !e.CloseOut? && !e.Release?
    ensures r.outcome == Crashed ==> p.conv.None?
    ensures p.conv.None? ==> (r.outcome == Crashed <==> |rounds| > 0 && rounds[0].ret > 0)
    ensures p.conv.Some? ==> (r.outcome == Exited <==> exists i :: 0 <= i < |rounds| && Stops(rounds[i]))
    ensures r.outcome == Crashed ==> |r.events| > 0 && r.events[|r.events| - 1] == NullCall
    ensures forall e :: e in r.events && e.Writer? ==> e.length == 0
    ensures p.conv.Some? ==> NullCall !in r.events
    decreases |rounds|
  {
    if rounds == [] then Loop([], Running)
    else
      var rd := rounds[0];
      var b := Body(p, isXp, stride, rd);
      BodyIsLoopTrace(p, isXp, stride, rd);
      if rd.ret <= 0 then Loop(b, Exited)
      else if p.conv.None? then Loop(b, Crashed)
      else if rd.writeRet < 0 then Loop(b, Exited)
      else
        var rest := RunLoop(p, isXp, stride, rounds[1..]);
        assert forall i :: 0 < i < |rounds| ==> rounds[i] == rounds[1..][i - 1];
        assert forall i :: 0 <= i < |rounds| - 1 ==> rounds[1..][i] == rounds[i + 1];
        if rest.events == [] then Loop(b, rest.outcome)
        else
          LoopTraceConcat(b, rest.events, isXp, p.src.bufsize);
          Loop(b + rest.events, rest.outcome)
  }

  /** The loop, then, if it left through `break`, both closers and both releases. */
  function Run(p: Pipeline, isXp: bool, stride: int, rounds: seq<Round>): (t: seq<Event>)
    requires p.dst.length == 0
  {
    var l := RunLoop(p, isXp, stride, rounds);
    l.events + (if l.outcome == Exited then [CloseIn, CloseOut] + ReleaseEvents(Frees(p)) else [])
  }

  function ReleaseEvents(regions: seq<nat>): (t: seq<Event>)
    ensures |t| == |regions|
    ensures forall i :: 0 <= i < |t| ==> t[i] == Release(regions[i])
  {
    seq(|regions|, i requires 0 <= i < |regions| => Release(regions[i]))
  }

  /** After the loop is left, the input closer runs once and then the output closer once; they
      do not run otherwise. */
  lemma ClosersRunOnce(p: Pipeline, isXp: bool, stride: int, rounds: seq<Round>)
    requires p.dst.length == 0
    ensures var l := RunLoop(p, isXp, stride, rounds);
            var t := Run(p, isXp, stride, rounds);
            && multiset(t)[CloseIn] == (if l.outcome == Exited then 1 else 0)
            && multiset(t)[CloseOut] == (if l.outcome == Exited then 1 else 0)
            && (l.outcome == Exited ==> t[|l.events|] == CloseIn && t[|l.events| + 1] == CloseOut)
  {
    var l := RunLoop(p, isXp, stride, rounds);
    assert multiset(l.events)[CloseIn] == 0 && multiset(l.events)[CloseOut] == 0 by {
      assert CloseIn !in l.events && CloseOut !in l.events;
    }
    if l.outcome == Exited {
      var rel := ReleaseEvents(Frees(p));
      assert multiset(rel)[CloseIn] == 0 && multiset(rel)[CloseOut] == 0 by {
        assert CloseIn !in rel && CloseOut !in rel;
      }
      var tail := [CloseIn, CloseOut] + rel;
      assert multiset(tail) == multiset{CloseIn, CloseOut} + multiset(rel);
      assert Run(p, isXp, stride, rounds) == l.events + tail;
      assert multiset(l.events + tail) == multiset(l.events) + multiset(tail);
    } else {
      assert Run(p, isXp, stride, rounds) == l.events;
    }
  }

  /** The set-up of `main` as written: with equal encodings no converter is chosen, so the
      first round that reads any data calls through the absent converter, and neither closer
      nor `buffer_free` ever runs. */
  lemma EqualEncodingsCrash(k: Consts.Consts, enc: int, isXp: bool, stride: int, rounds: seq<Round>)
    requires k.Valid() && |rounds| > 0 && rounds[0].ret > 0
    ensures Setup(k, enc, enc).Ok?
    ensures var p := Setup(k, enc, enc).value;
            && RunLoop(p, isXp, stride, rounds).outcome == Crashed
            && CloseIn !in Run(p, isXp, stride, rounds)
  {
    var p := Setup(k, enc, enc).value;
    var l := RunLoop(p, isXp, stride, rounds);
    assert l.outcome == Crashed;
  }

  /** The evidently intended set-up: with equal encodings `src` shares `dst` and the bytes need
      no conversion, so the pass-through converter is chosen; everything else is as written. */
  function SetupFixed(k: Consts.Consts, inEnc: int, outEnc: int): (r: Result<Pipeline>)
    requires k.Valid()
    ensures r.Ok? <==> Setup(k, inEnc, outEnc).Ok?
    ensures r.Ok? ==> r.value.conv.Some?
    ensures r.Ok? ==> (r.value.src == Setup(k, inEnc, outEnc).value.src
                       && r.value.dst == Setup(k, inEnc, outEnc).value.dst)
  {
    var s := Setup(k, inEnc, outEnc);
    if s.Ok? && s.value.conv.None? then Ok(s.value.(conv := Some(Pass))) else s
  }

  /** With the fixed set-up the loop never calls through an absent converter: it runs until a
      round stops it, and then both closers run once and every region is released once. */
  lemma FixedSetupNeverCrashes(k: Consts.Consts, inEnc: int, outEnc: int, isXp: bool, stride: int,
                               rounds: seq<Round>)
    requires k.Valid() && SetupFixed(k, inEnc, outEnc).Ok?
    ensures var p := SetupFixed(k, inEnc, outEnc).value;
            var l := RunLoop(p, isXp, stride, rounds);
            && NullCall !in l.events
            && (l.outcome == Exited <==> exists i :: 0 <= i < |rounds| && Stops(rounds[i]))
            && (l.outcome == Exited ==>
                  multiset(Run(p, isXp, stride, rounds))[CloseIn] == 1
                  && multiset(Run(p, isXp, stride, rounds))[CloseOut] == 1)
  {
    var p := SetupFixed(k, inEnc, outEnc).value;
    assert p.conv.Some? && p.dst.length == 0;
    ClosersRunOnce(p, isXp, stride, rounds);
  }
}

=== FILE: wav.dfy ===
/** lunaplay's WAV (RIFF "WAVE" form) reader and writer: the chunk scan that finds the format
    and the start of the samples, the four readers that turn 1 or 2 channels of 8 or 16 bit
    samples into 8-bit unsigned mono, the writer, and the 44-byte header written on close. */
module Wav {
  import opened Wrappers
  import opened Bytes
  import opened FileHelper
  import opened Buffers
  import Consts

  const TagRiff: seq<byte> := [0x52, 0x49, 0x46, 0x46]   // "RIFF"
  const TagWave: seq<byte> := [0x57, 0x41, 0x56, 0x45]   // "WAVE"
  const TagFmt: seq<byte> := [0x66, 0x6D, 0x74, 0x20]    // "fmt "
  const TagData: seq<byte> := [0x64, 0x61, 0x74, 0x61]   // "data"

  /** The fields of a "fmt " chunk the reader keeps (the byte rate and block alignment are
      read and dropped). */
  datatype Fmt = Fmt(fmtid: uint16, channels: uint16, freq: uint32, bits: uint16)

  /** A "fmt " chunk: its declared length and its fields. */
  datatype FmtChunk = FmtChunk(len: uint32, fmt: Fmt)

  /** The four sample readers, in the order of the `readers` table. */
  datatype Reader = Read1u8 | Read2u8 | Read1s16le | Read2s16le
  {
    function Index(): int
    {
      match this
      case Read1u8 => 0
      case Read2u8 => 1
      case Read1s16le => 2
      case Read2s16le => 3
    }
  }

  /** What a successful `wav_read_init` leaves in the descriptor. */
  datatype WavIn = WavIn(enc: int, freq: uint32, reader: Reader, rest: Source)

  function Sum(widths: seq<nat>): nat
  {
    if widths == [] then 0 else widths[0] + Sum(widths[1..])
  }

  function Concat(fields: seq<seq<byte>>): seq<byte>
  {
    if fields == [] then [] else fields[0] + Concat(fields[1..])
  }

  /** `vs` are fields of the given widths, in order. */
  predicate Fits(vs: seq<seq<byte>>, widths: seq<nat>)
    decreases |vs|
  {
    && |vs| == |widths|
    && (vs != [] ==> |vs[0]| == widths[0] && Fits(vs[1..], widths[1..]))
  }

  lemma {:induction false} FitsIndex(vs: seq<seq<byte>>, widths: seq<nat>)
    requires Fits(vs, widths)
    ensures forall i :: 0 <= i < |vs| ==> |vs[i]| == widths[i]
    decreases |vs|
  {
    if vs != [] {
      FitsIndex(vs[1..], widths[1..]);
      assert forall i :: 1 <= i < |vs| ==> vs[i] == vs[1..][i - 1] && widths[i] == widths[1..][i - 1];
    }
  }

  /** A run of fixed-size field reads joined by `&&`, each one `read` call of its own width
      that must deliver the whole field: the fields read, or failure at the first short one.
      When every `read` delivers what it is asked for, `ReadFieldsOnFile` says when it
      succeeds. */
  function ReadFields(src: Source, widths: seq<nat>): (r: Option<Field<seq<seq<byte>>>>)
    ensures r.Some? ==> Fits(r.value.value, widths)
    ensures r.Some? ==> src.content == Concat(r.value.value) + r.value.rest.content
    ensures r.Some? ==> |Concat(r.value.value)| == Sum(widths) <= |src.content|
    decreases |widths|
  {
    if widths == [] then Some(Field([], src))
    else
      match ReadExact(src, widths[0])
      case None => None
      case Some(f) =>
        match ReadFields(f.rest, widths[1..])
        case None => None
        case Some(more) =>
          ConsFields(f.value, more.value, widths);
          assert src.content == (f.value + Concat(more.value)) + more.rest.content;
          Some(Field([f.value] + more.value, more.rest))
  }

  /** On a file whose reads all deliver in full, the run succeeds exactly when the file holds
      the sum of the widths, and what is left behind reads in full too. */
  lemma {:induction false} ReadFieldsOnFile(src: Source, widths: seq<nat>)
    ensures src.replies == [] ==> (ReadFields(src, widths).Some? <==> Sum(widths) <= |src.content|)
    ensures src.replies == [] && ReadFields(src, widths).Some? ==> ReadFields(src, widths).value.rest.replies == []
    decreases |widths|
  {
    if widths != [] {
      match ReadExact(src, widths[0])
      case None =>
      case Some(f) =>
        ReadFieldsOnFile(f.rest, widths[1..]);
    }
  }

  /** A field of the first width in front of fields of the other widths. */
  lemma ConsFields(v: seq<byte>, more: seq<seq<byte>>, widths: seq<nat>)
    requires widths != [] && |v| == widths[0] && Fits(more, widths[1..])
    ensures Fits([v] + more, widths) && Concat([v] + more) == v + Concat(more)
  {
    var vs := [v] + more;
    assert vs[0] == v && vs[1..] == more;
  }

  /** The widths of a "fmt " chunk's fields after its tag: length, format id, channels, rate,
      byte rate, block alignment, bits per sample. */
  const FmtWidths: seq<nat> := [4, 2, 2, 4, 4, 2, 2]

  /** The chunk length and the kept fields, decoded from the 20 bytes after the tag. */
  function DecodeFmt(b: seq<byte>): FmtChunk
    requires |b| == 20
  {
    FmtChunk(DecodeLe32(b[..4]),
             Fmt(DecodeLe16(b[4..6]), DecodeLe16(b[6..8]), DecodeLe32(b[8..12]), DecodeLe16(b[18..20])))
  }

  /** The slices of `Concat(vs)` at the fixed offsets of the "fmt " fields. */
  lemma {:induction false} FmtSlices(vs: seq<seq<byte>>, rest: seq<byte>)
    requires |vs| == 7 && forall i :: 0 <= i < 7 ==> |vs[i]| == FmtWidths[i]
    ensures var c := Concat(vs) + rest;
            && |c| >= 20 && c[20..] == rest
            && DecodeFmt(c[..20]) == FmtChunk(DecodeLe32(vs[0]),
                 Fmt(DecodeLe16(vs[1]), DecodeLe16(vs[2]), DecodeLe32(vs[3]), DecodeLe16(vs[6])))
  {
    var c6 := vs[6] + Concat(vs[7..]);
    assert vs[7..] == [];
    assert Concat(vs[6..]) == c6 && c6 == vs[6];
    var c5 := vs[5] + Concat(vs[6..]);
    assert Concat(vs[5..]) == c5 by { assert vs[5..][1..] == vs[6..]; }
    var c4 := vs[4] + Concat(vs[5..]);
    assert Concat(vs[4..]) == c4 by { assert vs[4..][1..] == vs[5..]; }
    var c3 := vs[3] + Concat(vs[4..]);
    assert Concat(vs[3..]) == c3 by { assert vs[3..][1..] == vs[4..]; }
    var c2 := vs[2] + Concat(vs[3..]);
    assert Concat(vs[2..]) == c2 by { assert vs[2..][1..] == vs[3..]; }
    var c1 := vs[1] + Concat(vs[2..]);
    assert Concat(vs[1..]) == c1 by { assert vs[1..][1..] == vs[2..]; }
    var c0 := vs[0] + Concat(vs[1..]);
    assert Concat(vs) == c0;
    var c := c0 + rest;
    assert |c6| == 2 && |c5| == 4 && |c4| == 8 && |c3| == 12 && |c2| == 14 && |c1| == 16 && |c0| == 20;
    var b := c[..20];
    assert b[..4] == vs[0];
    assert b[4..6] == vs[1];
    assert b[6..8] == vs[2];
    assert b[8..12] == vs[3];
    assert b[18..20] == vs[6];
    assert c[20..] == rest;
  }

  /** The 20 bytes of a "fmt " chunk after its tag, read field by field. */
  function ReadFmt(src: Source): (r: Option<Field<FmtChunk>>)
    ensures r.Some? ==> && |src.content| >= 20
                        && r.value.value == DecodeFmt(src.content[..20])
                        && r.value.rest.content == src.content[20..]
    ensures src.replies == [] ==> (r.Some? <==> |src.content| >= 20)
    ensures src.replies == [] && r.Some? ==> r.value.rest.replies == []
  {
    assert Sum(FmtWidths) == 20;
    ReadFieldsOnFile(src, FmtWidths);
    match ReadFields(src, FmtWidths)
    case None => None
    case Some(f) =>
      var vs := f.value;
      FitsIndex(vs, FmtWidths);
      FmtSlices(vs, f.rest.content);
      var len := DecodeLe32(vs[0]);
      var fmt := Fmt(DecodeLe16(vs[1]), DecodeLe16(vs[2]), DecodeLe32(vs[3]), DecodeLe16(vs[6]));
      Some(Field(FmtChunk(len, fmt), f.rest))
  }

  /** The `while (1)` chunk loop of `wav_read_init`, with the format seen so far: a "fmt "
      chunk replaces it (its declared length must cover the 16 bytes read, and the excess is
      skipped), a "data" chunk ends the scan right after its length, and any other chunk is
      skipped by its length. */
  function Chunks(src: Source, fmt: Option<Fmt>): (r: Result<(Option<Fmt>, Source)>)
    ensures r.Ok? ==> |r.value.1.content| + 8 <= |src.content|
    decreases |src.content|
  {
    match ReadTag(src)
    case None => Err("TAG read error")
    case Some(t) =>
      if CmpTag(t.value, TagFmt) then
        match ReadFmt(t.rest)
        case None => Err("fmt header read error")
        case Some(f) =>
          var skip := ToInt32(f.value.len) - 16;
          if skip < 0 then Err("fmt length error")
          else if skip == 0 then Chunks(f.rest, Some(f.value.fmt))
          else
            var (ok, after) := ReadSkip(f.rest, skip);
            if ok == 0 then Err("fmt header skip error") else Chunks(after, Some(f.value.fmt))
      else if CmpTag(t.value, TagData) then
        match Read32Le(t.rest)
        case None => Err("data len error")
        case Some(len) => Ok((fmt, len.rest))
      else
        match Read32Le(t.rest)
        case None => Err("unknown chunk error")
        case Some(len) =>
          var (ok, after) := ReadSkip(len.rest, ToInt32(len.value));
          if ok == 0 then Err("unknown chunk read error") else Chunks(after, fmt)
  }

  /** The reader for a channel count and sample width, or none. */
  function SelectReader(channels: int, bits: int): (r: Option<Reader>)
    ensures r.Some? <==> (channels == 1 || channels == 2) && (bits == 8 || bits == 16)
    ensures r.Some? ==> r.value.Index() == (if channels == 2 then 1 else 0) + (if bits == 16 then 2 else 0)
  {
    if channels != 1 && channels != 2 then None
    else if bits != 8 && bits != 16 then None
    else if channels == 1 && bits == 8 then Some(Read1u8)
    else if channels == 2 && bits == 8 then Some(Read2u8)
    else if channels == 1 then Some(Read1s16le)
    else Some(Read2s16le)
  }

  /** `wav_read_init`: the RIFF and WAVE tags around a 4-byte length, the chunk scan, then the
      format checks. Without a "fmt " chunk the format id is still 0 and is rejected. */
  function ReadInit(src: Source, k: Consts.Consts): (r: Result<WavIn>)
    ensures r.Ok? ==> && |src.content| >= 12
                      && src.content[..4] == TagRiff && src.content[8..12] == TagWave
    ensures r.Ok? <==> && |src.content| >= 12
                       && ReadTag(src).Some? && CmpTag(ReadTag(src).value.value, TagRiff)
                       && Read32Le(ReadTag(src).value.rest).Some?
                       && var w := ReadTag(Read32Le(ReadTag(src).value.rest).value.rest);
                       && w.Some? && CmpTag(w.value.value, TagWave)
                       && var c := Chunks(w.value.rest, None);
                       && c.Ok? && c.value.0.Some? && c.value.0.value.fmtid == 1
                       && SelectReader(c.value.0.value.channels, c.value.0.value.bits).Some?
    ensures r.Ok? ==> r.value.enc == k.encU8 && |r.value.rest.content| + 20 <= |src.content|
  {
    match ReadTag(src)
    case None => Err("WAVE header read error")
    case Some(riff) =>
      if !CmpTag(riff.value, TagRiff) then Err("WAVE header read error")
      else match Read32Le(riff.rest)
      case None => Err("WAVE header read error")
      case Some(len) =>
        match ReadTag(len.rest)
        case None => Err("WAVE header read error")
        case Some(wave) =>
          if !CmpTag(wave.value, TagWave) then Err("WAVE header read error")
          else
            CmpTagIff(riff.value, TagRiff);
            CmpTagIff(wave.value, TagWave);
            assert src.content[8..12] == len.rest.content[..4];
            Accept(Chunks(wave.rest, None), k)
  }

  /** The end of `wav_read_init`: after the chunk scan, the format must be PCM (id 1) with a
      channel count and sample width one of the readers handles; the samples are then read
      as 8-bit unsigned. */
  function Accept(c: Result<(Option<Fmt>, Source)>, k: Consts.Consts): (r: Result<WavIn>)
    ensures r.Ok? <==> && c.Ok? && c.value.0.Some? && c.value.0.value.fmtid == 1
                       && SelectReader(c.value.0.value.channels, c.value.0.value.bits).Some?
    ensures r.Ok? ==> && r.value.enc == k.encU8 && r.value.rest == c.value.1
                      && r.value.freq == c.value.0.value.freq
                      && r.value.reader == SelectReader(c.value.0.value.channels, c.value.0.value.bits).value
  {
    match c
    case Err(e) => Err(e)
    case Ok((fmt, rest)) =>
      if fmt.None? || fmt.value.fmtid != 1 then Err("fmtid is not supported")
      else match SelectReader(fmt.value.channels, fmt.value.bits)
      case None => Err("WAV unsupported channel count or bitpersample")
      case Some(rd) => Ok(WavIn(k.encU8, fmt.value.freq, rd, rest))
  }

  /** On a regular file that starts with "RIFF", a length and "WAVE", the reader's verdict is
      that of the chunk scan over the rest, whatever the RIFF length says. */
  lemma ReadInitOn(k: Consts.Consts, lenBytes: seq<byte>, chunks: seq<byte>)
    requires |lenBytes| == 4
    ensures ReadInit(Source(TagRiff + (lenBytes + (TagWave + chunks)), []), k)
            == Accept(Chunks(Source(chunks, []), None), k)
  {
    ReadTagOn(TagRiff, lenBytes + (TagWave + chunks));
    TagIs(TagRiff, TagRiff);
    Read32LeOn(lenBytes, TagWave + chunks);
    ReadTagOn(TagWave, chunks);
    TagIs(TagWave, TagWave);
  }

  /** `(a + b) >> 1` on two unsigned bytes: the average rounded down. */
  function Avg(a: byte, b: byte): (r: byte)
    ensures 2 * r <= a + b <= 2 * r + 1
  {
    (a + b) / 2
  }

  /** `buf` with `out` stored right after its valid bytes and the valid length set to
      `length`. */
  function Place(buf: Block, out: seq<byte>, length: int): (r: Block)
    requires buf.Valid() && buf.length + |out| <= |buf.data|
    ensures |r.data| == |buf.data| && r.length == length
    ensures r.data[..buf.length] == buf.data[..buf.length]
    ensures r.data[buf.length..buf.length + |out|] == out
  {
    Block(buf.data[..buf.length] + out + buf.data[buf.length + |out|..], length)
  }

  /** The mono bytes of stereo 8-bit frames: each pair averaged. */
  function MixU8(got: seq<byte>): (r: seq<byte>)
    ensures |r| == |got| / 2
    ensures forall i :: 0 <= i < |r| ==> r[i] == Avg(got[2 * i], got[2 * i + 1])
  {
    seq(|got| / 2, i requires 0 <= i < |got| / 2 => Avg(got[2 * i], got[2 * i + 1]))
  }

  /** The unsigned high bytes of 16-bit little-endian mono samples. */
  function HighLe(got: seq<byte>): (r: seq<byte>)
    ensures |r| == |got| / 2
    ensures forall i :: 0 <= i < |r| ==> r[i] == FlipSign(got[2 * i + 1])
  {
    seq(|got| / 2, i requires 0 <= i < |got| / 2 => FlipSign(got[2 * i + 1]))
  }

  /** The averaged unsigned high bytes of 16-bit little-endian stereo frames. */
  function MixLe(got: seq<byte>): (r: seq<byte>)
    ensures |r| == |got| / 4
    ensures forall i :: 0 <= i < |r| ==> r[i] == Avg(FlipSign(got[4 * i + 1]), FlipSign(got[4 * i + 3]))
  {
    seq(|got| / 4, i requires 0 <= i < |got| / 4 => Avg(FlipSign(got[4 * i + 1]), FlipSign(got[4 * i + 3])))
  }

  /** One `readbuf` into a stack buffer of `want` bytes, with what the readers rely on. */
  function Fetch(src: Source, want: nat): (f: Filled)
    ensures f.ret < 0 ==> f.ret == -1 && !NoFault(src.replies)
    ensures f.ret >= 0 ==> f.ret == |f.got|
    ensures |f.got| <= want && |f.got| <= |src.content|
    ensures f.got == src.content[..|f.got|] && f.rest.content == src.content[|f.got|..]
    ensures NoFault(src.replies) ==> f.ret == Min(want, |src.content|)
  {
    var f := ReadBuf(src, want);
    assert src.content[..|f.got|] == f.got;
    f
  }

  /** Whole units in at most `free` units' worth of bytes: at most `free`. */
  lemma UnitsFit(bytes: int, free: int, unit: int)
    requires unit > 0 && 0 <= bytes <= free * unit
    ensures bytes / unit <= free
  {
  }

  /** The caller's input block is never larger than the device block, so the readers' stack
      buffers of 2 and 4 device blocks hold every request. */
  predicate FitsTmp(buf: Block, k: Consts.Consts)
  {
    buf.Valid() && |buf.data| <= k.xpBufsize
  }

  /** The common end of the readers that store one byte per whole unit read: nothing changes
      when nothing was read; otherwise the converted bytes `out` are stored after the valid
      ones and the valid length grows by their number. */
  function Deliver(src: Source, buf: Block, f: Filled, out: seq<byte>, unit: pos): (r: ReadStep)
    requires buf.Valid() && 0 <= f.ret == |f.got| <= unit * (|buf.data| - buf.length)
    requires |f.got| <= |src.content| && f.got == src.content[..|f.got|]
    requires f.rest.content == src.content[|f.got|..]
    requires |out| == |f.got| / unit
    ensures r.buf.Valid() && |r.buf.data| == |buf.data| && r.buf.data[..buf.length] == buf.data[..buf.length]
    ensures r.ret == r.buf.length && r.rest == f.rest
    ensures |src.content| - |r.rest.content| == |f.got| && r.buf.length == buf.length + |f.got| / unit
    ensures r.buf.data[buf.length..r.buf.length] == out
  {
    UnitsFit(|f.got|, |buf.data| - buf.length, unit);
    if f.ret == 0 then ReadStep(buf.length, buf, f.rest)
    else ReadStep(buf.length + |out|, Place(buf, out, buf.length + |out|), f.rest)
  }

  /** `wav_read_2u8` as written: up to two bytes per free byte are read, each pair becomes one
      averaged byte, but the valid length grows by the number of bytes READ. */
  function Read2u8Step(src: Source, buf: Block, k: Consts.Consts): (r: ReadStep)
    requires FitsTmp(buf, k)
    ensures |r.buf.data| == |buf.data| && r.buf.data[..buf.length] == buf.data[..buf.length]
    ensures r.ret < 0 ==> r.ret == -1 && r.buf == buf && !NoFault(src.replies)
    ensures r.ret >= 0 ==> r.ret == r.buf.length
    ensures r.ret >= 0 ==>
              var n := r.buf.length - buf.length;
              && 0 <= n <= 2 * (|buf.data| - buf.length) && n <= |src.content|
              && r.rest.content == src.content[n..]
    ensures r.ret >= 0 ==>
              var n := r.buf.length - buf.length;
              buf.length + n / 2 <= |buf.data| && r.buf.data[buf.length..buf.length + n / 2] == MixU8(src.content[..n])
    ensures NoFault(src.replies) ==>
              r.buf.length == buf.length + Min(2 * (|buf.data| - buf.length), |src.content|)
  {
    var f := Fetch(src, (|buf.data| - buf.length) * 2);
    if f.ret < 0 then ReadStep(f.ret, buf, f.rest)
    else if f.ret == 0 then
      assert MixU8(src.content[..0]) == [];
      ReadStep(buf.length, buf, f.rest)
    else
      UnitsFit(|f.got|, |buf.data| - buf.length, 2);
      var nb := Place(buf, MixU8(f.got), buf.length + f.ret);
      ReadStep(nb.length, nb, f.rest)
  }

  /** `wav_read_1s16le`: the high byte of each 16-bit sample, sign-flipped; the length grows
      by the number of whole samples read, and an odd trailing byte is consumed and dropped. */
  function Read1s16leStep(src: Source, buf: Block, k: Consts.Consts): (r: ReadStep)
    requires FitsTmp(buf, k)
    ensures r.buf.Valid() && |r.buf.data| == |buf.data| && r.buf.data[..buf.length] == buf.data[..buf.length]
    ensures r.ret < 0 ==> r.ret == -1 && r.buf == buf && !NoFault(src.replies)
    ensures r.ret >= 0 ==> r.ret == r.buf.length
    ensures r.ret >= 0 ==>
              var n := |src.content| - |r.rest.content|;
              && 0 <= n <= 2 * (|buf.data| - buf.length)
              && r.rest.content == src.content[n..] && r.buf.length == buf.length + n / 2
    ensures r.ret >= 0 ==>
              r.buf.data[buf.length..r.buf.length] == HighLe(src.content[..|src.content| - |r.rest.content|])
    ensures NoFault(src.replies) ==>
              r.buf.length == buf.length + Min(2 * (|buf.data| - buf.length), |src.content|) / 2
  {
    var f := Fetch(src, (|buf.data| - buf.length) * 2);
    if f.ret < 0 then ReadStep(f.ret, buf, f.rest)
    else Deliver(src, buf, f, HighLe(f.got), 2)
  }

  /** `wav_read_2s16le`: per 4-byte stereo frame, the average of the two sign-flipped high
      bytes; the length grows by the number of whole frames read. */
  function Read2s16leStep(src: Source, buf: Block, k: Consts.Consts): (r: ReadStep)
    requires FitsTmp(buf, k)
    ensures r.buf.Valid() && |r.buf.data| == |buf.data| && r.buf.data[..buf.length] == buf.data[..buf.length]
    ensures r.ret < 0 ==> r.ret == -1 && r.buf == buf && !NoFault(src.replies)
    ensures r.ret >= 0 ==> r.ret == r.buf.length
    ensures r.ret >= 0 ==>
              var n := |src.content| - |r.rest.content|;
              && 0 <= n <= 4 * (|buf.data| - buf.length)
              && r.rest.content == src.content[n..] && r.buf.length == buf.length + n / 4
    ensures r.ret >= 0 ==>
              r.buf.data[buf.length..r.buf.length] == MixLe(src.content[..|src.content| - |r.rest.content|])
    ensures NoFault(src.replies) ==>
              r.buf.length == buf.length + Min(4 * (|buf.data| - buf.length), |src.content|) / 4
  {
    var f := Fetch(src, (|buf.data| - buf.length) * 4);
    if f.ret < 0 then ReadStep(f.ret, buf, f.rest)
    else Deliver(src, buf, f, MixLe(f.got), 4)
  }

  /** The reader `wav_read_init` installs, applied once. Every reader keeps the block's
      storage and its valid prefix; all but the stereo 8-bit one also keep the valid length
      within the block. */
  function ReadWith(rd: Reader, src: Source, buf: Block, k: Consts.Consts): (r: ReadStep)
    requires FitsTmp(buf, k)
    ensures |r.buf.data| == |buf.data| && buf.length <= r.buf.length
    ensures r.buf.data[..buf.length] == buf.data[..buf.length]
    ensures r.ret < 0 ==> r.ret == -1 && r.buf.length == buf.length && !NoFault(src.replies)
    ensures r.ret >= 0 ==> r.ret == r.buf.length
    ensures rd != Read2u8 ==> r.buf.Valid()
  {
    match rd
    case Read1u8 => ReadAppend(src, buf)
    case Read2u8 => Read2u8Step(src, buf, k)
    case Read1s16le => Read1s16leStep(src, buf, k)
    case Read2s16le => Read2s16leStep(src, buf, k)
  }

  /** The evidently intended dispatch: the same readers with the corrected stereo 8-bit one,
      so that every reader keeps the valid length within the block. */
  function ReadWithFixed(rd: Reader, src: Source, buf: Block, k: Consts.Consts): (r: ReadStep)
    requires FitsTmp(buf, k)
    ensures r.buf.Valid() && |r.buf.data| == |buf.data| && buf.length <= r.buf.length
    ensures r.buf.data[..buf.length] == buf.data[..buf.length]
    ensures r.ret < 0 ==> r.ret == -1 && r.buf.length == buf.length && !NoFault(src.replies)
    ensures r.ret >= 0 ==> r.ret == r.buf.length
    ensures rd != Read2u8 ==> r == ReadWith(rd, src, buf, k)
  {
    match rd
    case Read1u8 => ReadAppend(src, buf)
    case Read2u8 => Read2u8Fixed(src, buf, k)
    case Read1s16le => Read1s16leStep(src, buf, k)
    case Read2s16le => Read2s16leStep(src, buf, k)
  }

  /** As written, one call of the stereo 8-bit reader on an empty 2-byte block fed 4 bytes
      reports 4 valid bytes: more than the block holds. */
  lemma Read2u8Overruns(k: Consts.Consts)
    requires k.xpBufsize >= 2
    ensures var r := Read2u8Step(Source([10, 20, 30, 40], []), Block([0, 0], 0), k);
            r.ret == 4 && r.buf.length == 4 && !r.buf.Valid()
  {
  }

  /** The evidently intended stereo 8-bit reader: the length grows by the number of averaged
      bytes stored, as the other readers do. */
  function Read2u8Fixed(src: Source, buf: Block, k: Consts.Consts): (r: ReadStep)
    requires FitsTmp(buf, k)
    ensures r.buf.Valid() && |r.buf.data| == |buf.data| && r.buf.data[..buf.length] == buf.data[..buf.length]
    ensures r.ret < 0 ==> r.ret == -1 && r.buf == buf && !NoFault(src.replies)
    ensures r.ret >= 0 ==> r.ret == r.buf.length
    ensures r.ret >= 0 ==>
              var n := |src.content| - |r.rest.content|;
              && 0 <= n <= 2 * (|buf.data| - buf.length)
              && r.rest.content == src.content[n..] && r.buf.length == buf.length + n / 2
    ensures r.ret >= 0 ==>
              r.buf.data[buf.length..r.buf.length] == MixU8(src.content[..|src.content| - |r.rest.content|])
    ensures NoFault(src.replies) ==>
              r.buf.length == buf.length + Min(2 * (|buf.data| - buf.length), |src.content|) / 2
  {
    var f := Fetch(src, (|buf.data| - buf.length) * 2);
    if f.ret < 0 then ReadStep(f.ret, buf, f.rest)
    else Deliver(src, buf, f, MixU8(f.got), 2)
  }

  lemma Read2u8FixedFills(src: Source, buf: Block, k: Consts.Consts)
    requires FitsTmp(buf, k) && src.replies == [] && |src.content| >= 2 * (|buf.data| - buf.length)
    ensures Read2u8Fixed(src, buf, k).buf.length == |buf.data|
  {
  }

  /** The "fmt " chunk `wav_write_close` writes after the tag: length 16, PCM (1), one
      channel, `freq` as both sample rate and byte rate, alignment 1, 8 bits per sample. */
  function FmtFields(freq: int): seq<seq<byte>>
  {
    [Le32(16), Le16(1), Le16(1), Le32(Trunc32(freq)), Le32(Trunc32(freq)), Le16(1), Le16(8)]
  }

  /** The header fields in the order they are written; the RIFF length counts the "WAVE"
      tag, the 24-byte format chunk and the 8-byte data chunk header besides the data. */
  function HeaderFields(freq: int, datalen: int): seq<seq<byte>>
  {
    [TagRiff, Le32(Trunc32(4 + 24 + 8 + datalen)), TagWave, TagFmt]
    + FmtFields(freq)
    + [TagData, Le32(Trunc32(datalen))]
  }

  function Header(freq: int, datalen: int): seq<byte>
  {
    Concat(HeaderFields(freq, datalen))
  }

  lemma {:induction false} ConcatAppend(a: seq<seq<byte>>, b: seq<seq<byte>>)
    ensures Concat(a + b) == Concat(a) + Concat(b)
    decreases |a|
  {
    if a == [] {
      assert a + b == b;
    } else {
      assert (a + b)[1..] == a[1..] + b;
      ConcatAppend(a[1..], b);
    }
  }

  lemma ConcatPair(a: seq<byte>, more: seq<seq<byte>>)
    ensures Concat([a] + more) == a + Concat(more)
  {
    assert ([a] + more)[1..] == more;
  }

  /** The written format chunk is 20 bytes and reads back as PCM, one channel, `freq`, 8 bits,
      with declared length 16. */
  lemma FmtFieldsDecode(freq: uint32)
    ensures |Concat(FmtFields(freq))| == 20
    ensures DecodeFmt(Concat(FmtFields(freq))) == FmtChunk(16, Fmt(1, 1, freq, 8))
  {
    var vs := FmtFields(freq);
    FmtSlices(vs, []);
    assert Concat(vs) + [] == Concat(vs);
  }

  /** The header is 44 bytes: the RIFF tag and length, the WAVE tag, the format chunk, and
      the data chunk's tag and length, in this order. */
  lemma HeaderLayout(freq: int, datalen: int, data: seq<byte>)
    ensures |Header(freq, datalen)| == 44
    ensures Header(freq, datalen) + data
            == TagRiff + (Le32(Trunc32(36 + datalen)) + (TagWave + (TagFmt + (Concat(FmtFields(freq))
               + (TagData + (Le32(Trunc32(datalen)) + data))))))
  {
    var head := [TagRiff, Le32(Trunc32(4 + 24 + 8 + datalen)), TagWave, TagFmt];
    var fmt := FmtFields(freq);
    var tail := [TagData, Le32(Trunc32(datalen))];
    ConcatAppend(head + fmt, tail);
    ConcatAppend(head, fmt);
    ConcatPair(TagFmt, []);
    ConcatPair(TagWave, [TagFmt]);
    ConcatPair(head[1], [TagWave, TagFmt]);
    ConcatPair(TagRiff, [head[1], TagWave, TagFmt]);
    ConcatPair(tail[1], []);
    ConcatPair(TagData, [tail[1]]);
    FmtSlices(fmt, []);
    assert Concat(fmt) + [] == Concat(fmt);
  }

  lemma AppendAssoc(a: seq<byte>, b: seq<byte>, c: seq<byte>)
    ensures (a + b) + c == a + (b + c)
  {
  }

  /** The `&&` chain of field writes: each field written with one call, stopping at the
      first that is not written in full. */
  function WriteFields(sink: Sink, fields: seq<seq<byte>>): (r: (bool, Sink))
    requires forall i :: 0 <= i < |fields| ==> |fields[i]| > 0
    ensures r.0 ==> r.1.written == sink.written + Concat(fields)
    ensures sink.replies == [] ==> r.0 && r.1.replies == []
    decreases |fields|
  {
    if fields == [] then (true, sink)
    else
      var w := WriteExact(sink, fields[0]);
      if w.ret == 0 then (false, w.rest)
      else
        var r := WriteFields(w.rest, fields[1..]);
        assert r.0 ==> r.1.written == sink.written + (fields[0] + Concat(fields[1..]));
        r
  }

  /** The copy loop of `wav_write_close`: the temporary file is read back in blocks of 4096
      bytes and each block is written to the real output. */
  function CopyOut(tmp: Source, out: Sink): (r: (bool, Sink))
    ensures r.0 ==> r.1.written == out.written + tmp.content
    ensures tmp.replies == [] && out.replies == [] ==> r.0 && r.1.replies == []
    decreases |tmp.content|
  {
    var f := ReadBuf(tmp, 4096);
    if f.ret == 0 then (true, out)
    else if f.ret < 0 then (false, out)
    else
      var w := WriteBuf(out, f.got, f.ret);
      if w.ret < 0 then (false, w.rest)
      else
        assert f.got[..f.ret] == f.got;
        var mid := out.written + f.got;
        assert w.rest.written == mid;
        var r := CopyOut(f.rest, w.rest);
        assert mid + f.rest.content == out.written + tmp.content by {
          assert tmp.content == f.got + f.rest.content;
          AppendAssoc(out.written, f.got, f.rest.content);
        }
        r
  }

  /** `wav_write_close`: the samples went to a temporary file whose size is the data length
      (cut to `int32_t`); the header is written to the real output, then the samples. Returns
      0, or -1 when a write or the read-back fails. */
  function WriteClose(out: Sink, tmp: Source, freq: int): (r: Flushed)
    ensures r.ret == 0 || r.ret == -1
    ensures r.ret == 0 ==>
              r.rest.written == out.written + Header(freq, ToInt32(Trunc32(|tmp.content|))) + tmp.content
    ensures out.replies == [] && tmp.replies == [] ==> r.ret == 0
  {
    var datalen := ToInt32(Trunc32(|tmp.content|));
    var fields := HeaderFields(freq, datalen);
    assert forall i :: 0 <= i < |fields| ==> |fields[i]| > 0;
    var (ok, s) := WriteFields(out, fields);
    if !ok then Flushed(-1, s)
    else
      var (copied, s2) := CopyOut(tmp, s);
      Flushed(if copied then 0 else -1, s2)
  }

  /** On a regular file, the format fields are the next 20 bytes. */
  lemma ReadFmtOn(a: seq<byte>, b: seq<byte>)
    requires |a| == 20
    ensures ReadFmt(Source(a + b, [])) == Some(Field(DecodeFmt(a), Source(b, [])))
  {
    assert (a + b)[..20] == a && (a + b)[20..] == b;
  }

  /** The tag read from a literal's four bytes compares equal to that literal only. */
  lemma TagIs(a: seq<byte>, s: seq<byte>)
    requires |a| == 4 && |s| == 4
    ensures CmpTag(DecodeBe32(a), s) <==> a == s
  {
    Be32Bijective(a);
    CmpTagIff(DecodeBe32(a), s);
  }

  /** A "data" chunk header ends the scan, leaving the descriptor at the first sample. */
  lemma ChunksStopAtData(fmt: Option<Fmt>, lenBytes: seq<byte>, rest: seq<byte>)
    requires |lenBytes| == 4
    ensures Chunks(Source(TagData + (lenBytes + rest), []), fmt) == Ok((fmt, Source(rest, [])))
  {
    ReadTagOn(TagData, lenBytes + rest);
    TagIs(TagData, TagFmt);
    TagIs(TagData, TagData);
    Read32LeOn(lenBytes, rest);
  }

  /** A "fmt " chunk whose declared length is 16 plus the size of `extra` is taken as the
      current format, and `extra` is skipped. */
  lemma ChunksTakeFmt(fmt: Option<Fmt>, fmtBytes: seq<byte>, extra: seq<byte>, rest: seq<byte>)
    requires |fmtBytes| == 20 && ToInt32(DecodeLe32(fmtBytes[..4])) == 16 + |extra|
    ensures Chunks(Source(TagFmt + (fmtBytes + (extra + rest)), []), fmt)
            == Chunks(Source(rest, []), Some(DecodeFmt(fmtBytes).fmt))
  {
    ReadTagOn(TagFmt, fmtBytes + (extra + rest));
    TagIs(TagFmt, TagFmt);
    ReadFmtOn(fmtBytes, extra + rest);
    if |extra| > 0 {
      ReadSkipOn(extra, rest);
    } else {
      assert extra + rest == rest;
    }
  }

  /** A "fmt " chunk that declares fewer than the 16 bytes the reader consumes is rejected. */
  lemma ChunksRejectShortFmt(fmt: Option<Fmt>, fmtBytes: seq<byte>, rest: seq<byte>)
    requires |fmtBytes| == 20 && ToInt32(DecodeLe32(fmtBytes[..4])) < 16
    ensures Chunks(Source(TagFmt + (fmtBytes + rest), []), fmt).Err?
  {
    ReadTagOn(TagFmt, fmtBytes + rest);
    TagIs(TagFmt, TagFmt);
    ReadFmtOn(fmtBytes, rest);
  }

  /** A chunk of any other kind with a positive length is skipped whole. */
  lemma ChunksSkipOther(fmt: Option<Fmt>, tag: seq<byte>, lenBytes: seq<byte>, body: seq<byte>, rest: seq<byte>)
    requires |tag| == 4 && tag != TagFmt && tag != TagData
    requires |lenBytes| == 4 && ToInt32(DecodeLe32(lenBytes)) == |body| > 0
    ensures Chunks(Source(tag + (lenBytes + (body + rest)), []), fmt) == Chunks(Source(rest, []), fmt)
  {
    ReadTagOn(tag, lenBytes + (body + rest));
    TagIs(tag, TagFmt);
    TagIs(tag, TagData);
    Read32LeOn(lenBytes, body + rest);
    ReadSkipOn(body, rest);
  }

  /** As written, an unknown chunk declared empty is rejected: skipping 0 bytes reports 0,
      which the caller takes for a failed skip. */
  lemma ChunksRejectEmptyOther(fmt: Option<Fmt>, tag: seq<byte>, rest: seq<byte>)
    requires |tag| == 4 && tag != TagFmt && tag != TagData
    ensures Chunks(Source(tag + (Le32(0) + rest), []), fmt).Err?
  {
    ReadTagOn(tag, Le32(0) + rest);
    TagIs(tag, TagFmt);
    TagIs(tag, TagData);
    Read32LeOn(Le32(0), rest);
  }

  /** On empty, error-free descriptors the close succeeds and the output is the header
      followed by the samples. */
  lemma WriteCloseOn(freq: uint32, data: seq<byte>)
    ensures var out := WriteClose(Sink([], []), Source(data, []), freq);
            && out.ret == 0
            && out.rest.written == Header(freq, ToInt32(Trunc32(|data|))) + data
  {
    var none: seq<byte> := [];
    assert none + Header(freq, ToInt32(Trunc32(|data|))) == Header(freq, ToInt32(Trunc32(|data|)));
  }

  /** The chunks after "WAVE" in a written file: the format chunk is taken and the scan stops
      at the samples. */
  lemma WrittenChunks(freq: uint32, lenBytes: seq<byte>, data: seq<byte>)
    requires |lenBytes| == 4
    ensures Chunks(Source(TagFmt + (Concat(FmtFields(freq)) + (TagData + (lenBytes + data))), []), None)
            == Ok((Some(Fmt(1, 1, freq, 8)), Source(data, [])))
  {
    var fb := Concat(FmtFields(freq));
    FmtFieldsDecode(freq);
    var dataHead := TagData + (lenBytes + data);
    var none: seq<byte> := [];
    assert none + dataHead == dataHead;
    ChunksTakeFmt(None, fb, none, dataHead);
    ChunksStopAtData(Some(Fmt(1, 1, freq, 8)), lenBytes, data);
  }

  /** A header written for `freq`, whatever data length it records, reads back as 8-bit
      unsigned mono at `freq` with the samples right after it. */
  lemma ReadBackHeader(k: Consts.Consts, freq: uint32, datalen: int, data: seq<byte>)
    ensures ReadInit(Source(Header(freq, datalen) + data, []), k)
            == Ok(WavIn(k.encU8, freq, Read1u8, Source(data, [])))
  {
    HeaderLayout(freq, datalen, data);
    var lenBytes := Le32(Trunc32(datalen));
    var chunks := TagFmt + (Concat(FmtFields(freq)) + (TagData + (lenBytes + data)));
    ReadInitOn(k, Le32(Trunc32(36 + datalen)), chunks);
    WrittenChunks(freq, lenBytes, data);
  }

  /** What `wav_write_close` writes, `wav_read_init` accepts: 8-bit unsigned mono at the same
      rate, read with the plain 1-channel 8-bit reader starting at the first sample. */
  lemma WavRoundTrip(k: Consts.Consts, freq: uint32, data: seq<byte>)
    ensures var out := WriteClose(Sink([], []), Source(data, []), freq);
            && out.ret == 0
            && ReadInit(Source(out.rest.written, []), k)
               == Ok(WavIn(k.encU8, freq, Read1u8, Source(data, [])))
  {
    WriteCloseOn(freq, data);
    ReadBackHeader(k, freq, ToInt32(Trunc32(|data|)), data);
  }
}

=== FILE: wrappers.dfy ===
/** Failure-carrying result types shared by every module of the model. */
module Wrappers {

  /** A value that may be absent: a NULL pointer, a table miss, a selector with no case. */
  datatype Option<+T> = None | Some(value: T)

  /** The outcome of an operation whose C original either succeeds or reports a diagnostic
      and gives up (returns -1, or terminates the process through err/errx). */
  datatype Result<+T> = Ok(value: T) | Err(msg: string)
}
